=== FILE: README.md ===
# Reviewer: IMDB reviews, class-based TF-IDF and word clouds, in Dafny

This project models the core of the Reviewer repository, and it covers four
parts:

- **Resolving titles to IMDB review pages.** The Disney and Pixar film lists
  are read from Wikipedia tables, and each film gets a search term
  `"<film>%20<year>"`. The first IMDB search result whose year is within two
  years of the term's year wins. Two fixed URLs are the fallbacks: one for
  titles with no match, and a hard-wired one for "Onward".
- **Collecting the reviews.** This covers the Scrapy spider with its `start_requests`,
  `parse` and "load more" pagination, the Selenium-based `scrape_reviews` and
  `extract_reviews`, and `parse_data`, which groups the scraped records by
  movie.
- **Scoring words.** `prepare_data` and class-based TF-IDF (`c_tf_idf`) score the
  words. The top-n extraction ranks them either by plain score or by
  "relative importance", which is a movie's score divided by the sum of the
  other columns. `get_top_n_words` gives plain counts.
- **The word-cloud helpers.** These cover loading a movie's word list (the
  `load_data` / `load_disney_data` variants), `preprocess_data`, the mask
  upscaling in `load_mask`, the `save_image` file naming, `MovieNotFoundError`'s
  message, and `ImageColorGenerator`.

Python dicts are association lists (`PyDict.Dict`), which keep insertion order,
and `d[k] = v` keeps an existing key in place. numpy and pandas floats are
extended reals (`ExtReal.Ext`), so division by zero gives infinities or NaN.
Sums with `skipna` and the descending sort that puts NaN last are both written
out. Network access, files, the browser and third-party libraries all become
function parameters:

| parameter | stands for |
|---|---|
| `search` | the IMDB search page |
| `fetch` | the fully loaded review page |
| `vectorize` | scikit-learn's `CountVectorizer` |
| `ln` | `np.log` |
| `mean`, `toHls`, `toRgb` | `np.mean` over the patch, and `colorsys` |

Errors are `Result` values that carry the Python exception (`Utils.Failure`).

Modules:

| module | contents |
|---|---|
| `Wrappers` | `Option` and `Result` |
| `Text` | `strip`, `split`, `join`, `int()`, `str()`, `upper` |
| `PyDict` | dict operations |
| `Utils` | `MovieNotFoundError` and the failure kinds |
| `Years` | `match_years` |
| `Resolver` | the Wikipedia tables and `scrape_*_imdb_urls` |
| `Corpus` | the spider, `parse_data`, `extract_reviews`, `scrape_reviews` |
| `ExtReal` | float arithmetic |
| `Ranking` | descending sort and `[:n]` |
| `ClassTfidf` | `prepare_data`, `c_tf_idf`, top-n extraction, `get_top_n_words` |
| `Relative` | relative importance |
| `Generate` | the `generate` pipelines |
| `Clouds` | data loading and `preprocess_data` |
| `Mask` | `load_mask` |
| `SaveName` | `save_image` |
| `Colors` | `ImageColorGenerator` |

Where the code and the repository's own description differ, the model follows
the code:

- A failing `match_years` (no digit in a result, or a bad year in a term)
  raises and aborts the whole URL scrape. A matching result without a link
  does the same. Nothing catches either exception.
- `save_image`'s docstring promises "result1.png" → "result2.png". The code
  writes `result_<highest+1>.png`. It writes plain `result.png` when no saved
  name carries a number, even if `result.png` already exists.
- In `Reviewer/tfidf.py` only `extract_top_n_tfidf` runs from `generate`,
  because the relative call is commented out. `Disney/tfidf.py` runs both.

## Model

| member | source | states |
|---|---|---|
| Text.Strip | Reviewer/scraper.py:82 | `str.strip()`: the result is a slice of the input with only whitespace cut on either side, and it neither starts nor ends with whitespace |
| Text.Split | Reviewer/scraper.py:82 | `str.split(sep)`: no field contains the separator, and joining the fields with it gives back the input |
| Text.SplitJoin | Reviewer/scraper.py:141 | splitting a join of separator-free fields gives back the fields (the inverse direction of `Split`) |
| Text.LastField | Reviewer/scraper.py:82 | `split(sep)[-1]`: the suffix after the last separator, which holds no separator itself |
| Text.ParseInt | Reviewer/scraper.py:136 | `int(s)` succeeds exactly when the stripped text is an optionally signed, non-empty run of ASCII digits |
| Text.ParseIntRoundTrip | Reviewer/scraper.py:141 | `int(str(n)) == n` for every natural number |
| Text.NatToString | Reviewer/cloud.py:156 | `str(n)`: a non-empty digit string whose decimal value is `n`, with no leading zero unless `n` is 0 |
| Text.Upper | Reviewer/cloud.py:104 | `str.upper()`: same length, each letter upper-cased position by position |
| Text.StripKeepsAbsent | Reviewer/scraper.py:82 | stripping never introduces a character that was absent |
| Years.LastDigitRun | Reviewer/scraper.py:139-141 | the last maximal run of digits in a text: empty exactly when the text holds no digit, otherwise a run that ends just before a stretch containing no digits |
| Years.YearTextIsLastDigitRun | Reviewer/scraper.py:139-141 | the two `re.sub` calls, `strip` and `split(" ")[-1]` together pick out exactly the last digit run of the text |
| Years.CandidateYear | Reviewer/scraper.py:139-141 | the year read from a result is the value of its last digit run, and `int("")` fails exactly when the result contains no digit |
| Years.MatchYears | Reviewer/scraper.py:133-146 | raises exactly when the term's last four characters are not an integer or the result has no digit; otherwise true iff the result's last number is within 2 of the term's year |
| Years.MatchNear | Reviewer/scraper.py:133-146 | for a result text "title, year, closing character" and a term ending in a four-digit year, the match holds exactly when the two years differ by at most 2 |
| Years.MatchTwoApart | Disney/scraper.py:61-74 | "Up (2009)" matches the term "Up%202011" |
| Years.MatchThreeApart | Disney/scraper.py:61-74 | "Up (2009)" does not match the term "Up%202012" |
| Years.MatchWithoutDigits | src/scraper.py:35-48 | a result without any digit makes `match_years` raise instead of answering false |
| Years.TargetYear | Reviewer/scraper.py:136 | the year is the value of the term's last four characters when they are digits; a term shorter than four characters is read whole, as `year[-4:]` does |
| Years.TermYear | Reviewer/scraper.py:136 | a term ending in the digits of `year` yields that year |
| Resolver.ReleaseYear | Reviewer/scraper.py:82 | the Year cell is a slice of the release date lying wholly after its last comma |
| Resolver.ReleaseYearShape | Reviewer/scraper.py:82 | the Year cell holds no comma and has no surrounding whitespace |
| Resolver.ReleaseYearOfDate | Reviewer/scraper.py:82 | for a release date "day month, year" the Year cell is exactly the year |
| Resolver.DropHeaderRows | Reviewer/scraper.py:87 | a row survives iff it was in the table and its Film is not "Released films"; DropHeaderRowsAppend and DropHeaderRowsOne fix the order and the repeats |
| Resolver.DropHeaderRowsAppend | Reviewer/scraper.py:87 | the filter works row by row: the filtered concatenation is the concatenation of the filtered parts, so order and repeated rows are kept |
| Resolver.DropHeaderRowsOne | Reviewer/scraper.py:87 | one row is dropped exactly when its Film is "Released films", and kept otherwise |
| Resolver.DropHeaderRowsNone | Disney/scraper.py:56 | a table without header rows is left as it is |
| Resolver.PixarRows | Reviewer/scraper.py:87-88 | the first min(22, n) rows of the filtered table, n being its length: never a header row, always a row of the table |
| Resolver.PixarRowsPlain | src/scraper.py:25-32 | without header rows the Pixar table is exactly its first 22 rows |
| Resolver.DisneyCatalog | Reviewer/scraper.py:77-96 | the merged catalog lists the Disney films in order, then the kept Pixar films, each with its year |
| Resolver.SearchTermYear | Reviewer/scraper.py:101 | the year `match_years` reads back from a search term is the catalog entry's four-digit year |
| Resolver.FirstDecisive | Reviewer/scraper.py:113-118 | the first result whose check does not answer false: every earlier check answered false |
| Resolver.Pick | Reviewer/scraper.py:113-118 | the first matching result gives `https://www.imdb.com<href>reviews` from its first link; a raising check or a link-less match aborts; no match leaves the title without a URL |
| Resolver.PickIgnoresLater | Reviewer/scraper.py:118 | once a result decides, the results after it are never examined (`break`) |
| Resolver.FirstMatch | Disney/scraper.py:91-96 | the outcome is that of the first result whose year check is not false, or no URL when every check is false |
| Resolver.Resolve | Reviewer/scraper.py:101-118 | a title gets a URL only from a result whose year matches and which has a link (its first href plus "reviews"), and no URL exactly when every result's year check is false |
| Resolver.FirstMatchIgnoresLater | src/scraper.py:66-71 | appending further search results does not change a decided outcome |
| Resolver.NoMatchIsNone | Reviewer/scraper.py:113-118 | when no result matches, the title keeps `None` |
| Resolver.Collect | Reviewer/scraper.py:105-118 | the loop over all titles succeeds iff every title's search succeeds, and otherwise reports the first failure in catalog order |
| Resolver.WithFallback | Reviewer/scraper.py:121 | each title without a URL gets the Saludos Amigos reviews URL; found URLs are kept |
| Resolver.OverrideOnward | Reviewer/scraper.py:124-125 | "Onward", if present, is set to its fixed URL in place; every other key keeps its value and the key order is unchanged |
| Resolver.Titles | Reviewer/scraper.py:100 | the titles are the catalog's Film column, in order |
| Resolver.ScrapeImdbUrls | Reviewer/scraper.py:98-131 | succeeds iff every title's search succeeds, fails with the first failure otherwise, and on success maps exactly the catalog's titles, each once |
| Resolver.UrlTable | Reviewer/scraper.py:121-125 | the URL dict, after the fallback and the Onward override, has exactly the titles as keys, each once |
| Resolver.UrlTableEntry | Reviewer/scraper.py:121 | a title other than "Onward" maps to its own URL or the fallback, taken from its last occurrence in the catalog |
| Resolver.UrlTableOnward | Disney/scraper.py:102-103 | "Onward" always maps to its hard-wired URL |
| Resolver.ScrapedUrl | Disney/scraper.py:76-109 | on success, each title (not "Onward", last occurrence) maps to the URL its own search found, or the fallback |
| Resolver.NoMatchFallback | src/scraper.py:51-84 | a title none of whose results match ends with the fallback URL |
| PyDict.Put | Reviewer/scraper.py:125 | `d[k] = v`: `k` now maps to `v`, all other lookups are unchanged, an existing key keeps its position and a new one is appended |
| PyDict.FromPairsLookup | Reviewer/scraper.py:121 | a dict comprehension maps each key to its last value among the pairs |
| PyDict.FromPairsKeys | Reviewer/scraper.py:121 | a dict comprehension has exactly the keys that occur among the pairs |
| PyDict.FromPairsDistinct | Disney/wc.py:94 | with distinct keys the dict comprehension keeps all pairs in order |
| PyDict.Drop | Reviewer/tfidf.py:112 | `df.drop(movie, 1)`: keeps columns of the frame only, and none named `movie`; an absent label, which pandas rejects, never reaches it because `Importance` requires the movie to be a column |
| PyDict.DropAt | Reviewer/tfidf.py:112 | dropping a column of a frame with distinct names removes exactly that column and keeps the rest in order |
| Corpus.DocsOfSnoc | Reviewer/scraper.py:69-71 | one more record appends its joined text to its own title's documents and to no other |
| Corpus.GroupLookup | Reviewer/scraper.py:66-71 | after the loop each title maps to the joined texts of its records, in record order |
| Corpus.ParseData | Reviewer/scraper.py:61-75 | the keys are the distinct titles (in the order `list(set(...))` yields), each once, and each maps to its records' joined texts in order |
| Corpus.GroupTotal | Reviewer/scraper.py:67-71 | the grouping holds exactly as many documents as there were records |
| Corpus.ParseDataTotal | Reviewer/scraper.py:61-75 | `parse_data` loses no record and invents none |
| Corpus.StartRequests | Reviewer/scraper.py:161-164 | one request per start URL, in order, each remembering its URL as `orig_url` |
| Corpus.UrlJoin | Reviewer/scraper.py:188 | for a base without query or fragment: a base whose path is non-empty has its last path segment replaced by the reference; a bare "scheme://host" gets "/" and then the reference |
| Corpus.UrlJoinReplacesLastSegment | Reviewer/scraper.py:188 | for a base whose path is non-empty (not a bare scheme and host), `urljoin` replaces its last path segment by the relative reference |
| Corpus.UrlJoinHostOnly | Reviewer/scraper.py:188 | `urljoin` onto a bare "scheme://host" puts the reference under the host's root path, as in "https://www.imdb.com" + "reviews/x" giving "https://www.imdb.com/reviews/x" |
| Corpus.PageTitle | Reviewer/scraper.py:172-175 | the title fails with KeyError exactly when the page has no meta title and the request carried none; a meta title is cut before "(" and has no surrounding whitespace; otherwise the carried title is used |
| Corpus.Parse | Reviewer/scraper.py:166-191 | fails only when there is neither a meta title nor a title in the request's meta; yields one item per review block with the page's title; follows exactly when a non-empty data key is present, and the next request carries the original URL and the title |
| Corpus.NextOf | Reviewer/scraper.py:186-191 | the follow-up request exists iff parsing succeeds with a data key, is sent under the original URL's directory, and keeps `orig_url` |
| Corpus.Crawl | Reviewer/scraper.py:186-191 | a crawl over `n` pages issues between 1 and `n + 1` requests, starting with the start request |
| Corpus.CrawlChain | Reviewer/scraper.py:186-191 | each request after the first is the follow-up `parse` makes from the page answering the previous one, and the chain stops only when the pages run out or a page makes no follow-up |
| Corpus.CrawlKeepsOrigin | Reviewer/scraper.py:187-191 | every pagination request of a crawl keeps the start URL as `orig_url` and is addressed under its directory |
| Corpus.ExtractReviews | Disney/scraper.py:111-125 | fails with AttributeError iff some review block lacks a title; otherwise one name per block and the contents of the blocks that have one |
| Corpus.FewerReviewsThanNames | src/scraper.py:87-101 | there are never more reviews than names |
| Corpus.ExtractReviewsMisaligns | Disney/scraper.py:116-123 | a block without content shifts the later reviews, so zipping pairs the first name with the second block's review and drops the last name |
| Corpus.ScrapeReviews | Disney/scraper.py:127-183 | succeeds iff every page extracts; then keeps the URL dict's keys and maps each title to the zip of its page's names and reviews |
| Corpus.Fill | src/scraper.py:125-152 | after the loop has handled the first `n` titles, those hold their pairs and the remaining titles still hold `[]` |
| Corpus.EmptyPairs | src/scraper.py:125 | `{title: [] for title in urls}` |
| ClassTfidf.PrepareData | Reviewer/tfidf.py:79-90 | titles are the dict's keys in order, each document is its title's reviews joined by spaces, and `m` is the total number of reviews |
| ClassTfidf.PreparePairs | Disney/tfidf.py:64-75 | the same for (name, review) pairs: one document per title and `m` counts all pairs |
| ClassTfidf.PairsIgnoreNames | Disney/tfidf.py:72 | preparing (name, review) pairs equals preparing their review texts alone |
| ClassTfidf.SizesTexts | Disney/tfidf.py:73 | dropping the review names keeps the review count |
| ClassTfidf.PreparedFromParsed | Reviewer/tfidf.py:86-88 | after `parse_data`, `m` is the number of scraped records and each document joins the texts of one title's records |
| ClassTfidf.CTfIdf | Reviewer/tfidf.py:38-61 | the term-by-class matrix has one row per term and one column per class, each entry `(t+1)/(w+1) · log(m / row sum)` |
| ClassTfidf.Tf | Reviewer/tfidf.py:55-56 | the smoothed term frequency lies in (0, 1] |
| ClassTfidf.Idf | Reviewer/tfidf.py:57-58 | given at least one review and an increasing logarithm, the idf is above ln(1) exactly when the term occurs fewer times than there are reviews, and below it exactly when it occurs more often |
| ClassTfidf.SameIdf | Reviewer/tfidf.py:57-59 | within one term, two classes' scores stand in the ratio of their term frequencies, since the idf is shared |
| ClassTfidf.TfStrict | Reviewer/tfidf.py:56 | within a class, a term occurring more often has a strictly higher term frequency |
| ClassTfidf.TfIdfStrict | Disney/tfidf.py:47-54 | with equal corpus totals and a positive idf, the more frequent term in a class scores strictly higher |
| ClassTfidf.MoreFrequentScoresHigher | Reviewer/tfidf.py:52-59 | the same ordering read off the computed matrix |
| ClassTfidf.RankColumn | Reviewer/tfidf.py:98-100 | `min(n, #words)` (word, score) pairs, in non-increasing score order with NaN last, drawn without repetition from the column |
| ClassTfidf.RankingDominates | Disney/tfidf.py:83-85 | the kept pairs are a prefix of the fully sorted column, and each scores at least as high as every pair cut off |
| ClassTfidf.ExtractTopNTfidf | Reviewer/tfidf.py:92-104 | one entry per title, in title order, each holding that title's column ranked and cut to `n`, as RankColumn does, so RankingDominates applies to it |
| ClassTfidf.Finite | Reviewer/tfidf.py:94 | the computed scores enter the frame as finite floats, position by position |
| ClassTfidf.Totals | Reviewer/tfidf.py:68 | `sum_words` is each term's count summed over all documents |
| ClassTfidf.GetTopNWords | Reviewer/tfidf.py:63-71 | `min(n, #words)` (word, count) pairs in non-increasing count order, drawn from the vocabulary's totals |
| ClassTfidf.TopWordsCounts | Reviewer/tfidf.py:69-71 | each listed count is some word's total count, and later entries never count more |
| ClassTfidf.TopWordsDominate | Reviewer/tfidf.py:69-71 | the kept pairs are the head of the full descending sort by total count, and no word cut off occurs more often than a word kept |
| Ranking.Insert | Reviewer/tfidf.py:98 | inserting into a sorted list keeps it sorted and adds exactly that element |
| Ranking.SortDesc | Reviewer/tfidf.py:98 | `sort_values(ascending=False)`: a permutation in non-increasing order, NaN last |
| Ranking.TopN | Reviewer/tfidf.py:98-99 | `xs[:n]` is the prefix of length `min(n, len(xs))` |
| Ranking.TopNDominates | Reviewer/tfidf.py:98-99 | in a sorted list the first `n` dominate the rest |
| ExtReal.Add | Reviewer/tfidf.py:112 | float addition: finite iff both are, NaN on NaN or opposite infinities |
| ExtReal.Div | Reviewer/tfidf.py:112 | numpy division: finite iff a finite numerator meets a non-zero or infinite denominator, and `x/0` is an infinity of `x`'s sign or NaN |
| ExtReal.SkipnaSum | Reviewer/tfidf.py:112 | the pandas row sum skips NaN: NaN only with both infinities present, an infinity when only that one is present, else the sum of the finite values |
| ExtReal.GeqTotal | Reviewer/tfidf.py:98 | any two scores are comparable in the descending order |
| ExtReal.GeqTransitive | Reviewer/tfidf.py:98 | the descending order is transitive |
| ExtReal.NaNLast | Reviewer/tfidf.py:113 | NaN sorts after every value |
| Relative.Importance | Reviewer/tfidf.py:112 | one value per word: the movie's score over the sum of the other columns |
| Relative.ImportanceAt | Disney/tfidf.py:97 | the value for a word is the movie's score divided by the NaN-skipping sum of that word's row with the movie's column dropped |
| Relative.InitialFrame | Reviewer/tfidf.py:108 | the frame has one column per title, in title order, each with one entry per word |
| Relative.RelFrame | Reviewer/tfidf.py:110-115 | after each iteration the frame keeps all original columns and its shape |
| Relative.RelImportance | Disney/tfidf.py:95-100 | the Importance column of the `k`-th iteration has one value per word |
| Relative.ExtractRelative | Reviewer/tfidf.py:106-119 | one entry per title, each the top `n` words of that iteration's Importance column, sorted and drawn from it; each is that column's RankColumn, so RankingDominates applies to it |
| Relative.InitialRow | Reviewer/tfidf.py:108-112 | with the `k`-th title dropped, a word's row is its scores for the other titles, and the dropped column is title `k`'s scores |
| Relative.FirstTitleIntended | Reviewer/tfidf.py:112 | for the first title, before an Importance column exists, a word's value is its score over the sum of its scores for the other titles, as relative importance is meant |
| Relative.FrameAfter | Reviewer/tfidf.py:112 | after iteration `k` the frame is the original one plus a single Importance column holding that iteration's values |
| Relative.ImportanceWithExtra | Reviewer/tfidf.py:112 | with an extra column present, it enters the denominator of every other movie |
| Relative.ImportanceCarriesOver | Disney/tfidf.py:97 | from the second title on, the previous title's Importance value is added to the denominator, as written |
| Relative.SecondTitleUnderrated | Reviewer/tfidf.py:110-115 | with two titles and scores (1, 2), the first gets 1/2 but the second gets 2/(1 + 1/2) = 4/3 instead of 2 |
| Generate.Scores | Reviewer/tfidf.py:18-19 | the vectorizer's failure is the only failure; success gives the vocabulary and the `CTfIdf` matrix of the vectorized counts, words × titles |
| Generate.GenerateClass | Reviewer/tfidf.py:17-20 | fails iff vectorizing fails; otherwise the table is `ExtractTopNTfidf` of the computed scores with n = 2000 (so RankingDominates applies), one sorted ranking per title in title order |
| Generate.GenerateCounts | Reviewer/tfidf.py:22-25 | an empty file raises IndexError; otherwise a single entry for the first title holding `GetTopNWords` of its vectorized reviews with n = 2000 (so TopWordsDominate applies) |
| Generate.GenerateDisney | Disney/tfidf.py:14-23 | both tables come from the same score matrix; the plain and relative extractions are applied to it with `n = 2000` |
| Utils.Bullets | src/utils.py:8-9 | no movies adds no lines |
| Utils.Message | src/utils.py:6-10 | the message starts with "<input> is not a saved movie. Please select one of the following:" and is just that when there are no movies |
| Utils.MessageLines | src/utils.py:6-10 | split at newlines, the message is the header followed by one " * <movie>" line per movie, in order |
| Utils.BulletsSplit | src/utils.py:8-9 | each appended bullet becomes exactly one line |
| Utils.MessageNamesAll | src/utils.py:8-9 | every listed movie appears in the message as "\n * <movie>" |
| Clouds.LoadDisneyData | Reviewer/cloud.py:65-98 | exactly "TF-IDF" selects the plain table; a present movie with a non-empty list returns that list, and anything else raises MovieNotFoundError listing that table's titles |
| Clouds.KindChoosesTable | Reviewer/cloud.py:86-91 | the result never depends on the table the kind did not select |
| Clouds.DisneyNotFoundNamesAll | Reviewer/cloud.py:96-98 | the error message names every title of the selected table |
| Clouds.ReviewsOf | Disney/wc.py:79 | `reviews[movie]`: the movie's reviews, or KeyError when it has none |
| Clouds.LoadData | Disney/wc.py:42-88 | Pixar is tried first, then Disney, each only for a non-empty list; the reviews come from the same studio's file (KeyError if missing); otherwise MovieNotFoundError lists the Disney titles, then the Pixar ones |
| Clouds.PixarFirst | src/wc.py:45-48 | when Pixar has the movie, the Disney data is never consulted |
| Clouds.NotFoundNamesAll | src/wc.py:55-57 | a movie in neither table yields an error naming every known title |
| Clouds.ImageWords | Reviewer/cloud.py:42-54 | with a file: the movie's list, the whole file when the movie is missing (the KeyError is swallowed), or the first title's list without a movie (IndexError on an empty file); without a file: `load_disney_data`, including its MovieNotFoundError |
| Clouds.ImageWordsNamesAll | Reviewer/cloud.py:52-54 | without a file, a missing title fails with a message naming every title of the selected table |
| Clouds.Frequencies | Disney/wc.py:90-96 | the frequency dict has each word once |
| Clouds.FrequenciesLookup | src/wc.py:62-64 | each word maps to its last value in the list, and the keys are exactly the listed words |
| Clouds.FrequenciesKeepRanking | Disney/wc.py:92-94 | a list with distinct words becomes a dict with the same pairs in the same order |
| Clouds.Uppered | Reviewer/cloud.py:102-104 | each word upper-cased, values unchanged, positions kept |
| Clouds.UpperFrequencies | Reviewer/cloud.py:100-109 | the upper-cased dict has each key once |
| Clouds.UpperLaterWins | Reviewer/cloud.py:104 | words that collide after upper-casing keep the value of the last one |
| Clouds.UpperKeysFromWords | Reviewer/cloud.py:104 | every key is the upper-casing of a listed word |
| Clouds.ReviewTextIsDocument | Disney/wc.py:95 | the text paired with a movie's words is the very document that was scored for that movie |
| Clouds.ReviewTextSnoc | src/wc.py:65 | one more review appends a space and its text |
| Mask.CeilDiv | Reviewer/cloud.py:127 | `math.ceil(a / b)`: the least `k` with `b·k ≥ a` |
| Mask.CeilDivLeast | Disney/wc.py:114 | any smaller multiplier falls short of the minimum |
| Mask.Upscale | Reviewer/cloud.py:120-130 | a zero width raises ZeroDivisionError; a large enough mask is unchanged; otherwise both sides are scaled by the same factor, which keeps the aspect ratio and brings the width to the minimum |
| Mask.UpscaleFactorLeast | Disney/wc.py:107-117 | the factor is the least one bringing the width to the minimum |
| Mask.WideButShort | Reviewer/cloud.py:127 | a mask wide enough but too short stays unchanged, since the factor only looks at the width |
| Mask.UpscaleSrc | src/wc.py:79-88 | only a mask below 1000 on both sides is scaled, by one factor for both sides; a zero width raises |
| Mask.SrcScaleFactor | src/wc.py:84-86 | a scaled mask grows at least twofold and reaches 1000 pixels wide |
| SaveName.Digits | Reviewer/cloud.py:145 | the digits of a name, in order |
| SaveName.DigitsAppend | Reviewer/cloud.py:145 | the digits of a concatenation are the concatenated digits |
| SaveName.DigitsFramed | Disney/wc.py:132 | in "result_<n>.png" the digits are exactly those of `n` |
| SaveName.Highest | Reviewer/cloud.py:142-150 | the highest number among the names containing "result", or 0 when none carries one |
| SaveName.NextName | Reviewer/cloud.py:152-156 | the new name contains "result"; when some saved name has a number, its own number is one above the highest; otherwise it carries no digit |
| SaveName.NumberOfNext | Reviewer/cloud.py:156 | the new name's number reads back as `highest + 1` |
| SaveName.NextNameIsNew | Disney/wc.py:129-143 | when some saved name carries a number, the new name's number exceeds them all, so no saved image is overwritten |
| SaveName.NoNumberReusesName | Reviewer/cloud.py:153-154 | when no saved name carries a number, the name is "result.png" again |
| Colors.NewGenerator | Reviewer/cloud.py:180-188 | accepts exactly grey images and colour images with 3 or 4 channels, otherwise raises ValueError with the offending number |
| Colors.RejectionNamesNdim | Reviewer/cloud.py:181-183 | the dimension error ends in the image's number of dimensions |
| Colors.RejectionNamesChannels | Reviewer/cloud.py:184-186 | the channel error ends in the image's channel count |
| Colors.SliceLen | Reviewer/cloud.py:204 | a numpy slice `[start:stop]` is clipped to the axis and empty past its end |
| Colors.SliceInside | Reviewer/cloud.py:204 | a box inside the image gives a patch of exactly the box's size |
| Colors.AtMostOne | Reviewer/cloud.py:219 | `min(1, x)` |
| Colors.Adjust | Reviewer/cloud.py:219 | the hue is kept, lightness and saturation never exceed 1, lightness never grows, and a saturation in [0, 1] never shrinks |
| Colors.Shade | Reviewer/cloud.py:217-221 | when the HLS-to-RGB conversion stays in the unit cube, every channel of the colour is an integer in 0..255 |
| Colors.AdjustBounds | Reviewer/cloud.py:219 | lightness becomes 0.9 of itself and saturation 1.2 of itself capped at 1, and both stay in [0, 1] |
| Colors.Trunc | Reviewer/cloud.py:221 | `%d` truncates toward zero |
| Colors.IntToStringRoundTrip | Reviewer/cloud.py:221 | the `%d` text of any integer reads back as that integer |
| Colors.FieldsRoundTrip | Reviewer/cloud.py:216 | "r, g, b" splits at commas into three fields that read back as the channels |
| Colors.FormatRgbRoundTrip | Reviewer/cloud.py:216 | `"rgb(%d, %d, %d)"` of a colour parses back to that colour |
| Colors.WordColor | Reviewer/cloud.py:191-221 | NotImplementedError exactly for a grey image; ValueError exactly when the clipped patch is empty and there is no default colour; the default colour for any other empty patch; the adjusted mean of the clipped patch for any non-empty one, including a box that straddles the border |
| Colors.InsideUsesMean | Reviewer/cloud.py:217-221 | a box inside a colour image gets the adjusted mean colour of exactly the pixels under it |
| Colors.OutsideUsesDefault | Reviewer/cloud.py:212-216 | a box starting outside the image gets the default colour, or ValueError without one |
| Colors.WordColorReadsBack | Reviewer/cloud.py:216-221 | every colour returned is a well-formed "rgb(r, g, b)" string |

## Left out

- Network, browser and file I/O are left out: Wikipedia's HTML tables, the IMDB
  search page, Selenium's "load more" loop, and JSON reading and writing. They
  are inputs (`search`, `fetch`, the tables and pages) or are not modelled.
  This covers `scrape`, `get_disney_urls`, `load_disney_data` in
  `Reviewer/tfidf.py`, `scrape_disney`, `generate_image` in `Disney/wc.py`,
  `generate_word_cloud`, and the `save` branches.
- Third-party computations are parameters rather than models:
  - `CountVectorizer` (tokenising, stop words, n-grams) is the `vectorize` parameter;
  - `np.log` is `ln`;
  - `colorsys` is `toHls`/`toRgb`;
  - `np.mean` over a patch is `mean`;
  - wordcloud's layout, fonts and recolouring, `Image.resize` and PIL's font
    metrics are left out. The box size is an input.
- `parse_data` takes `list(set(...))`, whose order is not defined. The model
  takes that order as a parameter (`order`) that enumerates the titles.
- Ranking.SortDesc: pandas sorts with an unstable quicksort. The contract
  promises only a non-increasing permutation with NaN last. It says nothing
  about the order among equal scores, so ties are not pinned down.
- ClassTfidf.RankColumn: which of several equal-scored words is kept follows
  the tie order above. Dominance over the words cut off is stated separately
  in RankingDominates.
- ClassTfidf.GetTopNWords: `vocabulary_.items()` order is an input. Python's
  `sorted` is stable, but the contract does not state which of several
  equally frequent words is kept. That the kept words dominate the rest is
  stated in TopWordsDominate.
- Floating point is modelled as real numbers plus infinities and NaN. Rounding,
  signed zeros and overflow are not modelled.
- Text.ParseInt: Python's `int()` also accepts underscores between digits
  and non-ASCII digits; the model accepts ASCII digits only, so for such text
  it reports ValueError where Python returns a number.
- Text.Upper: `str.upper` is modelled for ASCII letters only. Case mapping
  beyond ASCII is not modelled, including mappings that change the length,
  such as "ß" becoming "SS"; the model leaves those characters unchanged.
- SaveName.Digits: `str.isdigit` is modelled for ASCII digits only. Python
  also accepts other Unicode digits there. For a listed name such as
  `result².png`, `int()` would then raise ValueError; for `result٣.png` it
  reads 3. The model ignores such characters, so it never raises and reads
  both names as 0.
- `urljoin` is modelled only for a relative path reference, which is what
  `parse` passes.
- Corpus.UrlJoin: Python's `urljoin` also drops empty segments inside the
  base path ("a//b" becomes "a/b") and resolves "." and ".." segments. The
  model keeps such bases as written, so for them it promises nothing beyond
  the plain concatenation. Scheme-relative bases ("//host/...") are not
  modelled either.
- Scrapy's scheduling, concurrency and duplicate filtering are
  not modelled: the crawl is one request chain per start URL.
- When a movie is missing from a file, `generate_image` in `Reviewer/cloud.py`
  swallows the KeyError and passes the whole file to `preprocess_data`. The
  model returns this `WholeTable` case, but what preprocessing then makes of a
  dict of lists is not modelled.
- The named-entity, character and sentiment scripts, the command-line entry
  points, and the tutorial spiders are outside this core.

=== FILE: clouds.dfy ===
/**
 Where the word-cloud scripts get their words: which stored table is read
 (Reviewer/cloud.py, Disney/wc.py, src/wc.py), which movie's list is taken
 from it, and how that list becomes the word-to-frequency dict. The tables
 are the JSON files the TF-IDF step wrote; reading them is left out, so
 they are parameters here.
 */
module Clouds {
  import opened Wrappers
  import opened Text
  import opened PyDict
  import opened Utils
  import ClassTfidf

  /** A stored table: each movie's ranked `[word, value]` pairs. */
  type Table<V> = Dict<string, seq<(string, V)>>

  /** Each movie's reviews as `[title, text]` pairs. */
  type Reviews = Dict<string, seq<(string, string)>>

  /** The pixar and the disney table of one kind. */
  datatype Tables<V> = Tables(pixar: Table<V>, disney: Table<V>)

  const PlainKind := "TF-IDF"

  /** `d.get(movie)` is truthy: the movie is a key and its list is not empty. */
  predicate Has<T>(d: Dict<string, seq<T>>, movie: Option<string>) {
    movie.Some? && Lookup(d, movie.value).Some? && |Lookup(d, movie.value).value| > 0
  }

  /** Exactly "TF-IDF" reads the plain tables; every other kind reads the relative ones. */
  function Select<T>(kind: string, plain: T, relative: T): T {
    if kind == PlainKind then plain else relative
  }

  /**
   `load_disney_data` (Reviewer/cloud.py): the movie's list from the table
   of the requested kind, or MovieNotFoundError naming every title of that
   table when the movie is absent or its list is empty.
   */
  function LoadDisneyData<V>(kind: string, movie: Option<string>, plain: Table<V>, relative: Table<V>)
    : (r: Result<seq<(string, V)>, Failure>)
    ensures var table := if kind == PlainKind then plain else relative;
      && (r.Ok? <==> movie.Some? && movie.value in Keys(table) && |Lookup(table, movie.value).value| > 0)
      && (r.Ok? ==> Lookup(table, movie.value) == Some(r.value) && |r.value| > 0)
      && (r.Err? ==> r.error == MovieNotFound(MovieNotFoundError(movie, Keys(table))))
  {
    var table := Select(kind, plain, relative);
    if Has(table, movie) then Ok(Lookup(table, movie.value).value)
    else Err(MovieNotFound(MovieNotFoundError(movie, Keys(table))))
  }

  /** Any kind but "TF-IDF" never looks at the plain table, and "TF-IDF" never at the relative one. */
  lemma {:induction false} KindChoosesTable<V>(kind: string, movie: Option<string>,
                                              plain: Table<V>, plain': Table<V>, relative: Table<V>, relative': Table<V>)
    ensures kind != PlainKind ==>
      LoadDisneyData(kind, movie, plain, relative) == LoadDisneyData(kind, movie, plain', relative)
    ensures kind == PlainKind ==>
      LoadDisneyData(kind, movie, plain, relative) == LoadDisneyData(kind, movie, plain, relative')
  {
  }

  /** When the movie is not found, the message lists every title of the table that was searched. */
  lemma {:induction false} DisneyNotFoundNamesAll<V>(kind: string, movie: Option<string>,
                                                    plain: Table<V>, relative: Table<V>, i: nat)
    requires LoadDisneyData(kind, movie, plain, relative).Err?
    requires i < |Select(kind, plain, relative)|
    ensures var e := LoadDisneyData(kind, movie, plain, relative).error;
      e.MovieNotFound? && Contains(Message(e.err), "\n * " + Select(kind, plain, relative)[i].0)
  {
    var e := LoadDisneyData(kind, movie, plain, relative).error;
    MessageNamesAll(e.err, i);
  }

  /** `reviews[movie]` */
  function ReviewsOf(reviews: Reviews, movie: string): (r: Result<seq<(string, string)>, Failure>)
    ensures r.Ok? <==> movie in Keys(reviews)
    ensures r.Ok? ==> Lookup(reviews, movie) == Some(r.value)
    ensures r.Err? ==> r.error == KeyError(movie)
  {
    match Lookup(reviews, movie)
    case Some(v) => Ok(v)
    case None => Err(KeyError(movie))
  }

  /**
   `load_data` (Disney/wc.py, src/wc.py): pixar is searched first, then
   disney, and the reviews come from the same studio's file. A movie found
   in neither table raises MovieNotFoundError listing the disney titles,
   then the pixar titles; a movie with a table but no reviews is a KeyError.
   */
  function LoadData<V>(kind: string, movie: Option<string>, plain: Tables<V>, relative: Tables<V>,
                       pixarReviews: Reviews, disneyReviews: Reviews)
    : (r: Result<(seq<(string, V)>, seq<(string, string)>), Failure>)
    ensures var t := if kind == PlainKind then plain else relative;
      && (Has(t.pixar, movie) ==>
            (r.Ok? <==> movie.value in Keys(pixarReviews))
            && (r.Ok? ==> Some(r.value.0) == Lookup(t.pixar, movie.value)
                          && Some(r.value.1) == Lookup(pixarReviews, movie.value))
            && (r.Err? ==> r.error == KeyError(movie.value)))
      && (!Has(t.pixar, movie) && Has(t.disney, movie) ==>
            (r.Ok? <==> movie.value in Keys(disneyReviews))
            && (r.Ok? ==> Some(r.value.0) == Lookup(t.disney, movie.value)
                          && Some(r.value.1) == Lookup(disneyReviews, movie.value))
            && (r.Err? ==> r.error == KeyError(movie.value)))
      && (!Has(t.pixar, movie) && !Has(t.disney, movie) ==>
            r == Err(MovieNotFound(MovieNotFoundError(movie, Keys(t.disney) + Keys(t.pixar)))))
  {
    var t := Select(kind, plain, relative);
    if Has(t.pixar, movie) then
      match ReviewsOf(pixarReviews, movie.value)
      case Ok(rv) => Ok((Lookup(t.pixar, movie.value).value, rv))
      case Err(e) => Err(e)
    else if Has(t.disney, movie) then
      match ReviewsOf(disneyReviews, movie.value)
      case Ok(rv) => Ok((Lookup(t.disney, movie.value).value, rv))
      case Err(e) => Err(e)
    else Err(MovieNotFound(MovieNotFoundError(movie, Keys(t.disney) + Keys(t.pixar))))
  }

  /** A movie both studios list is served from the pixar table, whatever the disney table holds for it. */
  lemma {:induction false} PixarFirst<V>(kind: string, movie: Option<string>, plain: Tables<V>, relative: Tables<V>,
                                        disney': Table<V>, pixarReviews: Reviews, disneyReviews: Reviews, disneyReviews': Reviews)
    requires Has(Select(kind, plain, relative).pixar, movie)
    ensures var plain', relative' := plain.(disney := disney'), relative.(disney := disney');
      LoadData(kind, movie, plain, relative, pixarReviews, disneyReviews)
        == LoadData(kind, movie, plain', relative', pixarReviews, disneyReviews')
  {
  }

  /** Every title of either studio is offered when the movie is found nowhere, disney titles first. */
  lemma {:induction false} NotFoundNamesAll<V>(kind: string, movie: Option<string>, plain: Tables<V>, relative: Tables<V>,
                                              pixarReviews: Reviews, disneyReviews: Reviews, title: string)
    requires var t := Select(kind, plain, relative);
      !Has(t.pixar, movie) && !Has(t.disney, movie)
    requires var t := Select(kind, plain, relative);
      title in Keys(t.disney) || title in Keys(t.pixar)
    ensures var r := LoadData(kind, movie, plain, relative, pixarReviews, disneyReviews);
      r.Err? && r.error.MovieNotFound? && Contains(Message(r.error.err), "\n * " + title)
  {
    var t := Select(kind, plain, relative);
    var e := MovieNotFoundError(movie, Keys(t.disney) + Keys(t.pixar));
    assert title in e.movies;
    var i :| 0 <= i < |e.movies| && e.movies[i] == title;
    MessageNamesAll(e, i);
  }

  /** What `generate_image` hands to `preprocess_data`. */
  datatype WordVals<V> =
    | Words(pairs: seq<(string, V)>)
      /** The title was not in the file: the KeyError is swallowed and the whole table passed on. */
    | WholeTable(table: Table<V>)

  /** `if movie:`: a title was given and it is not empty. */
  predicate Truthy(movie: Option<string>) {
    movie.Some? && |movie.value| > 0
  }

  /**
   `generate_image` (Reviewer/cloud.py) up to `preprocess_data`: with a
   file, the given title's list, or the first title's list when no title
   is given (IndexError on an empty file); without one, `load_disney_data`.
   */
  function ImageWords<V>(file: Option<Table<V>>, movie: Option<string>, kind: string,
                         plain: Table<V>, relative: Table<V>): (r: Result<WordVals<V>, Failure>)
    ensures file.Some? && Truthy(movie) && movie.value in Keys(file.value) ==>
      r.Ok? && r.value.Words? && Some(r.value.pairs) == Lookup(file.value, movie.value)
    ensures file.Some? && Truthy(movie) && movie.value !in Keys(file.value) ==>
      r == Ok(WholeTable(file.value))
    ensures file.Some? && !Truthy(movie) ==>
      (r.Ok? <==> |file.value| > 0)
      && (r.Ok? ==> r.value == Words(Values(file.value)[0]))
      && (r.Err? ==> r.error == IndexError)
    ensures file.None? ==>
      (r.Ok? <==> Has(Select(kind, plain, relative), movie))
      && (r.Ok? ==> r.value.Words? && Lookup(Select(kind, plain, relative), movie.value) == Some(r.value.pairs))
    ensures file.None? && r.Err? ==> r.error == LoadDisneyData(kind, movie, plain, relative).error
  {
    match file
    case Some(table) =>
      if Truthy(movie) then
        match Lookup(table, movie.value)
        case Some(pairs) => Ok(Words(pairs))
        case None => Ok(WholeTable(table))
      else if |table| == 0 then Err(IndexError)
      else Ok(Words(table[0].1))
    case None =>
      match LoadDisneyData(kind, movie, plain, relative)
      case Ok(pairs) => Ok(Words(pairs))
      case Err(e) => Err(e)
  }

  /** Without a file, a missing title fails with the message listing every title of the selected table. */
  lemma {:induction false} ImageWordsNamesAll<V>(kind: string, movie: Option<string>,
                                                plain: Table<V>, relative: Table<V>, i: nat)
    requires ImageWords(None, movie, kind, plain, relative).Err?
    requires i < |Select(kind, plain, relative)|
    ensures var e := ImageWords(None, movie, kind, plain, relative).error;
      e.MovieNotFound? && Contains(Message(e.err), "\n * " + Select(kind, plain, relative)[i].0)
  {
    DisneyNotFoundNamesAll(kind, movie, plain, relative, i);
  }

  /** `words = [val[0] ...]`, `values = [val[1] ...]`, zipped back: the pairs themselves. */
  lemma {:induction false} UnzipZip<V>(wordVals: seq<(string, V)>)
    ensures Zip(Map((p: (string, V)) => p.0, wordVals), Map((p: (string, V)) => p.1, wordVals)) == wordVals
  {
  }

  /** `preprocess_data`'s dict (Disney/wc.py, src/wc.py): each word with its value, the last one for a repeated word. */
  function Frequencies<V>(wordVals: seq<(string, V)>): (r: Dict<string, V>)
    ensures UniqueKeys(r)
  {
    FromPairs(Zip(Map((p: (string, V)) => p.0, wordVals), Map((p: (string, V)) => p.1, wordVals)))
  }

  /** A word appears in the dict exactly when it is in the list, with the value of its last occurrence. */
  lemma {:induction false} FrequenciesLookup<V>(wordVals: seq<(string, V)>, w: string)
    ensures Lookup(Frequencies(wordVals), w) == LastValue(wordVals, w)
    ensures w in Keys(Frequencies(wordVals)) <==> w in Keys(wordVals)
  {
    UnzipZip(wordVals);
    FromPairsLookup(wordVals, w);
    FromPairsKeys(wordVals);
  }

  /** A ranked list without repeated words becomes a dict of the same entries in the same order. */
  lemma {:induction false} FrequenciesKeepRanking<V>(wordVals: seq<(string, V)>)
    requires UniqueKeys(wordVals)
    ensures Frequencies(wordVals) == wordVals
  {
    UnzipZip(wordVals);
    FromPairsDistinct(wordVals);
  }

  /** The pairs with their words upper-cased. */
  function Uppered<V>(wordVals: seq<(string, V)>): (r: seq<(string, V)>)
    ensures |r| == |wordVals|
    ensures forall i :: 0 <= i < |r| ==> r[i] == (Upper(wordVals[i].0), wordVals[i].1)
  {
    Map((p: (string, V)) => (Upper(p.0), p.1), wordVals)
  }

  /** `preprocess_data` (Reviewer/cloud.py): `{word.upper(): value ...}`. */
  function UpperFrequencies<V>(wordVals: seq<(string, V)>): (r: Dict<string, V>)
    ensures UniqueKeys(r)
  {
    FromPairs(Zip(Map((p: (string, V)) => Upper(p.0), wordVals), Map((p: (string, V)) => p.1, wordVals)))
  }

  lemma {:induction false} UpperZip<V>(wordVals: seq<(string, V)>)
    ensures Zip(Map((p: (string, V)) => Upper(p.0), wordVals), Map((p: (string, V)) => p.1, wordVals)) == Uppered(wordVals)
  {
  }

  /**
   Words that differ only in case collide once upper-cased, and the later
   one's value wins: the value kept for `Upper(w)` is that of the last word
   that upper-cases to it.
   */
  lemma {:induction false} UpperLaterWins<V>(wordVals: seq<(string, V)>, j: nat)
    requires j < |wordVals|
    requires forall k :: j < k < |wordVals| ==> Upper(wordVals[k].0) != Upper(wordVals[j].0)
    ensures Lookup(UpperFrequencies(wordVals), Upper(wordVals[j].0)) == Some(wordVals[j].1)
  {
    var u := Uppered(wordVals);
    UpperZip(wordVals);
    LastValueAt(u, j);
    FromPairsLookup(u, u[j].0);
  }

  /** Every key of the upper-cased dict is some listed word in upper case. */
  lemma {:induction false} UpperKeysFromWords<V>(wordVals: seq<(string, V)>, key: string)
    requires key in Keys(UpperFrequencies(wordVals))
    ensures exists i :: 0 <= i < |wordVals| && Upper(wordVals[i].0) == key
  {
    var u := Uppered(wordVals);
    UpperZip(wordVals);
    FromPairsKeys(u);
    assert key in Keys(u);
    var i :| 0 <= i < |u| && Keys(u)[i] == key;
    assert u[i].0 == key;
  }

  /** The text of a title's cloud: its review texts, without reviewer names, joined by single spaces. */
  function ReviewText(reviews: seq<(string, string)>): string {
    Join(" ", ClassTfidf.Texts(reviews))
  }

  /**
   The text the Disney and src scripts pair with a movie's words is the
   very document the class TF-IDF scored for that movie.
   */
  lemma {:induction false} ReviewTextIsDocument(reviews: Reviews, i: nat)
    requires UniqueKeys(reviews) && i < |reviews|
    ensures var p := ClassTfidf.PreparePairs(reviews);
      i < |p.documents| && p.titles[i] == reviews[i].0
      && ReviewsOf(reviews, reviews[i].0) == Ok(reviews[i].1)
      && p.documents[i] == ReviewText(reviews[i].1)
  {
    LookupAt(reviews, i);
  }

  /** One more review adds a blank and its text. */
  lemma {:induction false} ReviewTextSnoc(reviews: seq<(string, string)>, review: (string, string))
    requires |reviews| > 0
    ensures ReviewText(reviews + [review]) == ReviewText(reviews) + " " + review.1
  {
    assert ClassTfidf.Texts(reviews + [review]) == ClassTfidf.Texts(reviews) + [review.1];
    JoinSnoc(" ", ClassTfidf.Texts(reviews), review.1);
  }
}

=== FILE: colors.dfy ===
/**
 `ImageColorGenerator` (Reviewer/cloud.py): each word of the cloud takes the
 mean colour of the mask under its box, slightly darkened and saturated.
 The image is modelled by its shape; the mean over a patch and the
 conversions between RGB and HLS (`colorsys`) are parameters.
 */
module Colors {
  import opened Wrappers
  import opened Text
  import opened Utils

  /** A numpy array, by its shape: rows, columns and, for a colour image, channels. */
  datatype Image = Image(shape: seq<nat>)

  datatype Generator = Generator(image: Image, defaultColor: Option<(int, int, int)>)

  datatype Rgb = Rgb(r: real, g: real, b: real)

  datatype Hls = Hls(h: real, l: real, s: real)

  /** The rectangle of the image a word covers, after clipping: first row and column, then the counts. */
  datatype Region = Region(row: nat, col: nat, rows: nat, cols: nat)

  const NdimMessage := "ImageColorGenerator needs an image with ndim 2 or 3, got "
  const ChannelMessage := "A color image needs to have 3 or 4 channels, got "
  const GrayMessage := "Gray-scale images TODO"
  const CanvasMessage := "ImageColorGenerator is smaller than the canvas"

  /** What the constructor accepts: a grey image, or a colour image with 3 or 4 channels. */
  predicate Supported(image: Image) {
    && (|image.shape| == 2 || |image.shape| == 3)
    && (|image.shape| == 3 ==> image.shape[2] == 3 || image.shape[2] == 4)
  }

  /** `ImageColorGenerator(image, default_color)` */
  function NewGenerator(image: Image, defaultColor: Option<(int, int, int)>): (r: Result<Generator, Failure>)
    ensures r.Ok? <==> Supported(image)
    ensures r.Ok? ==> r.value.image == image && r.value.defaultColor == defaultColor
    ensures |image.shape| != 2 && |image.shape| != 3 ==>
      r == Err(ValueError(NdimMessage + NatToString(|image.shape|)))
    ensures |image.shape| == 3 && !Supported(image) ==>
      r == Err(ValueError(ChannelMessage + NatToString(image.shape[2])))
  {
    var ndim := |image.shape|;
    if ndim != 2 && ndim != 3 then Err(ValueError(NdimMessage + NatToString(ndim)))
    else if ndim == 3 && image.shape[2] != 3 && image.shape[2] != 4 then
      Err(ValueError(ChannelMessage + NatToString(image.shape[2])))
    else Ok(Generator(image, defaultColor))
  }

  /** Both constructor messages end in the offending number, which reads back from the last word. */
  lemma {:induction false} MessageReportsNumber(prefix: string, n: nat)
    requires |prefix| > 0 && prefix[|prefix| - 1] == ' '
    ensures ParseInt(LastField(prefix + NatToString(n), ' ')) == Some(n)
  {
    var d := NatToString(n);
    var a := prefix[..|prefix| - 1];
    assert prefix + d == a + [' '] + d;
    DigitsNoSpace(d);
    LastFieldAppend(a, ' ', d);
    ParseIntRoundTrip(n);
  }

  lemma {:induction false} RejectionNamesNdim(image: Image, defaultColor: Option<(int, int, int)>)
    requires |image.shape| != 2 && |image.shape| != 3
    ensures NewGenerator(image, defaultColor).Err?
    ensures NewGenerator(image, defaultColor).error.ValueError?
    ensures ParseInt(LastField(NewGenerator(image, defaultColor).error.message, ' ')) == Some(|image.shape|)
  {
    var m := NdimMessage;
    assert |m| > 0 && m[|m| - 1] == ' ';
    MessageReportsNumber(m, |image.shape|);
  }

  lemma {:induction false} RejectionNamesChannels(image: Image, defaultColor: Option<(int, int, int)>)
    requires |image.shape| == 3 && !Supported(image)
    ensures NewGenerator(image, defaultColor).Err?
    ensures NewGenerator(image, defaultColor).error.ValueError?
    ensures ParseInt(LastField(NewGenerator(image, defaultColor).error.message, ' ')) == Some(image.shape[2])
  {
    var m := ChannelMessage;
    assert |m| > 0 && m[|m| - 1] == ' ';
    MessageReportsNumber(m, image.shape[2]);
  }

  /** The length of numpy's `a[start:stop]` along an axis of length `len`. */
  function SliceLen(len: nat, start: nat, stop: nat): (r: nat)
    ensures start >= len ==> r == 0
    ensures start < len ==> start + r == if stop <= len then (if stop < start then start else stop) else len
  {
    var lo := if start <= len then start else len;
    var hi := if stop <= len then stop else len;
    if hi <= lo then 0 else hi - lo
  }

  /** A box that lies inside the axis is cut out whole. */
  lemma {:induction false} SliceInside(len: nat, start: nat, width: nat)
    requires start + width <= len
    ensures SliceLen(len, start, start + width) == width
  {
  }

  /** `min(1, x)` */
  function AtMostOne(x: real): (r: real)
    ensures r <= 1.0 && r <= x
    ensures r == x || r == 1.0
  {
    if 1.0 < x then 1.0 else x
  }

  /** The lightness is scaled by 0.9 and the saturation by 1.2, neither beyond 1. */
  function Adjust(c: Hls): (r: Hls)
    ensures r.h == c.h
    ensures r.l <= 1.0 && r.s <= 1.0
    ensures 0.0 <= c.l ==> 0.0 <= r.l <= c.l
    ensures 0.0 <= c.s <= 1.0 ==> c.s <= r.s
  {
    Hls(c.h, AtMostOne(c.l * 0.9), AtMostOne(c.s * 1.2))
  }

  /** The adjustment darkens and saturates a colour whose lightness and saturation lie in [0, 1]. */
  lemma {:induction false} AdjustBounds(c: Hls)
    requires 0.0 <= c.l <= 1.0 && 0.0 <= c.s <= 1.0
    ensures 0.0 <= Adjust(c).l <= c.l
    ensures c.s <= Adjust(c).s <= 1.0
    ensures c.s <= 0.8 ==> Adjust(c).s == c.s * 1.2
    ensures Adjust(c).l == c.l * 0.9
  {
  }

  /** `%d` of a float: truncation toward zero. */
  function Trunc(x: real): (n: int)
    ensures x >= 0.0 ==> 0.0 <= n as real <= x < n as real + 1.0
    ensures x < 0.0 ==> n as real - 1.0 < x <= n as real <= 0.0
  {
    if x >= 0.0 then x.Floor else 0 - (0.0 - x).Floor
  }

  /** `str(i)` */
  function IntToString(i: int): (s: string)
    ensures |s| > 0
    ensures forall k :: 0 <= k < |s| ==> !IsSpace(s[k]) && s[k] != ','
  {
    var d := if i < 0 then NatToString(0 - i) else NatToString(i);
    DigitsNoSpace(d);
    assert forall k :: 0 <= k < |d| ==> d[k] != ',' by {
      forall k | 0 <= k < |d| ensures d[k] != ',' { assert IsDigit(d[k]); }
    }
    if i < 0 then "-" + d else d
  }

  lemma {:induction false} IntToStringRoundTrip(i: int)
    ensures ParseInt(IntToString(i)) == Some(i)
  {
    if i < 0 {
      ParseIntNegRoundTrip(0 - i);
    } else {
      ParseIntRoundTrip(i);
    }
  }

  const ColorOpen := "rgb("
  const ColorSep := ", "

  /** `"rgb(%d, %d, %d)" % (r, g, b)` */
  function FormatRgb(c: (int, int, int)): string {
    ColorOpen + Channels(c) + ")"
  }

  /** `"%d, %d, %d" % (r, g, b)` */
  function Channels(c: (int, int, int)): string {
    IntToString(c.0) + ColorSep + IntToString(c.1) + ColorSep + IntToString(c.2)
  }

  /** The text between "rgb(" and ")", if the string has that frame. */
  function Unwrap(s: string): (r: Option<string>)
    ensures r.Some? ==> s == ColorOpen + r.value + ")"
  {
    if |s| < |ColorOpen| + 1 || s[..|ColorOpen|] != ColorOpen || s[|s| - 1] != ')' then None
    else
      assert s == s[..|ColorOpen|] + s[|ColorOpen|..|s| - 1] + [s[|s| - 1]];
      Some(s[|ColorOpen|..|s| - 1])
  }

  /** Three comma-separated integers. */
  function ParseFields(inner: string): Option<(int, int, int)> {
    var fields := Split(inner, ',');
    if |fields| != 3 then None
    else
      match (ParseInt(fields[0]), ParseInt(fields[1]), ParseInt(fields[2]))
      case (Some(r), Some(g), Some(b)) => Some((r, g, b))
      case _ => None
  }

  /**
   How a colour string of that form reads back: the three comma-separated
   integers between "rgb(" and ")".
   */
  function ParseRgb(s: string): Option<(int, int, int)> {
    match Unwrap(s)
    case None => None
    case Some(inner) => ParseFields(inner)
  }

  lemma {:induction false} UnwrapFramed(inner: string)
    ensures Unwrap(ColorOpen + inner + ")") == Some(inner)
  {
    var s := ColorOpen + inner + ")";
    assert s[..|ColorOpen|] == ColorOpen;
    assert s[|ColorOpen|..|s| - 1] == inner;
  }

  /** `int()` sees only the stripped text. */
  lemma {:induction false} ParseIntSameStrip(s: string, t: string)
    requires Strip(s) == Strip(t)
    ensures ParseInt(s) == ParseInt(t)
  {
  }

  /** A number after ", " reads as the number itself. */
  lemma {:induction false} BlankField(i: int)
    ensures ParseInt([' '] + IntToString(i)) == Some(i)
  {
    var w := IntToString(i);
    StripLeadingBlank(w);
    StripNoSpace(w);
    ParseIntSameStrip([' '] + w, w);
    IntToStringRoundTrip(i);
  }

  /** The three numbers, joined by ", ", are the comma-separated fields the number, a blank and a number, a blank and a number. */
  lemma {:induction false} InnerFields(a: string, b: string, d: string)
    ensures a + ColorSep + b + ColorSep + d == Join([','], [a, [' '] + b, [' '] + d])
  {
    var parts := [a, [' '] + b, [' '] + d];
    assert parts[2..] == [[' '] + d];
    assert parts[1..] == [[' '] + b, [' '] + d];
    assert Join([','], parts[1..]) == [' '] + b + [','] + [' '] + d;
  }

  lemma {:induction false} FieldsRoundTrip(c: (int, int, int))
    ensures ParseFields(Channels(c)) == Some(c)
  {
    var a, b, d := IntToString(c.0), IntToString(c.1), IntToString(c.2);
    var parts := [a, [' '] + b, [' '] + d];
    InnerFields(a, b, d);
    assert forall k :: 0 <= k < |parts| ==> ',' !in parts[k];
    SplitJoin(parts, ',');
    IntToStringRoundTrip(c.0);
    BlankField(c.1);
    BlankField(c.2);
  }

  /** Every colour the generator formats reads back as the same three integers. */
  lemma {:induction false} FormatRgbRoundTrip(c: (int, int, int))
    ensures ParseRgb(FormatRgb(c)) == Some(c)
  {
    UnwrapFramed(Channels(c));
    FieldsRoundTrip(c);
  }

  /** The patch under a word: the box at `position`, clipped to the image. */
  function Patch(image: Image, box: (nat, nat), position: (nat, nat)): Region
    requires |image.shape| >= 2
  {
    Region(position.0, position.1,
      SliceLen(image.shape[0], position.0, position.0 + box.0),
      SliceLen(image.shape[1], position.1, position.1 + box.1))
  }

  /**
   The colour for a patch of mean `m` (channels 0 to 255): converted to HLS
   on the unit scale, adjusted, converted back and truncated to integers.
   */
  function Shade(m: Rgb, toHls: Rgb -> Hls, toRgb: Hls -> Rgb): (r: (int, int, int))
    ensures (forall h :: InUnit(toRgb(h))) ==> Channel(r.0) && Channel(r.1) && Channel(r.2)
  {
    var c := toRgb(Adjust(toHls(Rgb(m.r / 255.0, m.g / 255.0, m.b / 255.0))));
    (Byte(c.r), Byte(c.g), Byte(c.b))
  }

  /** Every channel of a colour on the unit scale lies in [0, 1]. */
  predicate InUnit(c: Rgb) {
    0.0 <= c.r <= 1.0 && 0.0 <= c.g <= 1.0 && 0.0 <= c.b <= 1.0
  }

  predicate Channel(n: int) {
    0 <= n <= 255
  }

  /** A unit-scale channel scaled to 255 and truncated. */
  function Byte(x: real): (n: int)
    ensures 0.0 <= x <= 1.0 ==> Channel(n)
  {
    Trunc(x * 255.0)
  }

  /** `np.all(patch.reshape(-1, 3).shape)` fails: the patch has no pixels. */
  predicate Empty(p: Region) {
    p.rows == 0 || p.cols == 0
  }

  /**
   `ImageColorGenerator.__call__` for a word whose box has size `box` at
   `position`. A grey image is NotImplementedError; a patch outside the image
   gives the default colour, or ValueError without one; otherwise the mean
   colour of the patch, adjusted in HLS space, is formatted.
   */
  function WordColor(gen: Generator, box: (nat, nat), position: (nat, nat),
                     mean: Region -> Rgb, toHls: Rgb -> Hls, toRgb: Hls -> Rgb): (r: Result<string, Failure>)
    requires Supported(gen.image)
    ensures r.Err? && r.error.NotImplementedError? <==> |gen.image.shape| == 2
    ensures r.Err? ==> r.error == NotImplementedError(GrayMessage) || r.error == ValueError(CanvasMessage)
    ensures r.Err? && r.error.ValueError? <==>
      |gen.image.shape| == 3 && gen.defaultColor.None? && Empty(Patch(gen.image, box, position))
    ensures |gen.image.shape| == 3 && !Empty(Patch(gen.image, box, position)) ==>
      r == Ok(FormatRgb(Shade(mean(Patch(gen.image, box, position)), toHls, toRgb)))
    ensures |gen.image.shape| == 3 && Empty(Patch(gen.image, box, position)) && gen.defaultColor.Some? ==>
      r == Ok(FormatRgb(gen.defaultColor.value))
  {
    var image := gen.image;
    var patch := Patch(image, box, position);
    if |image.shape| == 2 then Err(NotImplementedError(GrayMessage))
    else if Empty(patch) then
      match gen.defaultColor
      case None => Err(ValueError(CanvasMessage))
      case Some(c) => Ok(FormatRgb(c))
    else
      Ok(FormatRgb(Shade(mean(patch), toHls, toRgb)))
  }

  /** A word whose box lies wholly inside a colour image takes its colour from exactly that box. */
  lemma {:induction false} InsideUsesMean(gen: Generator, box: (nat, nat), position: (nat, nat),
                                         mean: Region -> Rgb, toHls: Rgb -> Hls, toRgb: Hls -> Rgb)
    requires Supported(gen.image) && |gen.image.shape| == 3
    requires box.0 > 0 && box.1 > 0
    requires position.0 + box.0 <= gen.image.shape[0] && position.1 + box.1 <= gen.image.shape[1]
    ensures WordColor(gen, box, position, mean, toHls, toRgb)
              == Ok(FormatRgb(Shade(mean(Region(position.0, position.1, box.0, box.1)), toHls, toRgb)))
  {
    SliceInside(gen.image.shape[0], position.0, box.0);
    SliceInside(gen.image.shape[1], position.1, box.1);
    assert Patch(gen.image, box, position) == Region(position.0, position.1, box.0, box.1);
  }

  /** A word placed beyond the image's rows or columns gets the default colour, or ValueError without one. */
  lemma {:induction false} OutsideUsesDefault(gen: Generator, box: (nat, nat), position: (nat, nat),
                                             mean: Region -> Rgb, toHls: Rgb -> Hls, toRgb: Hls -> Rgb)
    requires Supported(gen.image) && |gen.image.shape| == 3
    requires position.0 >= gen.image.shape[0] || position.1 >= gen.image.shape[1]
    ensures gen.defaultColor.None? ==> WordColor(gen, box, position, mean, toHls, toRgb) == Err(ValueError(CanvasMessage))
    ensures gen.defaultColor.Some? ==> WordColor(gen, box, position, mean, toHls, toRgb) == Ok(FormatRgb(gen.defaultColor.value))
  {
  }

  /** Whatever colour a word gets is a string that reads back as three integers. */
  lemma {:induction false} WordColorReadsBack(gen: Generator, box: (nat, nat), position: (nat, nat),
                                             mean: Region -> Rgb, toHls: Rgb -> Hls, toRgb: Hls -> Rgb)
    requires Supported(gen.image)
    requires WordColor(gen, box, position, mean, toHls, toRgb).Ok?
    ensures ParseRgb(WordColor(gen, box, position, mean, toHls, toRgb).value).Some?
  {
    var patch := Patch(gen.image, box, position);
    if Empty(patch) {
      FormatRgbRoundTrip(gen.defaultColor.value);
    } else {
      FormatRgbRoundTrip(Shade(mean(patch), toHls, toRgb));
    }
  }
}

=== FILE: corpus.dfy ===
/**
 Corpus assembly: grouping the spider's records by title (`parse_data`),
 the spider's pagination step (`IMDBSpider.parse`), and the page-level
 review extraction of the Selenium scrapers (`extract_reviews`,
 `scrape_reviews`). Pages and fetched documents are abstract values; the
 HTML they come from is not modelled.
 */
module Corpus {
  import opened Wrappers
  import opened Text
  import opened PyDict
  import opened Utils

  // ---------------------------------------------------------------------
  // parse_data (Reviewer/scraper.py)
  // ---------------------------------------------------------------------

  /** One scraped item: `{"title": ..., "text": [fragments]}`. */
  datatype Record = Record(title: string, text: seq<string>)

  /** `" ".join(doc["text"])` */
  function Document(r: Record): string {
    Join(" ", r.text)
  }

  /** The documents of the records titled `t`, in record order: the reference for `parse_data`. */
  function DocsOf(records: seq<Record>, t: string): seq<string> {
    if |records| == 0 then []
    else (if records[0].title == t then [Document(records[0])] else []) + DocsOf(records[1..], t)
  }

  lemma {:induction false} DocsOfSnoc(records: seq<Record>, last: Record, t: string)
    ensures DocsOf(records + [last], t) == DocsOf(records, t) + (if last.title == t then [Document(last)] else [])
    decreases |records|
  {
    if |records| == 0 {
      assert [last][1..] == [];
    } else {
      var all := records + [last];
      var head := if records[0].title == t then [Document(records[0])] else [];
      var tail := if last.title == t then [Document(last)] else [];
      assert all[0] == records[0];
      assert all[1..] == records[1..] + [last];
      DocsOfSnoc(records[1..], last, t);
      assert DocsOf(all, t) == head + (DocsOf(records[1..], t) + tail);
      assert DocsOf(records, t) == head + DocsOf(records[1..], t);
      assert head + (DocsOf(records[1..], t) + tail) == (head + DocsOf(records[1..], t)) + tail;
    }
  }

  lemma {:induction false} DocsOfLast(records: seq<Record>, t: string)
    requires |records| > 0
    ensures DocsOf(records, t) == DocsOf(records[..|records| - 1], t)
      + (if records[|records| - 1].title == t then [Document(records[|records| - 1])] else [])
  {
    var init, last := records[..|records| - 1], records[|records| - 1];
    assert records == init + [last];
    DocsOfSnoc(init, last, t);
  }

  predicate HasTitle(records: seq<Record>, t: string) {
    exists i :: 0 <= i < |records| && records[i].title == t
  }

  /**
   `order` is what `list(set(titles))` can produce: every title once, in
   an order Python leaves unspecified.
   */
  predicate Enumerates(order: seq<string>, records: seq<Record>) {
    && (forall i, j :: 0 <= i < j < |order| ==> order[i] != order[j])
    && (forall i :: 0 <= i < |records| ==> records[i].title in order)
    && (forall t :: t in order ==> HasTitle(records, t))
  }

  /** A dict that maps every title, in the given order, to an empty list. */
  function EmptyLists(order: seq<string>): (d: Dict<string, seq<string>>)
    ensures Keys(d) == order
    ensures forall i :: 0 <= i < |d| ==> d[i].1 == []
  {
    if |order| == 0 then [] else [(order[0], [])] + EmptyLists(order[1..])
  }

  /** The loop of `parse_data` over the records, in order: each document is appended to its title's list. */
  function Group(records: seq<Record>, order: seq<string>): (d: Dict<string, seq<string>>)
    requires forall i :: 0 <= i < |records| ==> records[i].title in order
    ensures Keys(d) == order
    decreases |records|
  {
    if |records| == 0 then EmptyLists(order)
    else
      var init := records[..|records| - 1];
      var last := records[|records| - 1];
      Append(Group(init, order), last.title, Document(last))
  }

  /** `d[k].append(doc)` */
  function Append(d: Dict<string, seq<string>>, k: string, doc: string): (r: Dict<string, seq<string>>)
    requires k in Keys(d)
    ensures Keys(r) == Keys(d)
    ensures Lookup(r, k) == Some(Lookup(d, k).value + [doc])
    ensures forall t :: t != k ==> Lookup(r, t) == Lookup(d, t)
  {
    Put(d, k, Lookup(d, k).value + [doc])
  }

  lemma {:induction false} EmptyListsLookup(order: seq<string>, t: string)
    requires t in order
    ensures Lookup(EmptyLists(order), t) == Some([])
    decreases |order|
  {
    var d := EmptyLists(order);
    if order[0] != t {
      assert d[1..] == EmptyLists(order[1..]);
      EmptyListsLookup(order[1..], t);
    }
  }

  /** Each title's list holds the documents of its records, in record order. */
  lemma {:induction false} GroupLookup(records: seq<Record>, order: seq<string>, t: string)
    requires forall i :: 0 <= i < |records| ==> records[i].title in order
    requires t in order
    ensures Lookup(Group(records, order), t) == Some(DocsOf(records, t))
    decreases |records|, 1
  {
    if |records| == 0 {
      assert Group(records, order) == EmptyLists(order);
      assert DocsOf(records, t) == [];
      EmptyListsLookup(order, t);
    } else {
      GroupLookupStep(records, order, t);
    }
  }

  lemma {:induction false} GroupLookupStep(records: seq<Record>, order: seq<string>, t: string)
    requires |records| > 0
    requires forall i :: 0 <= i < |records| ==> records[i].title in order
    requires t in order
    ensures Lookup(Group(records, order), t) == Some(DocsOf(records, t))
    decreases |records|, 0
  {
    var init := records[..|records| - 1];
    var last := records[|records| - 1];
    assert forall i :: 0 <= i < |init| ==> init[i] == records[i];
    var d0 := Group(init, order);
    assert Group(records, order) == Append(d0, last.title, Document(last));
    GroupLookup(init, order, t);
    DocsOfLast(records, t);
    var d := Append(d0, last.title, Document(last));
    if t == last.title {
      assert Lookup(d, t) == Some(DocsOf(init, t) + [Document(last)]);
    } else {
      assert DocsOf(init, t) + [] == DocsOf(init, t);
      assert Lookup(d, t) == Lookup(d0, t);
    }
  }

  /**
   `parse_data()` on the loaded records: one list per title, holding the
   single-space join of each of its records' fragments, in record order.
   */
  function ParseData(records: seq<Record>, order: seq<string>): (d: Dict<string, seq<string>>)
    requires Enumerates(order, records)
    ensures Keys(d) == order && UniqueKeys(d)
    ensures forall t :: t in order ==> Lookup(d, t) == Some(DocsOf(records, t))
  {
    var d := Group(records, order);
    assert forall i :: 0 <= i < |d| ==> d[i].0 == order[i] by {
      forall i | 0 <= i < |d| ensures d[i].0 == order[i] { assert Keys(d)[i] == d[i].0; }
    }
    forall t | t in order ensures Lookup(d, t) == Some(DocsOf(records, t)) {
      GroupLookup(records, order, t);
    }
    d
  }

  /** The number of documents held by all the lists. */
  function Sizes<V>(d: Dict<string, seq<V>>): nat {
    if |d| == 0 then 0 else |d[0].1| + Sizes(d[1..])
  }

  lemma {:induction false} SizesPut(d: Dict<string, seq<string>>, k: string, v: seq<string>)
    requires k in Keys(d)
    ensures Sizes(Put(d, k, v)) + |Lookup(d, k).value| == Sizes(d) + |v|
    decreases |d|
  {
    KeysCons(d);
    if d[0].0 != k {
      SizesPut(d[1..], k, v);
      assert Put(d, k, v)[1..] == Put(d[1..], k, v);
    } else {
      assert Put(d, k, v)[1..] == d[1..];
    }
  }

  lemma {:induction false} SizesEmpty(order: seq<string>)
    ensures Sizes(EmptyLists(order)) == 0
    decreases |order|
  {
    if |order| > 0 {
      SizesEmpty(order[1..]);
    }
  }

  /** Every record becomes exactly one document: the lists hold as many documents as there were records. */
  lemma {:induction false} GroupTotal(records: seq<Record>, order: seq<string>)
    requires forall i :: 0 <= i < |records| ==> records[i].title in order
    ensures Sizes(Group(records, order)) == |records|
    decreases |records|
  {
    if |records| == 0 {
      SizesEmpty(order);
    } else {
      var init := records[..|records| - 1];
      var last := records[|records| - 1];
      GroupTotal(init, order);
      var d0 := Group(init, order);
      assert forall i :: 0 <= i < |init| ==> init[i] == records[i];
      assert Group(records, order) == Put(d0, last.title, Lookup(d0, last.title).value + [Document(last)]);
      SizesPut(d0, last.title, Lookup(d0, last.title).value + [Document(last)]);
    }
  }

  lemma {:induction false} ParseDataTotal(records: seq<Record>, order: seq<string>)
    requires Enumerates(order, records)
    ensures Sizes(ParseData(records, order)) == |records|
  {
    GroupTotal(records, order);
  }

  // ---------------------------------------------------------------------
  // IMDBSpider (Reviewer/scraper.py)
  // ---------------------------------------------------------------------

  /** `request.meta`: the `orig_url` and `title` entries, when set. */
  datatype Meta = Meta(origUrl: Option<string>, title: Option<string>)

  datatype Request = Request(url: string, meta: Meta)

  /**
   A reviews page as the spider sees it: its URL, the `content` of each
   `<meta name="title">`, the text nodes of each review body, and the
   `data-key` of the "load more" element (`None` when there is none).
   */
  datatype Page = Page(url: string, metaTitles: seq<string>, reviewTexts: seq<seq<string>>, dataKey: Option<string>)

  /** A yielded item `{"title": ..., "text": [...]}`. */
  datatype Item = Item(title: string, text: seq<string>)

  /** Everything one call of `parse` yields: its items, then at most one follow-up request. */
  datatype Step = Step(items: seq<Item>, next: Option<Request>)

  const PaginationPrefix := "reviews/_ajax?paginationKey="

  /** `start_requests`: one request per URL, remembering the URL as `orig_url`. */
  function StartRequests(urls: seq<string>): (r: seq<Request>)
    ensures |r| == |urls|
    ensures forall i :: 0 <= i < |urls| ==> r[i].url == urls[i] && r[i].meta == Meta(Some(urls[i]), None)
  {
    if |urls| == 0 then [] else [Request(urls[0], Meta(Some(urls[0]), None))] + StartRequests(urls[1..])
  }

  /** The film title on a page: the page's own meta title before any "(", else the title the request carried. */
  function PageTitle(page: Page, meta: Meta): (r: Result<string, Failure>)
    ensures r.Err? <==> |page.metaTitles| == 0 && meta.title.None?
    ensures r.Ok? && |page.metaTitles| > 0 ==>
      '(' !in r.value && (r.value == [] || (!IsSpace(r.value[0]) && !IsSpace(r.value[|r.value| - 1])))
    ensures |page.metaTitles| == 0 && meta.title.Some? ==> r == Ok(meta.title.value)
  {
    if |page.metaTitles| > 0 then
      var f := FirstField(page.metaTitles[0], '(');
      StripKeepsAbsent(f, '(');
      Ok(Strip(f))
    else if meta.title.Some? then Ok(meta.title.value)
    else Err(KeyError("title"))
  }

  /** The URL the crawl of this title started from: the one the request carried, else the page's own. */
  function OrigUrl(page: Page, meta: Meta): string {
    if meta.origUrl.Some? then meta.origUrl.value else page.url
  }

  /**
   `urljoin(base, ref)` for a relative path reference (no scheme, no
   leading "/", no dot segments). The base loses its query and fragment;
   a base with a path is cut after its last "/", and a base that is only
   a scheme and a host gets the root path "/". The reference follows.
   */
  function UrlJoin(base: string, ref: string): (r: string)
    ensures '?' !in base && '#' !in base && !HostOnly(base) ==>
      r == base[..|base| - |LastField(base, '/')|] + ref
    ensures '?' !in base && '#' !in base && HostOnly(base) ==> r == base + "/" + ref
  {
    if '?' !in base && '#' !in base then
      SplitNoSep(base, '#');
      SplitNoSep(base, '?');
      UrlDir(base) + ref
    else UrlDir(base) + ref
  }

  /**
   A URL that is a scheme and a host with nothing after them, such as
   "https://www.imdb.com": the text before its first "/" ends in ":", a
   second "/" follows at once, and no "/" comes after that.
   */
  predicate HostOnly(url: string) {
    var scheme := FirstField(url, '/');
    && |scheme| > 0 && scheme[|scheme| - 1] == ':'
    && |scheme| + 1 < |url| && url[|scheme| + 1] == '/'
    && '/' !in url[|scheme| + 2..]
  }

  /** The directory a relative reference is resolved against: the base without query and fragment, up to and including its last "/", or with "/" added when it has no path. */
  function UrlDir(base: string): string {
    var path := FirstField(FirstField(base, '#'), '?');
    if HostOnly(path) then path + "/" else path[..|path| - |LastField(path, '/')|]
  }

  /** Joining onto a bare "scheme://host" puts the reference under the root path of that host. */
  lemma {:induction false} UrlJoinHostOnly(scheme: string, host: string, ref: string)
    requires |scheme| > 0 && scheme[|scheme| - 1] == ':'
    requires '/' !in scheme && '/' !in host
    requires '?' !in scheme + host && '#' !in scheme + host
    ensures UrlJoin(scheme + "//" + host, ref) == scheme + "//" + host + "/" + ref
  {
    BareHost(scheme, host);
    BareHostPlain(scheme, host);
  }

  /** "scheme://host" is recognised as a URL without a path. */
  lemma {:induction false} BareHost(scheme: string, host: string)
    requires |scheme| > 0 && scheme[|scheme| - 1] == ':'
    requires '/' !in scheme && '/' !in host
    ensures HostOnly(scheme + "//" + host)
  {
    var base := scheme + "//" + host;
    assert base == scheme + ("//" + host);
    FirstFieldAppend(scheme, '/', "//" + host);
    assert base[|scheme| + 2..] == host;
  }

  /** "scheme://host" has neither a query nor a fragment when its parts have none. */
  lemma {:induction false} BareHostPlain(scheme: string, host: string)
    requires '?' !in scheme + host && '#' !in scheme + host
    ensures '#' !in scheme + "//" + host && '?' !in scheme + "//" + host
  {
    var base := scheme + "//" + host;
    forall k | 0 <= k < |base| ensures base[k] != '#' && base[k] != '?' {
      if k < |scheme| { assert base[k] == (scheme + host)[k]; }
      else if k >= |scheme| + 2 { assert base[k] == (scheme + host)[k - 2]; }
    }
  }

  /** Joining onto a base with a path, ".../<segment>", replaces the segment by the reference. */
  lemma {:induction false} UrlJoinReplacesLastSegment(dir: string, segment: string, ref: string)
    requires '?' !in dir && '#' !in dir && '?' !in segment && '#' !in segment && '/' !in segment
    requires !HostOnly(dir + "/" + segment)
    ensures UrlJoin(dir + "/" + segment, ref) == dir + "/" + ref
  {
    var base := dir + "/" + segment;
    assert '#' !in base && '?' !in base by {
      forall k | 0 <= k < |base| ensures base[k] != '#' && base[k] != '?' {
        if k < |dir| { assert base[k] == dir[k]; }
        else if k > |dir| { assert base[k] == segment[k - |dir| - 1]; }
      }
    }
    SplitNoSep(base, '#');
    SplitNoSep(base, '?');
    assert base == dir + ['/'] + segment;
    LastFieldAppend(dir, '/', segment);
    assert base[..|base| - |segment|] == dir + "/";
  }

  /**
   One call of `parse`: an item per review body under the page's title,
   and a request for the next batch exactly when the pagination key is a
   non-empty string. The follow-up keeps the original URL and carries the
   title. A page without meta title, reached without a title, raises.
   */
  function Parse(page: Page, meta: Meta): (r: Result<Step, Failure>)
    ensures r.Err? <==> |page.metaTitles| == 0 && meta.title.None?
    ensures r.Ok? ==> |r.value.items| == |page.reviewTexts|
    ensures r.Ok? ==> forall i :: 0 <= i < |page.reviewTexts| ==>
      r.value.items[i] == Item(PageTitle(page, meta).value, page.reviewTexts[i])
    ensures r.Ok? ==> (r.value.next.Some? <==> page.dataKey.Some? && page.dataKey.value != "")
    ensures r.Ok? && r.value.next.Some? ==>
      r.value.next.value == Request(UrlJoin(OrigUrl(page, meta), PaginationPrefix + page.dataKey.value),
                                    Meta(Some(OrigUrl(page, meta)), Some(PageTitle(page, meta).value)))
  {
    match PageTitle(page, meta)
    case Err(e) => Err(e)
    case Ok(title) =>
      var items := ItemsOf(title, page.reviewTexts);
      var orig := OrigUrl(page, meta);
      var next :=
        if page.dataKey.Some? && page.dataKey.value != "" then
          Some(Request(UrlJoin(orig, PaginationPrefix + page.dataKey.value), Meta(Some(orig), Some(title))))
        else None;
      Ok(Step(items, next))
  }

  function ItemsOf(title: string, texts: seq<seq<string>>): (r: seq<Item>)
    ensures |r| == |texts|
    ensures forall i :: 0 <= i < |texts| ==> r[i] == Item(title, texts[i])
  {
    if |texts| == 0 then [] else [Item(title, texts[0])] + ItemsOf(title, texts[1..])
  }

  /**
   The chain of requests the spider issues for one start request when
   `pages[k]` is the response to the k-th request: it ends at the first
   page without key, at a failure, or when the given pages run out.
   */
  function Crawl(pages: seq<Page>, request: Request): (r: seq<Request>)
    ensures 1 <= |r| <= |pages| + 1
    ensures r[0] == request
    decreases |pages|
  {
    if |pages| == 0 then [request]
    else
      match NextOf(pages[0], request.meta)
      case None => [request]
      case Some(next) => [request] + Crawl(pages[1..], next)
  }

  /**
   Each request of a crawl after the first is the follow-up `parse` makes
   from the page answering the one before, and the chain stops only when
   the pages run out or a page makes no follow-up.
   */
  lemma {:induction false} CrawlChain(pages: seq<Page>, request: Request)
    ensures var r := Crawl(pages, request);
      (forall i :: 0 <= i < |r| - 1 ==> NextOf(pages[i], r[i].meta) == Some(r[i + 1])) &&
      (|r| == |pages| + 1 || NextOf(pages[|r| - 1], r[|r| - 1].meta).None?)
    decreases |pages|
  {
    if |pages| > 0 && NextOf(pages[0], request.meta).Some? {
      var next := NextOf(pages[0], request.meta).value;
      CrawlChain(pages[1..], next);
      assert Crawl(pages, request) == [request] + Crawl(pages[1..], next);
      ChainCons(pages, request, Crawl(pages[1..], next));
    }
  }

  /** A chain over the later pages, preceded by a request whose page leads to its head, is a chain over all pages. */
  lemma {:induction false} ChainCons(pages: seq<Page>, request: Request, rest: seq<Request>)
    requires 0 < |rest| <= |pages|
    requires NextOf(pages[0], request.meta) == Some(rest[0])
    requires forall i :: 0 <= i < |rest| - 1 ==> NextOf(pages[1..][i], rest[i].meta) == Some(rest[i + 1])
    requires |rest| == |pages| || NextOf(pages[1..][|rest| - 1], rest[|rest| - 1].meta).None?
    ensures var r := [request] + rest;
      (forall i :: 0 <= i < |r| - 1 ==> NextOf(pages[i], r[i].meta) == Some(r[i + 1])) &&
      (|r| == |pages| + 1 || NextOf(pages[|r| - 1], r[|r| - 1].meta).None?)
  {
    var r := [request] + rest;
    forall i | 0 <= i < |r| - 1 ensures NextOf(pages[i], r[i].meta) == Some(r[i + 1]) {
      if i > 0 {
        assert pages[1..][i - 1] == pages[i];
        assert r[i] == rest[i - 1] && r[i + 1] == rest[i];
      }
    }
    if |r| != |pages| + 1 {
      assert pages[1..][|rest| - 1] == pages[|r| - 1];
      assert r[|r| - 1] == rest[|rest| - 1];
    }
  }

  /** The follow-up request `parse` makes for a page, if it makes one. */
  function NextOf(page: Page, meta: Meta): (r: Option<Request>)
    ensures r.Some? <==> Parse(page, meta).Ok? && Parse(page, meta).value.next.Some?
    ensures r.Some? ==> r == Parse(page, meta).value.next
    ensures r.Some? ==> r.value.meta.origUrl == Some(OrigUrl(page, meta))
    ensures r.Some? ==> r.value.url == UrlDir(OrigUrl(page, meta)) + PaginationPrefix + page.dataKey.value
  {
    match Parse(page, meta)
    case Err(_) => None
    case Ok(step) => step.next
  }

  /**
   Every follow-up request in a crawl keeps the original URL of the start
   request and asks for a pagination batch relative to it.
   */
  lemma {:induction false} CrawlKeepsOrigin(pages: seq<Page>, start: string)
    ensures var r := Crawl(pages, Request(start, Meta(Some(start), None)));
      forall i :: 1 <= i < |r| ==> FollowsFrom(start, r[i])
  {
    var request := Request(start, Meta(Some(start), None));
    CrawlFrom(pages, request, start);
    TailFollows(Crawl(pages, request), start);
  }

  lemma {:induction false} TailFollows(r: seq<Request>, start: string)
    requires |r| > 0 && Every((q: Request) => FollowsFrom(start, q), r[1..])
    ensures forall i :: 1 <= i < |r| ==> FollowsFrom(start, r[i])
  {
    var p := (q: Request) => FollowsFrom(start, q);
    forall i | 1 <= i < |r| ensures FollowsFrom(start, r[i]) {
      assert r[1..][i - 1] == r[i];
      EveryAt(p, r[1..], i - 1);
      assert p(r[i]);
    }
  }

  /** `url` is `urljoin(orig, "reviews/_ajax?paginationKey=<key>")` for some key. */
  predicate PaginationUrl(orig: string, url: string) {
    var prefix := UrlDir(orig) + PaginationPrefix;
    |prefix| <= |url| && url[..|prefix|] == prefix
  }

  lemma {:induction false} CrawlFrom(pages: seq<Page>, request: Request, start: string)
    requires request.meta.origUrl == Some(start)
    ensures Every((q: Request) => FollowsFrom(start, q), Crawl(pages, request)[1..])
    decreases |pages|
  {
    if |pages| > 0 && NextOf(pages[0], request.meta).Some? {
      var next := NextOf(pages[0], request.meta).value;
      NextKeepsOrigin(pages[0], request, start);
      CrawlFrom(pages[1..], next, start);
      var rest := Crawl(pages[1..], next);
      assert Crawl(pages, request)[1..] == rest;
    } else {
      assert Crawl(pages, request)[1..] == [];
    }
  }

  /** A follow-up of a crawl from `start`: it keeps the original URL and asks for a batch relative to it. */
  predicate FollowsFrom(start: string, request: Request) {
    request.meta.origUrl == Some(start) && PaginationUrl(start, request.url)
  }

  /** `p` holds of every element, stated one element at a time from the front. */
  predicate Every<T>(p: T -> bool, xs: seq<T>) {
    |xs| == 0 || (p(xs[0]) && Every(p, xs[1..]))
  }

  lemma {:induction false} EveryAt<T>(p: T -> bool, xs: seq<T>, i: nat)
    requires Every(p, xs) && i < |xs|
    ensures p(xs[i])
    decreases i
  {
    if i > 0 {
      EveryAt(p, xs[1..], i - 1);
    }
  }

  lemma {:induction false} NextKeepsOrigin(page: Page, request: Request, start: string)
    requires request.meta.origUrl == Some(start)
    requires NextOf(page, request.meta).Some?
    ensures FollowsFrom(start, NextOf(page, request.meta).value)
  {
    var next := NextOf(page, request.meta).value;
    assert OrigUrl(page, request.meta) == start;
    PrefixOfAppend(UrlDir(start) + PaginationPrefix, page.dataKey.value);
  }

  lemma {:induction false} PrefixOfAppend(a: string, b: string)
    ensures (a + b)[..|a|] == a
  {
  }

  // ---------------------------------------------------------------------
  // extract_reviews and scrape_reviews (Disney/scraper.py, src/scraper.py)
  // ---------------------------------------------------------------------

  /**
   An `imdb-user-review` element: the text of its `title` child and of its
   `content` child, `None` when the child is missing.
   */
  datatype ReviewElem = ReviewElem(title: Option<string>, content: Option<string>)

  /** The contents that exist, in element order. */
  function Contents(elems: seq<ReviewElem>): (r: seq<string>)
    ensures |r| <= |elems|
  {
    if |elems| == 0 then []
    else (if elems[0].content.Some? then [elems[0].content.value] else []) + Contents(elems[1..])
  }

  predicate AllTitled(elems: seq<ReviewElem>) {
    forall i :: 0 <= i < |elems| ==> elems[i].title.Some?
  }

  /**
   `extract_reviews(soup)`: a name for every element, a review only for
   the elements that have a content; a missing title raises
   AttributeError, which nothing catches.
   */
  function ExtractReviews(elems: seq<ReviewElem>): (r: Result<(seq<string>, seq<string>), Failure>)
    ensures r.Ok? <==> AllTitled(elems)
    ensures r.Err? ==> r.error == AttributeError
    ensures r.Ok? ==> |r.value.0| == |elems| && r.value.1 == Contents(elems)
    ensures r.Ok? ==> forall i :: 0 <= i < |elems| ==> r.value.0[i] == elems[i].title.value
  {
    if |elems| == 0 then Ok(([], []))
    else if elems[0].title.None? then Err(AttributeError)
    else
      match ExtractReviews(elems[1..])
      case Err(e) =>
        assert !AllTitled(elems[1..]);
        var i :| 0 <= i < |elems[1..]| && elems[1..][i].title.None?;
        assert elems[i + 1].title.None?;
        Err(e)
      case Ok(rest) =>
        var review := if elems[0].content.Some? then [elems[0].content.value] else [];
        assert AllTitled(elems) by {
          forall i | 0 <= i < |elems| ensures elems[i].title.Some? {
            if i > 0 { assert elems[i] == elems[1..][i - 1]; }
          }
        }
        Ok(([elems[0].title.value] + rest.0, review + rest.1))
  }

  /** Never more reviews than names. */
  lemma {:induction false} FewerReviewsThanNames(elems: seq<ReviewElem>)
    requires ExtractReviews(elems).Ok?
    ensures |ExtractReviews(elems).value.1| <= |ExtractReviews(elems).value.0|
  {
  }

  /**
   A review element without content shifts every later review onto an
   earlier name: the second element's review is paired with the first
   element's name.
   */
  lemma {:induction false} ExtractReviewsMisaligns(a: string, b: string, reviewOfB: string)
    ensures var r := ExtractReviews([ReviewElem(Some(a), None), ReviewElem(Some(b), Some(reviewOfB))]);
      r == Ok(([a, b], [reviewOfB])) && Zip(r.value.0, r.value.1) == [(a, reviewOfB)]
  {
    var elems := [ReviewElem(Some(a), None), ReviewElem(Some(b), Some(reviewOfB))];
    var tail := [ReviewElem(Some(b), Some(reviewOfB))];
    assert elems[1..] == tail;
    assert tail[1..] == [];
    assert ExtractReviews(tail[1..]) == Ok(([], []));
    assert ExtractReviews(tail) == Ok(([b] + [], [reviewOfB] + []));
    assert [b] + [] == [b] && [reviewOfB] + [] == [reviewOfB];
    assert ExtractReviews(elems) == Ok(([a] + [b], [] + [reviewOfB]));
    assert [a] + [b] == [a, b] && [] + [reviewOfB] == [reviewOfB];
    var z := Zip([a, b], [reviewOfB]);
    assert |z| == 1 && z[0] == (a, reviewOfB);
  }

  /** The (name, review) pairs of one film's page. */
  function PagePairs(elems: seq<ReviewElem>): Result<seq<(string, string)>, Failure> {
    match ExtractReviews(elems)
    case Err(e) => Err(e)
    case Ok(nr) => Ok(Zip(nr.0, nr.1))
  }

  /**
   The loop of `scrape_reviews` over the titles of `urls`, in order, with
   `fetch` standing for the fully loaded page of a URL: starting from
   an empty list per title, each title's list becomes the zip of
   its page's names and reviews. The first failure ends the run.
   */
  function ScrapeReviews(urls: Dict<string, string>, fetch: string -> seq<ReviewElem>): (r: Result<Dict<string, seq<(string, string)>>, Failure>)
    requires UniqueKeys(urls)
    ensures r.Ok? <==> forall i :: 0 <= i < |urls| ==> PagePairs(fetch(urls[i].1)).Ok?
    ensures r.Ok? ==> Keys(r.value) == Keys(urls)
    ensures r.Ok? ==> forall i :: 0 <= i < |urls| ==> Lookup(r.value, urls[i].0) == Some(PagePairs(fetch(urls[i].1)).value)
  {
    Fill(urls, fetch, |urls|)
  }

  /** The dict after the first `n` titles of the loop. */
  function Fill(urls: Dict<string, string>, fetch: string -> seq<ReviewElem>, n: nat): (r: Result<Dict<string, seq<(string, string)>>, Failure>)
    requires UniqueKeys(urls) && n <= |urls|
    ensures r.Ok? <==> forall i :: 0 <= i < n ==> PagePairs(fetch(urls[i].1)).Ok?
    ensures r.Ok? ==> Keys(r.value) == Keys(urls)
    ensures r.Ok? ==> forall i :: 0 <= i < n ==> Lookup(r.value, urls[i].0) == Some(PagePairs(fetch(urls[i].1)).value)
    ensures r.Ok? ==> forall i :: n <= i < |urls| ==> Lookup(r.value, urls[i].0) == Some([])
    decreases n
  {
    if n == 0 then
      var d := EmptyPairs(Keys(urls));
      assert forall i :: 0 <= i < |urls| ==> Keys(urls)[i] == urls[i].0;
      Ok(d)
    else
      match Fill(urls, fetch, n - 1)
      case Err(e) => Err(e)
      case Ok(d) =>
        match PagePairs(fetch(urls[n - 1].1))
        case Err(e) => Err(e)
        case Ok(pairs) =>
          assert urls[n - 1].0 in Keys(d) by { assert Keys(urls)[n - 1] == urls[n - 1].0; }
          var d' := Put(d, urls[n - 1].0, pairs);
          forall i | 0 <= i < |urls| && i != n - 1 ensures urls[i].0 != urls[n - 1].0 {}
          Ok(d')
  }

  /** A dict that maps every title, in order, to an empty list of reviews. */
  function EmptyPairs(titles: seq<string>): (d: Dict<string, seq<(string, string)>>)
    ensures Keys(d) == titles
    ensures forall i :: 0 <= i < |titles| ==> Lookup(d, titles[i]) == Some([])
  {
    if |titles| == 0 then []
    else
      var rest := EmptyPairs(titles[1..]);
      var d := [(titles[0], [])] + rest;
      KeysCons(d);
      assert d[1..] == rest;
      forall i | 0 <= i < |titles| ensures Lookup(d, titles[i]) == Some([]) {
        if i > 0 && titles[i] != titles[0] { assert titles[i] == titles[1..][i - 1]; }
      }
      d
  }
}

=== FILE: extreal.dfy ===
/**
 The floating-point values that the score tables can hold, as extended
 reals: a finite value, either infinity, or NaN. Only what numpy's
 elementwise division and pandas' `sum(skipna=True)` and descending
 `sort_values` do with them is modelled; rounding and signed zeros are not.
 */
module ExtReal {

  datatype Ext = Fin(v: real) | PosInf | NegInf | NaN

  /** IEEE addition: infinities absorb finite values, opposite infinities give NaN. */
  function Add(a: Ext, b: Ext): (r: Ext)
    ensures r.NaN? <==> a.NaN? || b.NaN? || (a == PosInf && b == NegInf) || (a == NegInf && b == PosInf)
    ensures r.Fin? <==> a.Fin? && b.Fin?
    ensures r.Fin? ==> r.v == a.v + b.v
  {
    match (a, b)
    case (NaN, _) => NaN
    case (_, NaN) => NaN
    case (PosInf, NegInf) => NaN
    case (NegInf, PosInf) => NaN
    case (PosInf, _) => PosInf
    case (_, PosInf) => PosInf
    case (NegInf, _) => NegInf
    case (_, NegInf) => NegInf
    case (Fin(x), Fin(y)) => Fin(x + y)
  }

  lemma {:induction false} AddCommutes(a: Ext, b: Ext)
    ensures Add(a, b) == Add(b, a)
  {
  }

  function Sign(x: real): Ext {
    if x > 0.0 then PosInf else if x < 0.0 then NegInf else NaN
  }

  /**
   numpy's true division. A finite value over zero is an infinity of the
   numerator's sign, 0/0 and inf/inf are NaN, a finite value over an
   infinity is zero.
   */
  function Div(a: Ext, b: Ext): (r: Ext)
    ensures r.Fin? <==> a.Fin? && (b.PosInf? || b.NegInf? || (b.Fin? && b.v != 0.0))
    ensures r.Fin? && b.Fin? ==> r.v * b.v == a.v
    ensures r.Fin? && !b.Fin? ==> r.v == 0.0
    ensures a.Fin? && b == Fin(0.0) ==> r == Sign(a.v)
  {
    match (a, b)
    case (NaN, _) => NaN
    case (_, NaN) => NaN
    case (Fin(x), Fin(y)) =>
      if y != 0.0 then Fin(x / y) else Sign(x)
    case (Fin(_), _) => Fin(0.0)
    case (_, Fin(y)) =>
      if y < 0.0 then (if a == PosInf then NegInf else PosInf) else a
    case (_, _) => NaN
  }

  /** The finite values of `xs` added up, NaN and infinities ignored. */
  function FinSum(xs: seq<Ext>): real {
    if |xs| == 0 then 0.0
    else (if xs[0].Fin? then xs[0].v else 0.0) + FinSum(xs[1..])
  }

  lemma {:induction false} FinSumSnoc(xs: seq<Ext>, x: Ext)
    ensures FinSum(xs + [x]) == FinSum(xs) + (if x.Fin? then x.v else 0.0)
    decreases |xs|
  {
    if |xs| > 0 {
      assert (xs + [x])[1..] == xs[1..] + [x];
      FinSumSnoc(xs[1..], x);
    }
  }

  /**
   pandas' row sum with `skipna=True`: NaN entries are skipped, an empty or
   all-NaN row sums to zero, and the rest are added left to right.
   */
  function SkipnaSum(xs: seq<Ext>): (r: Ext)
    ensures r.NaN? <==> PosInf in xs && NegInf in xs
    ensures r == PosInf <==> PosInf in xs && NegInf !in xs
    ensures r == NegInf <==> NegInf in xs && PosInf !in xs
    ensures r.Fin? ==> r.v == FinSum(xs)
    decreases |xs|
  {
    if |xs| == 0 then Fin(0.0)
    else
      var init := xs[..|xs| - 1];
      var last := xs[|xs| - 1];
      assert xs == init + [last];
      FinSumSnoc(init, last);
      if last.NaN? then SkipnaSum(init) else Add(SkipnaSum(init), last)
  }

  function Rank(a: Ext): nat {
    match a
    case NaN => 0
    case NegInf => 1
    case Fin(_) => 2
    case PosInf => 3
  }

  /**
   `a` may come before `b` in a descending sort that puts NaN last: plus
   infinity first, then finite values from high to low, minus infinity, NaN.
   */
  predicate Geq(a: Ext, b: Ext) {
    if a.Fin? && b.Fin? then a.v >= b.v else Rank(a) >= Rank(b)
  }

  lemma {:induction false} GeqTotal(a: Ext, b: Ext)
    ensures Geq(a, b) || Geq(b, a)
  {
  }

  lemma {:induction false} GeqTransitive(a: Ext, b: Ext, c: Ext)
    requires Geq(a, b) && Geq(b, c)
    ensures Geq(a, c)
  {
  }

  /** On finite values the order is the usual one. */
  lemma {:induction false} GeqFinite(x: real, y: real)
    ensures Geq(Fin(x), Fin(y)) <==> x >= y
  {
  }

  /** NaN sorts after every value and every number before it. */
  lemma {:induction false} NaNLast(a: Ext)
    ensures Geq(a, NaN)
    ensures Geq(NaN, a) <==> a.NaN?
  {
  }

  lemma {:induction false} SumOne(a: Ext)
    requires a.Fin?
    ensures SkipnaSum([a]) == a
  {
    assert [a][..0] == [];
  }

  lemma {:induction false} SumTwo(a: Ext, b: Ext)
    requires a.Fin? && b.Fin?
    ensures SkipnaSum([a, b]) == Fin(a.v + b.v)
  {
    assert [a, b][..1] == [a];
    SumOne(a);
  }

  lemma {:induction false} DivFinite(x: real, y: real)
    requires y != 0.0
    ensures Div(Fin(x), Fin(y)) == Fin(x / y)
  {
  }
}

=== FILE: generate.dfy ===
/**
 The `generate` entry points of Reviewer/tfidf.py and Disney/tfidf.py:
 prepare the documents, vectorize them, score them and rank the terms of
 every title. Reading and writing the JSON files is left out.
 */
module Generate {
  import opened Wrappers
  import opened PyDict
  import opened Utils
  import opened Ranking
  import opened ClassTfidf
  import opened Relative

  /** The vectorizer's promise: whenever it succeeds, its vocabulary and counts fit the documents. */
  ghost predicate Honest(vectorize: seq<string> -> Result<Vectorized, Failure>) {
    forall docs :: vectorize(docs).Ok? ==> Fits(vectorize(docs).value, |docs|)
  }

  /** The tf-idf matrix of prepared documents, or the vectorizer's failure. */
  function Scores(p: Prepared, vectorize: seq<string> -> Result<Vectorized, Failure>, ln: real -> real): (r: Result<(seq<string>, seq<seq<real>>), Failure>)
    requires |p.documents| == |p.titles| && Honest(vectorize)
    ensures r.Err? <==> vectorize(p.documents).Err?
    ensures r.Ok? ==> |r.value.0| == |r.value.1| && Shaped(r.value.1, |p.titles|)
    ensures r.Ok? ==> var v := vectorize(p.documents).value;
      r.value == (v.words, CTfIdf(v.counts, |p.titles|, p.m, ln))
  {
    match vectorize(p.documents)
    case Err(e) => Err(e)
    case Ok(v) => Ok((v.words, CTfIdf(v.counts, |p.titles|, p.m, ln)))
  }

  /**
   Reviewer/tfidf.py `generate` with `class_tfidf`: the plain table of the
   2000 best terms per title.
   */
  function GenerateClass(reviews: Dict<string, seq<string>>, vectorize: seq<string> -> Result<Vectorized, Failure>, ln: real -> real): (r: Result<Dict<string, Ranked>, Failure>)
    requires Honest(vectorize)
    ensures r.Err? <==> vectorize(PrepareData(reviews).documents).Err?
    ensures r.Ok? ==> Keys(r.value) == Keys(reviews)
    ensures r.Ok? ==> forall i :: 0 <= i < |reviews| ==> |r.value[i].1| <= TopTerms && SortedBy(r.value[i].1, Score)
    ensures r.Ok? ==> exists words, s ::
      Scores(PrepareData(reviews), vectorize, ln) == Ok((words, s)) &&
      r.value == ExtractTopNTfidf(s, words, Keys(reviews), TopTerms)
  {
    var p := PrepareData(reviews);
    match Scores(p, vectorize, ln)
    case Err(e) => Err(e)
    case Ok((words, s)) => Ok(ExtractTopNTfidf(s, words, p.titles, TopTerms))
  }

  /**
   Reviewer/tfidf.py `generate` without `class_tfidf`: word counts over the
   first title's reviews only; no titles at all is an IndexError.
   */
  function GenerateCounts(reviews: Dict<string, seq<string>>, vectorize: seq<string> -> Result<Vectorized, Failure>): (r: Result<Dict<string, seq<(string, nat)>>, Failure>)
    requires Honest(vectorize)
    ensures |reviews| == 0 ==> r == Err(IndexError)
    ensures |reviews| > 0 ==> (r.Err? <==> vectorize(reviews[0].1).Err?)
    ensures r.Ok? ==> Keys(r.value) == [reviews[0].0] && |r.value[0].1| <= TopTerms
    ensures r.Ok? ==> r.value == [(reviews[0].0, GetTopNWords(vectorize(reviews[0].1).value, TopTerms))]
  {
    if |reviews| == 0 then Err(IndexError)
    else
      match vectorize(reviews[0].1)
      case Err(e) => Err(e)
      case Ok(v) => Ok([(reviews[0].0, GetTopNWords(v, TopTerms))])
  }

  /**
   Disney/tfidf.py `generate`: the plain and the relative-importance tables,
   both ranked from the same tf-idf matrix.
   */
  function GenerateDisney(reviews: Dict<string, seq<(string, string)>>, vectorize: seq<string> -> Result<Vectorized, Failure>, ln: real -> real): (r: Result<(Dict<string, Ranked>, Dict<string, Ranked>), Failure>)
    requires Honest(vectorize)
    ensures r.Err? <==> vectorize(PreparePairs(reviews).documents).Err?
    ensures r.Ok? ==> Keys(r.value.0) == Keys(reviews) && Keys(r.value.1) == Keys(reviews)
    ensures r.Ok? ==> exists words, s ::
      Scores(PreparePairs(reviews), vectorize, ln) == Ok((words, s)) &&
      r.value.0 == ExtractTopNTfidf(s, words, Keys(reviews), TopTerms) &&
      r.value.1 == ExtractRelative(s, words, Keys(reviews), TopTerms)
  {
    var p := PreparePairs(reviews);
    match Scores(p, vectorize, ln)
    case Err(e) => Err(e)
    case Ok((words, s)) => Ok((ExtractTopNTfidf(s, words, p.titles, TopTerms), ExtractRelative(s, words, p.titles, TopTerms)))
  }
}

=== FILE: mask.dfy ===
/**
 The size arithmetic of `load_mask`: a mask that is too small is scaled up
 by a whole-number factor on both sides. Reading, converting and resampling
 the image are left out; only its size is modelled.
 */
module Mask {
  import opened Wrappers
  import opened Utils

  /** `mask.size`: width, then height. */
  datatype Size = Size(width: nat, height: nat)

  /** `math.ceil(a / b)`: the least multiple count of `b` that reaches `a`. */
  function CeilDiv(a: nat, b: nat): (k: nat)
    requires b > 0
    ensures b * k >= a
    ensures k == 0 || b * (k - 1) < a
  {
    (a + b - 1) / b
  }

  /** No smaller count of `b` reaches `a`. */
  lemma {:induction false} CeilDivLeast(a: nat, b: nat, j: nat)
    requires b > 0 && j < CeilDiv(a, b)
    ensures b * j < a
  {
    var k := CeilDiv(a, b);
    assert b * j <= b * (k - 1) by {
      MulMonotone(b, j, k - 1);
    }
  }

  lemma {:induction false} MulMonotone(b: nat, i: nat, j: nat)
    requires i <= j
    ensures b * i <= b * j
  {
  }

  /**
   Reviewer/cloud.py and Disney/wc.py: when either side is below
   `min_pixels`, both sides are multiplied by `ceil(min_pixels / width)`;
   the width appears twice in `min([width, width])`, so the height plays no
   part in the factor. A zero width is a ZeroDivisionError.
   */
  function Upscale(size: Size, minPixels: int): (r: Result<Size, Failure>)
    ensures r.Err? <==> size.width == 0 && minPixels > 0
    ensures r.Err? ==> r.error == ZeroDivisionError
    ensures r.Ok? && size.width >= minPixels && size.height >= minPixels ==> r.value == size
    ensures r.Ok? ==> r.value.width * size.height == r.value.height * size.width
    ensures r.Ok? ==> r.value.width >= size.width && r.value.height >= size.height
    ensures r.Ok? ==> r.value.width >= minPixels || r.value == size
  {
    if size.width < minPixels || size.height < minPixels then
      if size.width == 0 then Err(ZeroDivisionError)
      else
        var k := CeilDiv(minPixels as nat, size.width);
        Scaled(size, k);
        Ok(Size(size.width * k, size.height * k))
    else Ok(size)
  }

  lemma {:induction false} Scaled(size: Size, k: nat)
    requires k >= 1
    ensures (size.width * k) * size.height == (size.height * k) * size.width
    ensures size.width * k >= size.width && size.height * k >= size.height
  {
  }

  /** When a mask is scaled, the factor is the least one that brings its width to `min_pixels`. */
  lemma {:induction false} UpscaleFactorLeast(size: Size, minPixels: int, j: nat)
    requires size.width > 0 && (size.width < minPixels || size.height < minPixels)
    requires j < CeilDiv(minPixels as nat, size.width)
    ensures Upscale(size, minPixels) == Ok(Size(size.width * CeilDiv(minPixels as nat, size.width), size.height * CeilDiv(minPixels as nat, size.width)))
    ensures size.width * j < minPixels
  {
    CeilDivLeast(minPixels as nat, size.width, j);
  }

  /** A mask wide enough but too short keeps its size: the factor is 1. */
  lemma {:induction false} WideButShort(size: Size, minPixels: int)
    requires size.width >= minPixels > size.height
    ensures Upscale(size, minPixels) == Ok(size)
  {
    var k := CeilDiv(minPixels as nat, size.width);
    assert k == 1 by {
      if k > 1 {
        CeilDivLeast(minPixels as nat, size.width, 1);
      }
    }
  }

  /**
   src/wc.py: only a mask narrower AND shorter than 1000 pixels is scaled,
   by `ceil(1000 / width)`.
   */
  function UpscaleSrc(size: Size): (r: Result<Size, Failure>)
    ensures r.Err? <==> size.width == 0 && size.height < 1000
    ensures r.Err? ==> r.error == ZeroDivisionError
    ensures r.Ok? && (size.width >= 1000 || size.height >= 1000) ==> r.value == size
    ensures r.Ok? ==> r.value.width * size.height == r.value.height * size.width
  {
    if size.width < 1000 && size.height < 1000 then
      if size.width == 0 then Err(ZeroDivisionError)
      else
        var k := CeilDiv(1000, size.width);
        Scaled(size, k);
        Ok(Size(size.width * k, size.height * k))
    else Ok(size)
  }

  /** When src/wc.py scales a mask, the factor is at least 2 and the new width at least 1000. */
  lemma {:induction false} SrcScaleFactor(size: Size)
    requires 0 < size.width < 1000 && size.height < 1000
    ensures var k := CeilDiv(1000, size.width);
      k >= 2 && UpscaleSrc(size) == Ok(Size(size.width * k, size.height * k)) && size.width * k >= 1000
  {
    var k := CeilDiv(1000, size.width);
    if k < 2 {
      assert size.width * k <= size.width * 1 by { MulMonotone(size.width, k, 1); }
    }
  }
}

=== FILE: pydict.dfy ===
/**
 Python's insertion-ordered `dict`, as an association list. Assigning to a
 key that is present keeps its position; a new key goes to the end.
 */
module PyDict {
  import opened Wrappers

  type Dict<K, V> = seq<(K, V)>

  function Keys<K, V>(d: Dict<K, V>): seq<K> {
    seq(|d|, i requires 0 <= i < |d| => d[i].0)
  }

  function Values<K, V>(d: Dict<K, V>): seq<V> {
    seq(|d|, i requires 0 <= i < |d| => d[i].1)
  }

  predicate UniqueKeys<K(==,!new), V>(d: Dict<K, V>) {
    forall i, j :: 0 <= i < j < |d| ==> d[i].0 != d[j].0
  }

  /** `d.get(k)`: the value stored with the first (under unique keys, the only) entry for `k`. */
  function Lookup<K(==), V>(d: Dict<K, V>, k: K): (r: Option<V>)
    ensures r.Some? <==> k in Keys(d)
  {
    KeysCons(d);
    if |d| == 0 then None
    else if d[0].0 == k then Some(d[0].1)
    else Lookup(d[1..], k)
  }

  /** `d[k] = v` */
  function Put<K(==,!new), V>(d: Dict<K, V>, k: K, v: V): (r: Dict<K, V>)
    ensures Lookup(r, k) == Some(v)
    ensures forall k' :: k' != k ==> Lookup(r, k') == Lookup(d, k')
    ensures Keys(r) == if k in Keys(d) then Keys(d) else Keys(d) + [k]
  {
    KeysCons(d);
    if |d| == 0 then [(k, v)]
    else if d[0].0 == k then
      var r := [(k, v)] + d[1..];
      KeysCons(r);
      assert r[1..] == d[1..];
      r
    else
      var rest := Put(d[1..], k, v);
      var r := [d[0]] + rest;
      KeysCons(r);
      assert r[1..] == rest;
      r
  }

  lemma {:induction false} KeysCons<K, V>(d: Dict<K, V>)
    ensures |d| > 0 ==> Keys(d) == [d[0].0] + Keys(d[1..])
  {
  }

  /** Assigning to a dict never creates a second entry for a key. */
  lemma {:induction false} PutUnique<K(!new), V>(d: Dict<K, V>, k: K, v: V)
    requires UniqueKeys(d)
    ensures UniqueKeys(Put(d, k, v))
    decreases |d|
  {
    var r := Put(d, k, v);
    KeysCons(d);
    KeysCons(r);
    if |d| > 0 && d[0].0 != k {
      var rest := Put(d[1..], k, v);
      assert r == [d[0]] + rest;
      PutUnique(d[1..], k, v);
      forall j | 0 <= j < |d[1..]| ensures Keys(d[1..])[j] != d[0].0 {
        assert d[j + 1].0 != d[0].0;
      }
      forall i, j | 0 <= i < j < |r| ensures r[i].0 != r[j].0 {
        if i == 0 {
          assert r[j].0 == Keys(rest)[j - 1];
        } else {
          assert r[i] == rest[i - 1] && r[j] == rest[j - 1];
        }
      }
    } else if |d| > 0 {
      forall i, j | 0 <= i < j < |r| ensures r[i].0 != r[j].0 {
        assert r[i].0 == d[i].0 && r[j].0 == d[j].0;
      }
    }
  }

  /** A dict built from pairs by assigning them in order, so the last pair for a key wins. */
  function FromPairs<K(==,!new), V>(pairs: seq<(K, V)>): (d: Dict<K, V>)
    ensures UniqueKeys(d)
  {
    if |pairs| == 0 then []
    else
      var last := pairs[|pairs| - 1];
      var init := FromPairs(pairs[..|pairs| - 1]);
      PutUnique(init, last.0, last.1);
      Put(init, last.0, last.1)
  }

  /** The value of the last pair whose key is `k`: what a dict comprehension keeps. */
  function LastValue<K(==,!new), V>(pairs: seq<(K, V)>, k: K): Option<V> {
    if |pairs| == 0 then None
    else if pairs[|pairs| - 1].0 == k then Some(pairs[|pairs| - 1].1)
    else LastValue(pairs[..|pairs| - 1], k)
  }

  lemma {:induction false} FromPairsLookup<K(!new), V>(pairs: seq<(K, V)>, k: K)
    ensures Lookup(FromPairs(pairs), k) == LastValue(pairs, k)
    decreases |pairs|
  {
    if |pairs| > 0 {
      FromPairsLookup(pairs[..|pairs| - 1], k);
    }
  }

  /** The keys of a dict built from pairs are exactly the pairs' keys. */
  lemma {:induction false} FromPairsKeys<K(!new), V>(pairs: seq<(K, V)>)
    ensures forall k :: k in Keys(FromPairs(pairs)) <==> k in Keys(pairs)
    decreases |pairs|
  {
    if |pairs| > 0 {
      var init := pairs[..|pairs| - 1];
      var last := pairs[|pairs| - 1];
      FromPairsKeys(init);
      KeysSnoc(pairs);
      PutKeys(FromPairs(init), last.0, last.1);
      assert FromPairs(pairs) == Put(FromPairs(init), last.0, last.1);
    }
  }

  lemma {:induction false} KeysSnoc<K, V>(d: Dict<K, V>)
    requires |d| > 0
    ensures forall k :: k in Keys(d) <==> k in Keys(d[..|d| - 1]) || k == d[|d| - 1].0
  {
    assert Keys(d) == Keys(d[..|d| - 1]) + [d[|d| - 1].0];
  }

  lemma {:induction false} PutKeys<K(!new), V>(d: Dict<K, V>, k: K, v: V)
    ensures forall k' :: k' in Keys(Put(d, k, v)) <==> k' in Keys(d) || k' == k
  {
  }

  /** Pairs with distinct keys become a dict holding them in the same order. */
  lemma {:induction false} FromPairsDistinct<K(!new), V>(pairs: seq<(K, V)>)
    requires UniqueKeys(pairs)
    ensures FromPairs(pairs) == pairs
    decreases |pairs|
  {
    if |pairs| > 0 {
      var init := pairs[..|pairs| - 1];
      var last := pairs[|pairs| - 1];
      UniqueInit(pairs);
      FromPairsDistinct(init);
      FromPairsSnoc(pairs);
      PutNew(init, last.0, last.1);
      SnocLast(pairs);
    }
  }

  lemma {:induction false} FromPairsSnoc<K(!new), V>(pairs: seq<(K, V)>)
    requires |pairs| > 0
    ensures var last := pairs[|pairs| - 1];
      FromPairs(pairs) == Put(FromPairs(pairs[..|pairs| - 1]), last.0, last.1)
  {
  }

  lemma {:induction false} SnocLast<K, V>(pairs: seq<(K, V)>)
    requires |pairs| > 0
    ensures var last := pairs[|pairs| - 1];
      pairs == pairs[..|pairs| - 1] + [(last.0, last.1)]
  {
  }

  /** Without its last entry a dict still has unique keys, none of them the last entry's. */
  lemma {:induction false} UniqueInit<K(!new), V>(d: Dict<K, V>)
    requires UniqueKeys(d) && |d| > 0
    ensures UniqueKeys(d[..|d| - 1])
    ensures d[|d| - 1].0 !in Keys(d[..|d| - 1])
  {
    var init := d[..|d| - 1];
    forall i, j | 0 <= i < j < |init| ensures init[i].0 != init[j].0 {
      assert init[i] == d[i] && init[j] == d[j];
    }
    forall i | 0 <= i < |init| ensures Keys(init)[i] != d[|d| - 1].0 {
      assert init[i] == d[i];
    }
  }

  lemma {:induction false} PutNew<K(!new), V>(d: Dict<K, V>, k: K, v: V)
    requires k !in Keys(d)
    ensures Put(d, k, v) == d + [(k, v)]
    decreases |d|
  {
    if |d| > 0 {
      KeysCons(d);
      assert d[0].0 != k && k !in Keys(d[1..]);
      PutNew(d[1..], k, v);
      PutCons(d, k, v);
      ConsSnoc(d, (k, v));
    }
  }

  lemma {:induction false} PutCons<K(!new), V>(d: Dict<K, V>, k: K, v: V)
    requires |d| > 0 && d[0].0 != k
    ensures Put(d, k, v) == [d[0]] + Put(d[1..], k, v)
  {
  }

  lemma {:induction false} ConsSnoc<T>(s: seq<T>, x: T)
    requires |s| > 0
    ensures [s[0]] + (s[1..] + [x]) == s + [x]
  {
  }

  /** The pair at index `i` decides the dict's value for its key when no later pair repeats that key. */
  lemma {:induction false} LastValueAt<K(!new), V>(pairs: seq<(K, V)>, i: nat)
    requires i < |pairs|
    requires forall j :: i < j < |pairs| ==> pairs[j].0 != pairs[i].0
    ensures LastValue(pairs, pairs[i].0) == Some(pairs[i].1)
    decreases |pairs|
  {
    if i < |pairs| - 1 {
      LastValueAt(pairs[..|pairs| - 1], i);
    }
  }

  /** Python's `zip(a, b)`: pairs up to the shorter of the two. */
  lemma {:induction false} KeysOfZip<A, B>(a: seq<A>, b: seq<B>)
    requires |a| == |b|
    ensures Keys(Zip(a, b)) == a
  {
    var z := Zip(a, b);
    forall i | 0 <= i < |a| ensures Keys(z)[i] == a[i] {
      assert z[i] == (a[i], b[i]);
    }
  }

  function Zip<A, B>(a: seq<A>, b: seq<B>): (r: seq<(A, B)>)
    ensures |r| == if |a| <= |b| then |a| else |b|
    ensures forall i :: 0 <= i < |r| ==> r[i] == (a[i], b[i])
  {
    if |a| == 0 || |b| == 0 then []
    else [(a[0], b[0])] + Zip(a[1..], b[1..])
  }

  /** `f` applied to each element of `xs`, in order. */
  function Map<A, B>(f: A -> B, xs: seq<A>): (r: seq<B>)
    ensures |r| == |xs|
  {
    seq(|xs|, i requires 0 <= i < |xs| => f(xs[i]))
  }

  lemma {:induction false} MapAppend<A, B>(f: A -> B, xs: seq<A>, ys: seq<A>)
    ensures Map(f, xs + ys) == Map(f, xs) + Map(f, ys)
  {
    var all := xs + ys;
    forall j | 0 <= j < |all| ensures Map(f, all)[j] == (Map(f, xs) + Map(f, ys))[j] {
      if j < |xs| { assert all[j] == xs[j]; } else { assert all[j] == ys[j - |xs|]; }
    }
  }
  /** Every entry after an assignment is the new pair or one that was there before. */
  lemma {:induction false} PutEntries<K(!new), V>(d: Dict<K, V>, k: K, v: V)
    ensures forall i :: 0 <= i < |Put(d, k, v)| ==> Put(d, k, v)[i] == (k, v) || Put(d, k, v)[i] in d
    decreases |d|
  {
    if |d| > 0 && d[0].0 != k {
      PutEntries(d[1..], k, v);
      var r := Put(d, k, v);
      forall i | 0 < i < |r| ensures r[i] == (k, v) || r[i] in d {
        assert r[i] == Put(d[1..], k, v)[i - 1];
      }
    }
  }

  /** Assigning again to the key of a dict's last entry replaces that entry in place. */
  lemma {:induction false} PutLast<K(!new), V>(d: Dict<K, V>, k: K, v: V, v': V)
    requires k !in Keys(d)
    ensures Put(d + [(k, v)], k, v') == d + [(k, v')]
    decreases |d|
  {
    var e := d + [(k, v)];
    if |d| == 0 {
      assert e == [(k, v)];
    } else {
      assert Keys(d) == [d[0].0] + Keys(d[1..]);
      assert e[0] == d[0] && e[1..] == d[1..] + [(k, v)];
      PutLast(d[1..], k, v, v');
      assert d + [(k, v')] == [d[0]] + (d[1..] + [(k, v')]);
    }
  }

  /** Entries appended after a key do not change what is found for it. */
  lemma {:induction false} LookupAppend<K(!new), V>(d: Dict<K, V>, e: Dict<K, V>, k: K)
    requires k in Keys(d)
    ensures Lookup(d + e, k) == Lookup(d, k)
    decreases |d|
  {
    assert Keys(d) == [d[0].0] + Keys(d[1..]);
    assert (d + e)[0] == d[0];
    if d[0].0 != k {
      assert (d + e)[1..] == d[1..] + e;
      LookupAppend(d[1..], e, k);
    }
  }

  /** What is found for a key is stored with it in the dict. */
  lemma {:induction false} LookupEntry<K(!new), V>(d: Dict<K, V>, k: K)
    requires k in Keys(d)
    ensures (k, Lookup(d, k).value) in d
    decreases |d|
  {
    assert Keys(d) == [d[0].0] + Keys(d[1..]);
    if d[0].0 != k {
      LookupEntry(d[1..], k);
      assert d == [d[0]] + d[1..];
    }
  }

  /** Under unique keys, looking up the key of an entry finds that entry's value. */
  lemma {:induction false} LookupAt<K(!new), V>(d: Dict<K, V>, i: nat)
    requires UniqueKeys(d) && i < |d|
    ensures Lookup(d, d[i].0) == Some(d[i].1)
    decreases |d|
  {
    if i > 0 {
      assert d[0].0 != d[i].0;
      assert d[1..][i - 1] == d[i];
      LookupAt(d[1..], i - 1);
    }
  }

  /**
   A frame without its column(s) labelled `k`, as `df.drop(k, 1)` leaves it.
   pandas raises KeyError for an absent label; no caller here passes one,
   since `Importance` requires the movie to be a column.
   */
  function Drop<K(==), V>(d: Dict<K, V>, k: K): (r: Dict<K, V>)
    ensures forall i :: 0 <= i < |r| ==> r[i] in d && r[i].0 != k
    ensures |r| <= |d|
  {
    if |d| == 0 then []
    else
      var rest := Drop(d[1..], k);
      assert forall i :: 0 <= i < |rest| ==> rest[i] in d;
      if d[0].0 == k then rest else [d[0]] + rest
  }

  lemma {:induction false} DropAppend<K(!new), V>(d: Dict<K, V>, k: K, e: (K, V))
    requires e.0 != k
    ensures Drop(d + [e], k) == Drop(d, k) + [e]
    decreases |d|
  {
    if |d| > 0 {
      assert (d + [e])[1..] == d[1..] + [e];
      DropAppend(d[1..], k, e);
    } else {
      assert d + [e] == [e];
    }
  }

  /** Dropping the key of entry `i` of a dict with unique keys removes just that entry. */
  lemma {:induction false} DropAt<K(!new), V>(d: Dict<K, V>, i: nat)
    requires UniqueKeys(d) && i < |d|
    ensures Drop(d, d[i].0) == d[..i] + d[i + 1..]
    decreases |d|
  {
    if i == 0 {
      DropAbsent(d[1..], d[0].0);
    } else {
      assert d[1..][i - 1] == d[i];
      DropAt(d[1..], i - 1);
      assert d[1..][..i - 1] + d[1..][i..] == d[1..i] + d[i + 1..];
      assert d[..i] + d[i + 1..] == [d[0]] + (d[1..i] + d[i + 1..]);
    }
  }

  lemma {:induction false} DropAbsent<K(!new), V>(d: Dict<K, V>, k: K)
    requires forall i :: 0 <= i < |d| ==> d[i].0 != k
    ensures Drop(d, k) == d
    decreases |d|
  {
    if |d| > 0 {
      DropAbsent(d[1..], k);
      assert d == [d[0]] + d[1..];
    }
  }
}

=== FILE: ranking.dfy ===
/**
 Ranking by a score: a stable descending sort and the `[:n]` cut that the
 top-n tables take from it.
 */
module Ranking {
  import opened ExtReal

  /** Every element scores at least as high as every later one. */
  predicate SortedBy<T>(xs: seq<T>, key: T -> Ext) {
    forall i, j :: 0 <= i < j < |xs| ==> Geq(key(xs[i]), key(xs[j]))
  }

  /** Puts `x` in front of the first element it scores at least as high as. */
  function Insert<T(==)>(x: T, xs: seq<T>, key: T -> Ext): (r: seq<T>)
    requires SortedBy(xs, key)
    ensures SortedBy(r, key)
    ensures multiset(r) == multiset(xs) + multiset{x}
    decreases |xs|
  {
    if |xs| == 0 then [x]
    else if Geq(key(x), key(xs[0])) then
      InsertFront(x, xs, key);
      [x] + xs
    else
      assert xs == [xs[0]] + xs[1..];
      var rest := Insert(x, xs[1..], key);
      InsertBehind(x, xs, key, rest);
      [xs[0]] + rest
  }

  lemma {:induction false} InsertFront<T>(x: T, xs: seq<T>, key: T -> Ext)
    requires SortedBy(xs, key)
    requires |xs| > 0 && Geq(key(x), key(xs[0]))
    ensures SortedBy([x] + xs, key)
  {
    var r := [x] + xs;
    forall i, j | 0 <= i < j < |r| ensures Geq(key(r[i]), key(r[j])) {
      if i == 0 && j > 1 {
        GeqTransitive(key(x), key(xs[0]), key(xs[j - 1]));
      }
    }
  }

  lemma {:induction false} InsertBehind<T>(x: T, xs: seq<T>, key: T -> Ext, rest: seq<T>)
    requires SortedBy(xs, key)
    requires |xs| > 0 && !Geq(key(x), key(xs[0]))
    requires SortedBy(rest, key)
    requires multiset(rest) == multiset(xs[1..]) + multiset{x}
    ensures SortedBy([xs[0]] + rest, key)
  {
    var r := [xs[0]] + rest;
    GeqTotal(key(x), key(xs[0]));
    forall j | 0 < j < |r| ensures Geq(key(xs[0]), key(r[j])) {
      assert r[j] == rest[j - 1];
      assert r[j] in multiset(rest);
      if r[j] != x {
        assert r[j] in xs[1..];
        var m :| 0 <= m < |xs[1..]| && xs[1..][m] == r[j];
        assert xs[m + 1] == r[j];
      }
    }
  }

  /** Insertion sort, descending by `key`; equal scores keep their input order. */
  function SortDesc<T(==)>(xs: seq<T>, key: T -> Ext): (r: seq<T>)
    ensures SortedBy(r, key)
    ensures multiset(r) == multiset(xs)
    ensures |r| == |xs|
    decreases |xs|
  {
    if |xs| == 0 then []
    else
      assert xs == [xs[0]] + xs[1..];
      var r := Insert(xs[0], SortDesc(xs[1..], key), key);
      assert |r| == |multiset(r)|;
      r
  }

  function Min(a: nat, b: nat): nat {
    if a <= b then a else b
  }

  /** `xs[:n]` */
  function TopN<T>(xs: seq<T>, n: nat): (r: seq<T>)
    ensures |r| == Min(n, |xs|)
    ensures r == xs[..|r|]
  {
    if n <= |xs| then xs[..n] else xs
  }

  /** The first n of a sorted ranking score at least as high as anything left out. */
  lemma {:induction false} TopNDominates<T>(xs: seq<T>, key: T -> Ext, n: nat)
    requires SortedBy(xs, key)
    ensures forall i, j :: 0 <= i < |TopN(xs, n)| <= j < |xs| ==> Geq(key(xs[i]), key(xs[j]))
  {
  }

  /** Everything ranked comes from the input. */
  lemma {:induction false} RankedMembers<T>(xs: seq<T>, key: T -> Ext, n: nat)
    ensures forall y :: y in TopN(SortDesc(xs, key), n) ==> y in xs
  {
    var s := SortDesc(xs, key);
    forall y | y in TopN(s, n) ensures y in xs {
      assert y in s;
      assert y in multiset(s);
    }
  }
}

=== FILE: relative.dfy ===
/**
 `extract_top_n_relative_importance` (Reviewer/tfidf.py, Disney/tfidf.py):
 for each title in turn, every term's score divided by the sum of the
 term's scores in the other columns of the data frame. The quotient is
 stored in an "Importance" column of that same frame and never dropped, so
 from the second title on it is one of the "other columns" too. The model
 keeps that behaviour and proves what it does to the quotients.
 */
module Relative {
  import opened Wrappers
  import opened PyDict
  import opened ExtReal
  import opened Ranking
  import opened ClassTfidf

  /** Columns by name, as in the data frame `result`. */
  type Frame = Dict<string, seq<Ext>>

  const ImportanceColumn := "Importance"

  predicate FrameShaped(f: Frame, rows: nat) {
    forall i :: 0 <= i < |f| ==> |f[i].1| == rows
  }

  /** One word's values across all columns, in column order. */
  function Row(f: Frame, rows: nat, w: nat): (r: seq<Ext>)
    requires FrameShaped(f, rows) && w < rows
    ensures |r| == |f|
    ensures forall i :: 0 <= i < |f| ==> r[i] == f[i].1[w]
  {
    seq(|f|, i requires 0 <= i < |f| => f[i].1[w])
  }

  lemma {:induction false} DropShaped(f: Frame, rows: nat, movie: string)
    requires FrameShaped(f, rows)
    ensures FrameShaped(Drop(f, movie), rows)
  {
    var others := Drop(f, movie);
    forall i | 0 <= i < |others| ensures |others[i].1| == rows {
      assert others[i] in f;
    }
  }

  lemma {:induction false} LookupShaped(f: Frame, rows: nat, movie: string)
    requires FrameShaped(f, rows) && movie in Keys(f)
    ensures |Lookup(f, movie).value| == rows
  {
    LookupEntry(f, movie);
  }

  /** Each row's count for `movie` divided by the sum of that row over the other titles. */
  function Importance(f: Frame, rows: nat, movie: string): (r: seq<Ext>)
    requires FrameShaped(f, rows) && movie in Keys(f)
    ensures |r| == rows
  {
    LookupShaped(f, rows, movie);
    DropShaped(f, rows, movie);
    var own := Lookup(f, movie).value;
    var others := Drop(f, movie);
    seq(rows, w requires 0 <= w < rows => Div(own[w], SkipnaSum(Row(others, rows, w))))
  }

  /** One word's quotient: its value in the movie's column over the sum of its row without that column. */
  lemma {:induction false} ImportanceAt(f: Frame, rows: nat, movie: string, w: nat)
    requires FrameShaped(f, rows) && movie in Keys(f) && w < rows
    ensures FrameShaped(Drop(f, movie), rows) && |Lookup(f, movie).value| == rows
    ensures Importance(f, rows, movie)[w] == Div(Lookup(f, movie).value[w], SkipnaSum(Row(Drop(f, movie), rows, w)))
  {
    LookupShaped(f, rows, movie);
    DropShaped(f, rows, movie);
  }

  /** The data frame built from the score matrix: one column per title. */
  function InitialFrame(scores: seq<seq<real>>, titles: seq<string>): (f: Frame)
    requires Shaped(scores, |titles|)
    ensures Keys(f) == titles
    ensures FrameShaped(f, |scores|)
  {
    var f := seq(|titles|, c requires 0 <= c < |titles| => (titles[c], Finite(Column(scores, c))));
    assert Keys(f) == titles;
    f
  }

  /**
   The frame after the loop has handled the first `k` titles: each pass
   stores its quotient in the "Importance" column and keeps it.
   */
  function RelFrame(f0: Frame, rows: nat, titles: seq<string>, k: nat): (f: Frame)
    requires FrameShaped(f0, rows) && k <= |titles|
    requires forall i :: 0 <= i < |titles| ==> titles[i] in Keys(f0)
    ensures FrameShaped(f, rows)
    ensures forall x :: x in Keys(f0) ==> x in Keys(f)
    decreases k
  {
    if k == 0 then f0
    else
      var prev := RelFrame(f0, rows, titles, k - 1);
      var imp := Importance(prev, rows, titles[k - 1]);
      PutEntries(prev, ImportanceColumn, imp);
      Put(prev, ImportanceColumn, imp)
  }

  /** The "Importance" column computed for title `k`, against the frame as the loop left it. */
  function RelImportance(f0: Frame, rows: nat, titles: seq<string>, k: nat): (r: seq<Ext>)
    requires FrameShaped(f0, rows) && k < |titles|
    requires forall i :: 0 <= i < |titles| ==> titles[i] in Keys(f0)
    ensures |r| == rows
  {
    Importance(RelFrame(f0, rows, titles, k), rows, titles[k])
  }

  /** The table `extract_top_n_relative_importance` saves. */
  function ExtractRelative(scores: seq<seq<real>>, words: seq<string>, titles: seq<string>, n: nat): (r: Dict<string, Ranked>)
    requires |words| == |scores| && Shaped(scores, |titles|)
    ensures Keys(r) == titles
    ensures forall k :: 0 <= k < |titles| ==>
      |r[k].1| == Min(n, |words|) && SortedBy(r[k].1, Score) &&
      multiset(r[k].1) <= multiset(Zip(words, Iteration(scores, words, titles, k)))
    ensures forall k :: 0 <= k < |titles| ==> r[k].1 == RankColumn(words, Iteration(scores, words, titles, k), n)
  {
    var r := seq(|titles|, k requires 0 <= k < |titles| =>
      (titles[k], RankColumn(words, Iteration(scores, words, titles, k), n)));
    assert Keys(r) == titles;
    r
  }

  /** The Importance column the k-th iteration computes, starting from the frame of the score matrix. */
  function Iteration(scores: seq<seq<real>>, words: seq<string>, titles: seq<string>, k: nat): (r: seq<Ext>)
    requires |words| == |scores| && Shaped(scores, |titles|) && k < |titles|
    ensures |r| == |words|
  {
    RelImportance(InitialFrame(scores, titles), |words|, titles, k)
  }

  /** A word's scores in every title but `k`, in title order. */
  function OtherScores(row: seq<real>, k: nat): (r: seq<Ext>)
    requires k < |row|
    ensures |r| == |row| - 1
  {
    Finite(row[..k] + row[k + 1..])
  }

  /** In the frame built from the matrix, title `k`'s column is its scores and the other columns are the other titles'. */
  lemma {:induction false} InitialRow(scores: seq<seq<real>>, titles: seq<string>, k: nat, w: nat)
    requires Shaped(scores, |titles|) && Distinct(titles) && k < |titles| && w < |scores|
    ensures var f0 := InitialFrame(scores, titles);
      FrameShaped(Drop(f0, titles[k]), |scores|) &&
      Row(Drop(f0, titles[k]), |scores|, w) == OtherScores(scores[w], k) &&
      Lookup(f0, titles[k]) == Some(Finite(Column(scores, k)))
  {
    var f0 := InitialFrame(scores, titles);
    assert UniqueKeys(f0) by {
      forall i, j | 0 <= i < j < |f0| ensures f0[i].0 != f0[j].0 {
        assert f0[i].0 == titles[i] && f0[j].0 == titles[j];
      }
    }
    assert f0[k].0 == titles[k];
    DropAt(f0, k);
    LookupAt(f0, k);
    DropShaped(f0, |scores|, titles[k]);
    var others := f0[..k] + f0[k + 1..];
    var row := scores[w][..k] + scores[w][k + 1..];
    forall i | 0 <= i < |others| ensures others[i].1[w] == Fin(row[i]) {
      if i < k {
        assert others[i] == f0[i];
        assert row[i] == scores[w][i];
      } else {
        assert others[i] == f0[i + 1];
        assert row[i] == scores[w][i + 1];
      }
    }
  }

  /** The first title is scored as intended: its score over the sum of the other titles' scores. */
  lemma {:induction false} FirstTitleIntended(scores: seq<seq<real>>, titles: seq<string>, w: nat)
    requires Shaped(scores, |titles|) && Distinct(titles) && |titles| > 0 && w < |scores|
    ensures RelImportance(InitialFrame(scores, titles), |scores|, titles, 0)[w] ==
      Div(Fin(scores[w][0]), SkipnaSum(OtherScores(scores[w], 0)))
  {
    var f0 := InitialFrame(scores, titles);
    InitialRow(scores, titles, 0, w);
    ImportanceAt(f0, |scores|, titles[0], w);
  }

  /** While "Importance" is not a column of the starting frame, the loop's frame is that frame plus one "Importance" column. */
  lemma {:induction false} FrameAfter(f0: Frame, rows: nat, titles: seq<string>, k: nat)
    requires FrameShaped(f0, rows) && ImportanceColumn !in Keys(f0)
    requires forall i :: 0 <= i < |titles| ==> titles[i] in Keys(f0)
    requires 0 < k <= |titles|
    ensures RelFrame(f0, rows, titles, k) == f0 + [(ImportanceColumn, RelImportance(f0, rows, titles, k - 1))]
    decreases k
  {
    FrameStep(f0, rows, titles, k);
    if k == 1 {
      PutNew(f0, ImportanceColumn, RelImportance(f0, rows, titles, 0));
    } else {
      FrameAfter(f0, rows, titles, k - 1);
      PutLast(f0, ImportanceColumn, RelImportance(f0, rows, titles, k - 2), RelImportance(f0, rows, titles, k - 1));
    }
  }

  /** One pass of the loop: the quotient for title `k - 1` is stored under "Importance". */
  lemma {:induction false} FrameStep(f0: Frame, rows: nat, titles: seq<string>, k: nat)
    requires FrameShaped(f0, rows) && 0 < k <= |titles|
    requires forall i :: 0 <= i < |titles| ==> titles[i] in Keys(f0)
    ensures RelFrame(f0, rows, titles, k) ==
      Put(RelFrame(f0, rows, titles, k - 1), ImportanceColumn, RelImportance(f0, rows, titles, k - 1))
    ensures k == 1 ==> RelFrame(f0, rows, titles, k - 1) == f0
  {
  }

  /** A column appended after the movie's own joins its denominator as one more summand. */
  lemma {:induction false} ImportanceWithExtra(f0: Frame, rows: nat, movie: string, extra: (string, seq<Ext>), w: nat)
    requires FrameShaped(f0, rows) && movie in Keys(f0) && w < rows
    requires extra.0 != movie && |extra.1| == rows
    ensures FrameShaped(f0 + [extra], rows) && FrameShaped(Drop(f0, movie), rows)
    ensures movie in Keys(f0 + [extra]) && |Lookup(f0, movie).value| == rows
    ensures Importance(f0 + [extra], rows, movie)[w] ==
      Div(Lookup(f0, movie).value[w], SkipnaSum(Row(Drop(f0, movie), rows, w) + [extra.1[w]]))
  {
    var f := f0 + [extra];
    assert FrameShaped(f, rows) by {
      forall i | 0 <= i < |f| ensures |f[i].1| == rows {
        if i < |f0| { assert f[i] == f0[i]; }
      }
    }
    assert movie in Keys(f) by {
      assert Keys(f) == Keys(f0) + [extra.0];
    }
    ImportanceAt(f, rows, movie, w);
    DropShaped(f0, rows, movie);
    LookupShaped(f0, rows, movie);
    DropAppend(f0, movie, extra);
    LookupAppend(f0, [extra], movie);
    var others := Drop(f0, movie);
    assert Row(others + [extra], rows, w) == Row(others, rows, w) + [extra.1[w]];
  }

  /**
   Every title after the first is divided by the other titles' scores PLUS
   the previous title's "Importance" value, which the loop never drops.
   */
  lemma {:induction false} ImportanceCarriesOver(scores: seq<seq<real>>, titles: seq<string>, k: nat, w: nat)
    requires Shaped(scores, |titles|) && Distinct(titles) && ImportanceColumn !in titles
    requires 0 < k < |titles| && w < |scores|
    ensures var f0 := InitialFrame(scores, titles);
      RelImportance(f0, |scores|, titles, k)[w] ==
      Div(Fin(scores[w][k]), SkipnaSum(OtherScores(scores[w], k) + [RelImportance(f0, |scores|, titles, k - 1)[w]]))
  {
    var rows := |scores|;
    var f0 := InitialFrame(scores, titles);
    var extra := (ImportanceColumn, RelImportance(f0, rows, titles, k - 1));
    FrameAfter(f0, rows, titles, k);
    InitialRow(scores, titles, k, w);
    ImportanceWithExtra(f0, rows, titles[k], extra, w);
  }

  lemma {:induction false} TwoScores(row: seq<real>)
    requires |row| == 2
    ensures OtherScores(row, 0) == [Fin(row[1])]
    ensures OtherScores(row, 1) == [Fin(row[0])]
  {
    assert row[..0] + row[1..] == [row[1]];
    assert row[..1] + row[2..] == [row[0]];
  }

  /**
   Two titles, a word scoring 1 in the first and 2 in the second: the first
   gets 1/2 as intended, but the second gets 2 / (1 + 1/2) = 4/3 instead of
   2 / 1, because the first quotient sits in the denominator.
   */
  lemma {:induction false} SecondTitleUnderrated(scores: seq<seq<real>>, titles: seq<string>, w: nat)
    requires Shaped(scores, |titles|) && Distinct(titles) && ImportanceColumn !in titles
    requires |titles| == 2 && w < |scores|
    requires scores[w] == [1.0, 2.0]
    ensures var f0 := InitialFrame(scores, titles);
      RelImportance(f0, |scores|, titles, 0)[w] == Fin(0.5) &&
      RelImportance(f0, |scores|, titles, 1)[w] == Fin(4.0 / 3.0)
  {
    var f0 := InitialFrame(scores, titles);
    var first := RelImportance(f0, |scores|, titles, 0)[w];
    var second := RelImportance(f0, |scores|, titles, 1)[w];
    TwoScores(scores[w]);
    FirstTitleIntended(scores, titles, w);
    assert first == Div(Fin(1.0), SkipnaSum([Fin(2.0)]));
    ImportanceCarriesOver(scores, titles, 1, w);
    assert second == Div(Fin(2.0), SkipnaSum([Fin(1.0)] + [first]));
    TwoTitleQuotients(first, second);
  }

  lemma {:induction false} TwoTitleQuotients(first: Ext, second: Ext)
    requires first == Div(Fin(1.0), SkipnaSum([Fin(2.0)]))
    requires second == Div(Fin(2.0), SkipnaSum([Fin(1.0)] + [first]))
    ensures first == Fin(0.5) && second == Fin(4.0 / 3.0)
  {
    SumOne(Fin(2.0));
    DivFinite(1.0, 2.0);
    assert [Fin(1.0)] + [first] == [Fin(1.0), first];
    SumTwo(Fin(1.0), first);
    DivFinite(2.0, 1.5);
  }
}

=== FILE: resolver.dfy ===
/**
 Title resolution: from the Wikipedia film tables to one IMDb review URL
 per title (`get_all_disney_titles`, `get_all_pixar_titles` and
 `scrape_*imdb_urls` in Reviewer/scraper.py, Disney/scraper.py and
 src/scraper.py, which share these rules). The search engine is a
 parameter: it maps a search term to the result cells of its page.
 */
module Resolver {
  import opened Wrappers
  import opened Text
  import opened PyDict
  import opened Utils
  import opened Years

  /** A row of a Wikipedia film table: its "Film" and "Release date" cells. */
  datatype WikiRow = WikiRow(film: string, releaseDate: string)

  /** A row of the merged title table: "Film" and the derived "Year". */
  datatype CatalogEntry = CatalogEntry(film: string, year: string)

  /** A `<td class="result_text">` cell of a search page: its text and the `href` of each of its links, in page order. */
  datatype SearchResult = SearchResult(text: string, hrefs: seq<string>)

  const ImdbBase := "https://www.imdb.com"
  /** Saludos Amigos, which the search cannot find. */
  const FallbackUrl := "https://www.imdb.com/title/tt0036326/reviews"
  const OnwardTitle := "Onward"
  const OnwardUrl := "https://www.imdb.com/title/tt7146812/reviews"
  /** The header row that the Pixar table repeats in its body. */
  const ReleasedFilms := "Released films"
  const PixarLimit := 22

  /**
   The Year cell: what follows the last comma of the release date, with
   surrounding whitespace removed. It lies inside the date's last field.
   */
  function ReleaseYear(releaseDate: string): (r: string)
    ensures |r| <= |releaseDate|
    ensures exists i :: AfterLastComma(releaseDate, r, i)
  {
    var f := LastField(releaseDate, ',');
    StripInLastField(releaseDate, f);
    Strip(f)
  }

  lemma {:induction false} StripInLastField(d: string, f: string)
    requires f == LastField(d, ',')
    ensures exists i :: AfterLastComma(d, Strip(f), i)
  {
    var r := Strip(f);
    InLastField(d, f, r, |StripEnd(f)| - |r|);
  }

  /** `r` is the slice of `d` at `i`, and no comma follows position `i`. */
  predicate AfterLastComma(d: string, r: string, i: int) {
    && 0 <= i <= |d| - |r|
    && (forall k :: 0 <= k < |r| ==> r[k] == d[i + k])
    && forall k :: i <= k < |d| ==> d[k] != ','
  }

  lemma {:induction false} InLastField(d: string, f: string, r: string, j: int)
    requires |f| <= |d| && f == d[|d| - |f|..] && ',' !in f
    requires StrippedAt(f, r, j)
    ensures AfterLastComma(d, r, |d| - |f| + j)
  {
    var o := |d| - |f|;
    forall k | o + j <= k < |d| ensures d[k] != ',' {
      assert d[k] == f[k - o];
    }
    forall k | 0 <= k < |r| ensures r[k] == d[o + j + k] {
      assert r[k] == f[j + k];
    }
  }

  /** The year cell holds no comma and neither starts nor ends with whitespace. */
  lemma {:induction false} ReleaseYearShape(releaseDate: string)
    ensures forall k :: 0 <= k < |ReleaseYear(releaseDate)| ==> ReleaseYear(releaseDate)[k] != ','
    ensures var r := ReleaseYear(releaseDate); r == [] || (!IsSpace(r[0]) && !IsSpace(r[|r| - 1]))
  {
    StripKeepsAbsent(LastField(releaseDate, ','), ',');
  }

  /** A date written "<day and month>, <year>" gives back its year. */
  lemma {:induction false} ReleaseYearOfDate(dayMonth: string, year: string)
    requires |year| > 0 && AllDigits(year)
    ensures ReleaseYear(dayMonth + ", " + year) == year
  {
    var f := [' '] + year;
    assert dayMonth + ", " + year == dayMonth + [','] + f;
    DigitsNoSpace(year);
    assert ',' !in f by {
      forall k | 0 <= k < |f| ensures f[k] != ',' {
        if k > 0 { assert f[k] == year[k - 1]; assert IsDigit(year[k - 1]); }
      }
    }
    LastFieldAppend(dayMonth, ',', f);
    StripLeadingBlank(year);
  }

  function Entry(row: WikiRow): CatalogEntry {
    CatalogEntry(row.film, ReleaseYear(row.releaseDate))
  }

  function Entries(rows: seq<WikiRow>): (r: seq<CatalogEntry>)
    ensures |r| == |rows|
    ensures forall i :: 0 <= i < |rows| ==> r[i] == Entry(rows[i])
  {
    seq(|rows|, i requires 0 <= i < |rows| => Entry(rows[i]))
  }

  /** The table without its repeated "Released films" header rows, other rows kept in order. */
  function DropHeaderRows(rows: seq<WikiRow>): (r: seq<WikiRow>)
    ensures |r| <= |rows|
    ensures forall x :: x in r <==> x in rows && x.film != ReleasedFilms
  {
    if |rows| == 0 then []
    else if rows[0].film == ReleasedFilms then DropHeaderRows(rows[1..])
    else [rows[0]] + DropHeaderRows(rows[1..])
  }

  /** The filter works row by row: filtering a concatenation concatenates the filtered parts. */
  lemma {:induction false} DropHeaderRowsAppend(a: seq<WikiRow>, b: seq<WikiRow>)
    ensures DropHeaderRows(a + b) == DropHeaderRows(a) + DropHeaderRows(b)
    decreases |a|
  {
    if |a| == 0 {
      assert a + b == b;
    } else {
      assert (a + b)[0] == a[0];
      assert (a + b)[1..] == a[1..] + b;
      DropHeaderRowsAppend(a[1..], b);
    }
  }

  /** A single row is dropped exactly when it is a header row. */
  lemma {:induction false} DropHeaderRowsOne(x: WikiRow)
    ensures DropHeaderRows([x]) == if x.film == ReleasedFilms then [] else [x]
  {
    assert [x][1..] == [];
  }

  lemma {:induction false} DropHeaderRowsNone(rows: seq<WikiRow>)
    requires forall i :: 0 <= i < |rows| ==> rows[i].film != ReleasedFilms
    ensures DropHeaderRows(rows) == rows
    decreases |rows|
  {
    if |rows| > 0 {
      DropHeaderRowsNone(rows[1..]);
    }
  }

  /**
   The Pixar rows that are kept (`get_all_pixar_titles`): header rows
   dropped, then at most the first 22 rows.
   */
  function PixarRows(rows: seq<WikiRow>): (r: seq<WikiRow>)
    ensures |r| <= PixarLimit
    ensures forall i :: 0 <= i < |r| ==> r[i].film != ReleasedFilms && r[i] in rows
    ensures |r| == if |DropHeaderRows(rows)| <= PixarLimit then |DropHeaderRows(rows)| else PixarLimit
    ensures r == DropHeaderRows(rows)[..|r|]
  {
    var kept := DropHeaderRows(rows);
    var r := if |kept| <= PixarLimit then kept else kept[..PixarLimit];
    assert forall i :: 0 <= i < |r| ==> r[i] in kept;
    r
  }

  /** Without header rows in the body, the Pixar table is its first 22 rows. */
  lemma {:induction false} PixarRowsPlain(rows: seq<WikiRow>)
    requires forall i :: 0 <= i < |rows| ==> rows[i].film != ReleasedFilms
    ensures PixarRows(rows) == if |rows| <= PixarLimit then rows else rows[..PixarLimit]
  {
    DropHeaderRowsNone(rows);
  }

  /** `get_all_disney_titles` (Reviewer, Disney): the Disney table, then the kept Pixar rows, as Film and Year. */
  function DisneyCatalog(disney: seq<WikiRow>, pixar: seq<WikiRow>): (r: seq<CatalogEntry>)
    ensures |r| == |disney| + |PixarRows(pixar)|
    ensures forall i :: 0 <= i < |disney| ==> r[i] == Entry(disney[i])
    ensures forall i :: 0 <= i < |PixarRows(pixar)| ==> r[|disney| + i] == Entry(PixarRows(pixar)[i])
  {
    var a, b := Entries(disney), Entries(PixarRows(pixar));
    assert forall i :: 0 <= i < |a| ==> (a + b)[i] == a[i];
    assert forall i :: 0 <= i < |b| ==> (a + b)[|a| + i] == b[i];
    a + b
  }

  /** The search term for a catalog entry: its film, an encoded space, then its year. */
  function SearchTerm(e: CatalogEntry): string {
    e.film + "%20" + e.year
  }

  /** The year the matcher reads off a search term is the entry's year, when it has four digits. */
  lemma {:induction false} SearchTermYear(e: CatalogEntry)
    requires |e.year| == 4 && AllDigits(e.year)
    ensures TargetYear(SearchTerm(e)) == Some(DigitsValue(e.year))
  {
    var t := SearchTerm(e);
    assert t[|t| - 4..] == e.year;
    ParseDigits(e.year);
  }

  /** The reviews page of a search hit: the IMDB host, the hit's link, then "reviews". */
  function ReviewsUrl(href: string): string {
    ImdbBase + href + "reviews"
  }

  /** The year check of every result cell, in page order. */
  function Checks(results: seq<SearchResult>, term: string): seq<Result<bool, Failure>> {
    Map(CheckFor(term), results)
  }

  /** `match_years(result, term)` as a function of the result cell. */
  function CheckFor(term: string): SearchResult -> Result<bool, Failure> {
    (result: SearchResult) => MatchYears(result.text, term)
  }

  /**
   The index of the first check that does not plainly fail (it matches or
   raises), or `|checks|` when every check fails.
   */
  function FirstDecisive(checks: seq<Result<bool, Failure>>): (i: nat)
    ensures i <= |checks|
    ensures forall j :: 0 <= j < i ==> checks[j] == Ok(false)
    ensures i < |checks| ==> checks[i] != Ok(false)
  {
    if |checks| == 0 then 0
    else if checks[0] != Ok(false) then 0
    else 1 + FirstDecisive(checks[1..])
  }

  /** What the loop makes of the decisive cell: its first link's URL, or the exception. */
  function Decide(check: Result<bool, Failure>, result: SearchResult): Result<Option<string>, Failure> {
    match check
    case Err(e) => Err(e)
    case Ok(false) => Ok(None)
    case Ok(true) => if |result.hrefs| == 0 then Err(IndexError) else Ok(Some(ReviewsUrl(result.hrefs[0])))
  }

  /**
   The loop over the result cells of one search, given each cell's year
   check: the first matching cell gives the URL of its first link and ends
   the loop; a check that raises, or a matching cell without a link,
   aborts; no match leaves the title without URL (`None`).
   */
  function Pick(checks: seq<Result<bool, Failure>>, results: seq<SearchResult>): (r: Result<Option<string>, Failure>)
    requires |checks| == |results|
    ensures var i := FirstDecisive(checks);
      if i == |checks| then r == Ok(None) else r == Decide(checks[i], results[i])
  {
    if |checks| == 0 then Ok(None)
    else if checks[0] != Ok(false) then Decide(checks[0], results[0])
    else
      assert forall j :: 0 <= j < |checks| - 1 ==> checks[1..][j] == checks[j + 1];
      Pick(checks[1..], results[1..])
  }

  /** Once a cell decides, the cells after it are never looked at. */
  lemma {:induction false} PickIgnoresLater(checks: seq<Result<bool, Failure>>, results: seq<SearchResult>,
                                           moreChecks: seq<Result<bool, Failure>>, more: seq<SearchResult>)
    requires |checks| == |results| && |moreChecks| == |more|
    requires Pick(checks, results) != Ok(None)
    ensures Pick(checks + moreChecks, results + more) == Pick(checks, results)
    decreases |checks|
  {
    var cs, rs := checks + moreChecks, results + more;
    assert cs[0] == checks[0] && rs[0] == results[0];
    if checks[0] == Ok(false) {
      assert cs[1..] == checks[1..] + moreChecks;
      assert rs[1..] == results[1..] + more;
      PickIgnoresLater(checks[1..], results[1..], moreChecks, more);
    }
  }

  /**
   The search loop for one term (lines 113-118 of Reviewer/scraper.py):
   the outcome is decided by the first result whose year check matches or
   raises; every result before it fails the check.
   */
  function FirstMatch(results: seq<SearchResult>, term: string): (r: Result<Option<string>, Failure>)
    ensures exists i :: DecidedAt(results, term, i) && r == (if i == |results| then Ok(None) else Decide(MatchYears(results[i].text, term), results[i]))
  {
    var checks := Checks(results, term);
    var i := FirstDecisive(checks);
    assert forall j :: 0 <= j < |results| ==> checks[j] == MatchYears(results[j].text, term);
    assert DecidedAt(results, term, i);
    Pick(checks, results)
  }

  /** Every result before `i` fails the year check, and the one at `i`, if any, does not. */
  predicate DecidedAt(results: seq<SearchResult>, term: string, i: int) {
    && 0 <= i <= |results|
    && (forall j :: 0 <= j < i ==> MatchYears(results[j].text, term) == Ok(false))
    && (i < |results| ==> MatchYears(results[i].text, term) != Ok(false))
  }

  /** Once a result decides, the results after it are never looked at. */
  lemma {:induction false} FirstMatchIgnoresLater(results: seq<SearchResult>, later: seq<SearchResult>, term: string)
    requires FirstMatch(results, term) != Ok(None)
    ensures FirstMatch(results + later, term) == FirstMatch(results, term)
  {
    MapAppend(CheckFor(term), results, later);
    PickIgnoresLater(Checks(results, term), results, Checks(later, term), later);
  }

  /**
   The search for one catalog entry: a URL only from a result whose year
   matches and that has a link, and no URL exactly when every result's
   year check fails.
   */
  function Resolve(e: CatalogEntry, search: string -> seq<SearchResult>): (r: Result<Option<string>, Failure>)
    ensures var results, term := search(SearchTerm(e)), SearchTerm(e);
      r.Ok? && r.value.Some? ==>
        exists i :: (0 <= i < |results| && MatchYears(results[i].text, term) == Ok(true) &&
          |results[i].hrefs| > 0 && r.value.value == ReviewsUrl(results[i].hrefs[0]))
    ensures var results, term := search(SearchTerm(e)), SearchTerm(e);
      r == Ok(None) <==> forall j :: 0 <= j < |results| ==> MatchYears(results[j].text, term) == Ok(false)
  {
    FirstMatchFound(search(SearchTerm(e)), SearchTerm(e));
    FirstMatch(search(SearchTerm(e)), SearchTerm(e))
  }

  lemma {:induction false} FirstMatchFound(results: seq<SearchResult>, term: string)
    ensures var r := FirstMatch(results, term);
      r.Ok? && r.value.Some? ==>
        exists i :: (0 <= i < |results| && MatchYears(results[i].text, term) == Ok(true) &&
          |results[i].hrefs| > 0 && r.value.value == ReviewsUrl(results[i].hrefs[0]))
    ensures FirstMatch(results, term) == Ok(None) <==>
      forall j :: 0 <= j < |results| ==> MatchYears(results[j].text, term) == Ok(false)
  {
    var r := FirstMatch(results, term);
    var i :| DecidedAt(results, term, i) &&
      r == (if i == |results| then Ok(None) else Decide(MatchYears(results[i].text, term), results[i]));
    if i < |results| {
      DecideFound(MatchYears(results[i].text, term), results[i]);
    }
  }

  lemma {:induction false} DecideFound(check: Result<bool, Failure>, result: SearchResult)
    requires check != Ok(false)
    ensures Decide(check, result) != Ok(None)
    ensures Decide(check, result).Ok? ==>
      check == Ok(true) && |result.hrefs| > 0 && Decide(check, result).value == Some(ReviewsUrl(result.hrefs[0]))
  {
  }

  /** `outcomes[i]` is the first outcome that raised. */
  predicate FirstFailureAt(outcomes: seq<Result<Option<string>, Failure>>, i: int) {
    && 0 <= i < |outcomes|
    && outcomes[i].Err?
    && forall j :: 0 <= j < i ==> outcomes[j].Ok?
  }

  /**
   The search loop over all titles, given each title's outcome: the URL
   found for each, or the first exception, which ends the whole run.
   */
  function Collect(outcomes: seq<Result<Option<string>, Failure>>): (r: Result<seq<Option<string>>, Failure>)
    ensures r.Ok? <==> forall i :: 0 <= i < |outcomes| ==> outcomes[i].Ok?
    ensures r.Ok? ==> |r.value| == |outcomes|
    ensures r.Ok? ==> forall i :: 0 <= i < |outcomes| ==> r.value[i] == outcomes[i].value
    ensures r.Err? ==> exists i :: FirstFailureAt(outcomes, i) && r.error == outcomes[i].error
  {
    if |outcomes| == 0 then Ok([])
    else
      var init := outcomes[..|outcomes| - 1];
      var last := outcomes[|outcomes| - 1];
      assert forall i :: 0 <= i < |init| ==> init[i] == outcomes[i];
      match Collect(init)
      case Err(e) =>
        var i :| FirstFailureAt(init, i) && e == init[i].error;
        assert FirstFailureAt(outcomes, i);
        Err(e)
      case Ok(found) =>
        match last
        case Err(e) =>
          assert FirstFailureAt(outcomes, |outcomes| - 1);
          Err(e)
        case Ok(url) => Ok(found + [url])
  }

  /** Each title's search outcome, in catalog order. */
  function Outcomes(catalog: seq<CatalogEntry>, search: string -> seq<SearchResult>): seq<Result<Option<string>, Failure>> {
    Map((e: CatalogEntry) => Resolve(e, search), catalog)
  }

  /** The found URL, or the fallback page when the search found none. */
  function OrFallback(url: Option<string>): string {
    match url
    case None => FallbackUrl
    case Some(u) => u
  }

  function WithFallback(found: seq<Option<string>>): (r: seq<string>)
    ensures |r| == |found|
    ensures forall i :: 0 <= i < |found| ==> r[i] == OrFallback(found[i])
  {
    if |found| == 0 then [] else [OrFallback(found[0])] + WithFallback(found[1..])
  }

  /** When "Onward" has a URL, it is replaced by the fixed OnwardUrl; every other entry stays. */
  function OverrideOnward(urls: Dict<string, string>): (r: Dict<string, string>)
    ensures Keys(r) == Keys(urls)
    ensures OnwardTitle in Keys(urls) ==> Lookup(r, OnwardTitle) == Some(OnwardUrl)
    ensures forall k :: k != OnwardTitle ==> Lookup(r, k) == Lookup(urls, k)
    ensures UniqueKeys(urls) ==> UniqueKeys(r)
  {
    if OnwardTitle in Keys(urls) then
      var r := Put(urls, OnwardTitle, OnwardUrl);
      assert UniqueKeys(urls) ==> UniqueKeys(r) by {
        if UniqueKeys(urls) { PutUnique(urls, OnwardTitle, OnwardUrl); }
      }
      r
    else urls
  }

  /** The title → URL dict built from the search outcomes, before it is saved: one key per distinct title, and no other key. */
  function UrlTable(titles: seq<string>, found: seq<Option<string>>): (r: Dict<string, string>)
    requires |titles| == |found|
    ensures UniqueKeys(r)
    ensures forall k :: k in Keys(r) <==> k in titles
  {
    var pairs := Zip(titles, WithFallback(found));
    PairKeys(titles, WithFallback(found));
    OverrideOnward(FromPairs(pairs))
  }

  lemma {:induction false} PairKeys(titles: seq<string>, urls: seq<string>)
    requires |titles| == |urls|
    ensures UniqueKeys(FromPairs(Zip(titles, urls)))
    ensures forall k :: k in Keys(FromPairs(Zip(titles, urls))) <==> k in titles
  {
    FromPairsKeys(Zip(titles, urls));
    KeysOfZip(titles, urls);
  }

  function Titles(catalog: seq<CatalogEntry>): (r: seq<string>)
    ensures |r| == |catalog|
    ensures forall i :: 0 <= i < |catalog| ==> r[i] == catalog[i].film
  {
    if |catalog| == 0 then [] else [catalog[0].film] + Titles(catalog[1..])
  }

  /** `scrape_*imdb_urls(df)` with the search engine as a parameter. */
  function ScrapeImdbUrls(catalog: seq<CatalogEntry>, search: string -> seq<SearchResult>): (r: Result<Dict<string, string>, Failure>)
    ensures r.Ok? <==> forall i :: 0 <= i < |catalog| ==> Resolve(catalog[i], search).Ok?
    ensures r.Err? ==> exists i :: FirstFailureAt(Outcomes(catalog, search), i) && r.error == Resolve(catalog[i], search).error
    ensures r.Ok? ==> UniqueKeys(r.value) && forall k :: k in Keys(r.value) <==> k in Titles(catalog)
  {
    match Collect(Outcomes(catalog, search))
    case Err(e) => Err(e)
    case Ok(found) =>
      Ok(UrlTable(Titles(catalog), found))
  }

  /**
   A title other than "Onward" gets the URL its last search found, or the
   fallback when that search matched nothing.
   */
  lemma {:induction false} UrlTableEntry(titles: seq<string>, found: seq<Option<string>>, i: nat)
    requires |titles| == |found| && i < |titles|
    requires titles[i] != OnwardTitle
    requires forall j :: i < j < |titles| ==> titles[j] != titles[i]
    ensures Lookup(UrlTable(titles, found), titles[i]) == Some(OrFallback(found[i]))
  {
    var pairs := Zip(titles, WithFallback(found));
    LastValueAt(pairs, i);
    FromPairsLookup(pairs, titles[i]);
  }

  /** "Onward" gets its hard-coded URL whatever its search found. */
  lemma {:induction false} UrlTableOnward(titles: seq<string>, found: seq<Option<string>>)
    requires |titles| == |found| && OnwardTitle in titles
    ensures Lookup(UrlTable(titles, found), OnwardTitle) == Some(OnwardUrl)
  {
    FromPairsKeys(Zip(titles, WithFallback(found)));
  }

  /**
   End to end: when no search raises, the entry of a title (its last row
   in the catalog, not "Onward") is the URL of the first matching result,
   or the fallback when no result matches.
   */
  lemma {:induction false} ScrapedUrl(catalog: seq<CatalogEntry>, search: string -> seq<SearchResult>, i: nat)
    requires forall j :: 0 <= j < |catalog| ==> Resolve(catalog[j], search).Ok?
    requires i < |catalog| && catalog[i].film != OnwardTitle
    requires forall j :: i < j < |catalog| ==> catalog[j].film != catalog[i].film
    ensures Lookup(ScrapeImdbUrls(catalog, search).value, catalog[i].film)
      == Some(OrFallback(Resolve(catalog[i], search).value))
  {
    var found := Collect(Outcomes(catalog, search)).value;
    UrlTableEntry(Titles(catalog), found, i);
  }

  /** A search whose results all carry other years leaves the title with the fallback URL. */
  lemma {:induction false} NoMatchFallback(catalog: seq<CatalogEntry>, search: string -> seq<SearchResult>, i: nat)
    requires forall j :: 0 <= j < |catalog| ==> Resolve(catalog[j], search).Ok?
    requires i < |catalog| && catalog[i].film != OnwardTitle
    requires forall j :: i < j < |catalog| ==> catalog[j].film != catalog[i].film
    requires var rs := search(SearchTerm(catalog[i]));
      forall k :: 0 <= k < |rs| ==> MatchYears(rs[k].text, SearchTerm(catalog[i])) == Ok(false)
    ensures Lookup(ScrapeImdbUrls(catalog, search).value, catalog[i].film) == Some(FallbackUrl)
  {
    ScrapedUrl(catalog, search, i);
    NoMatchIsNone(search(SearchTerm(catalog[i])), SearchTerm(catalog[i]));
  }

  lemma {:induction false} NoMatchIsNone(results: seq<SearchResult>, term: string)
    requires forall k :: 0 <= k < |results| ==> MatchYears(results[k].text, term) == Ok(false)
    ensures FirstMatch(results, term) == Ok(None)
  {
  }
}

=== FILE: savename.dfy ===
/**
 How `save_image` (Reviewer/cloud.py, Disney/wc.py) names the next image:
 every listed file whose name contains "result" is numbered by all of its
 digits read together, and the new file is numbered one above the highest.
 Listing the directory and writing the image are left out.
 */
module SaveName {
  import opened Text

  const Stem := "result"

  /** The digit characters of a file name, in order, with everything else removed. */
  function Digits(name: string): (r: string)
    ensures AllDigits(r)
    ensures |r| <= |name|
  {
    if |name| == 0 then ""
    else (if IsDigit(name[0]) then [name[0]] else "") + Digits(name[1..])
  }

  lemma {:induction false} DigitsAppend(a: string, b: string)
    ensures Digits(a + b) == Digits(a) + Digits(b)
    decreases |a|
  {
    if |a| > 0 {
      assert (a + b)[1..] == a[1..] + b;
      DigitsAppend(a[1..], b);
    } else {
      assert a + b == b;
    }
  }

  lemma {:induction false} DigitsOfDigits(s: string)
    requires AllDigits(s)
    ensures Digits(s) == s
    decreases |s|
  {
    if |s| > 0 {
      DigitsOfDigits(s[1..]);
      assert s == [s[0]] + s[1..];
    }
  }

  lemma {:induction false} DigitsOfNone(s: string)
    requires NoDigits(s)
    ensures Digits(s) == ""
    decreases |s|
  {
    if |s| > 0 {
      DigitsOfNone(s[1..]);
    }
  }

  /** A file `save_image` counts: its name contains "result". */
  predicate Saved(name: string) {
    Contains(name, Stem)
  }

  /** The file's number; a name without digits counts as 0, as it never raises the maximum. */
  function Number(name: string): nat {
    DigitsValue(Digits(name))
  }

  /** `highest_saved_image` after the loop. */
  function Highest(names: seq<string>): (h: nat)
    ensures forall i :: 0 <= i < |names| && Saved(names[i]) ==> Number(names[i]) <= h
    ensures h == 0 || exists i :: 0 <= i < |names| && Saved(names[i]) && Number(names[i]) == h
  {
    if |names| == 0 then 0
    else
      var h := Highest(names[..|names| - 1]);
      var last := names[|names| - 1];
      if Saved(last) && Number(last) > h then Number(last) else h
  }

  /**
   The name of the new image: a result file, numbered one above the highest
   number among the listed ones, or plain "result.png" when none has one.
   */
  function NextName(names: seq<string>): (r: string)
    ensures Saved(r)
    ensures Highest(names) > 0 ==> Number(r) == Highest(names) + 1
    ensures Highest(names) == 0 ==> Digits(r) == ""
  {
    var h := Highest(names);
    if h == 0 then
      PlainName();
      Stem + ".png"
    else
      NumberOfNext(h + 1);
      NextIsSaved(h + 1);
      "result_" + NatToString(h + 1) + ".png"
  }

  predicate NoDigits(s: string) {
    forall i :: 0 <= i < |s| ==> !IsDigit(s[i])
  }

  /** Digits framed by text without digits are read back alone. */
  lemma {:induction false} DigitsFramed(prefix: string, d: string, suffix: string)
    requires NoDigits(prefix) && NoDigits(suffix) && AllDigits(d)
    ensures Digits(prefix + d + suffix) == d
  {
    DigitsOfNone(prefix);
    DigitsOfNone(suffix);
    DigitsAppend(prefix + d, suffix);
    DigitsAppend(prefix, d);
    DigitsOfDigits(d);
  }

  lemma {:induction false} NumberOfNext(k: nat)
    ensures Number("result_" + NatToString(k) + ".png") == k
  {
    var prefix, suffix := "result_", ".png";
    assert NoDigits(prefix) && NoDigits(suffix);
    DigitsFramed(prefix, NatToString(k), suffix);
  }

  lemma {:induction false} PlainName()
    ensures Saved(Stem + ".png") && Digits(Stem + ".png") == ""
  {
    var r := Stem + ".png";
    assert OccursAt(r, Stem, 0) by { assert r[0..6] == Stem; }
    assert NoDigits(r);
    DigitsOfNone(r);
  }

  lemma {:induction false} NextIsSaved(k: nat)
    ensures Saved("result_" + NatToString(k) + ".png")
  {
    var name := "result_" + NatToString(k) + ".png";
    assert OccursAt(name, Stem, 0) by {
      assert name[0..6] == Stem;
    }
  }

  /**
   Once some result file carries a number, the new name is numbered one
   above all of them and so names no listed file.
   */
  lemma {:induction false} NextNameIsNew(names: seq<string>)
    requires Highest(names) > 0
    ensures Number(NextName(names)) == Highest(names) + 1
    ensures forall i :: 0 <= i < |names| && Saved(names[i]) ==> Number(names[i]) < Number(NextName(names))
    ensures NextName(names) !in names
  {
    var r := NextName(names);
    NumberOfNext(Highest(names) + 1);
    NextIsSaved(Highest(names) + 1);
    forall i | 0 <= i < |names| ensures names[i] != r {
      if Saved(names[i]) {
        assert Number(names[i]) < Number(r);
      }
    }
  }

  /** While no result file has a nonzero number, "result.png" is written again, over a file of that name if one is listed. */
  lemma {:induction false} NoNumberReusesName(names: seq<string>)
    requires forall i :: 0 <= i < |names| && Saved(names[i]) ==> Number(names[i]) == 0
    ensures NextName(names) == "result.png"
  {
  }
}

=== FILE: text.dfy ===
/**
 Python string operations the program relies on: `str.isdigit` on ASCII,
 `str.strip`, `str.split(sep)`, `sep.join(parts)`, `str.upper`, `int(str)`,
 `str(int)` and the `in` substring test.
 */
module Text {
  import opened Wrappers

  predicate IsDigit(ch: char) {
    '0' <= ch <= '9'
  }

  /** The characters Python's `str.isspace` accepts, i.e. what `str.strip()` removes. */
  predicate IsSpace(ch: char) {
    || ch == ' '
    || '\t' <= ch <= '\r'
    || '\U{1c}' <= ch <= '\U{1f}'
    || ch == '\U{85}' || ch == '\U{a0}' || ch == '\U{1680}'
    || '\U{2000}' <= ch <= '\U{200a}'
    || ch == '\U{2028}' || ch == '\U{2029}' || ch == '\U{202f}'
    || ch == '\U{205f}' || ch == '\U{3000}'
  }

  predicate AllDigits(s: string) {
    forall i :: 0 <= i < |s| ==> IsDigit(s[i])
  }

  function DigitValue(ch: char): nat
    requires IsDigit(ch)
  {
    (ch as int - '0' as int) as nat
  }

  function DigitChar(d: nat): (ch: char)
    requires d < 10
    ensures IsDigit(ch) && DigitValue(ch) == d
  {
    (d + '0' as int) as char
  }

  /** The value of a string of decimal digits, most significant first. */
  function DigitsValue(s: string): nat
    requires AllDigits(s)
  {
    if |s| == 0 then 0 else DigitsValue(s[..|s|-1]) * 10 + DigitValue(s[|s|-1])
  }

  /** `str(n)` for a natural number: decimal digits without leading zeros. */
  function NatToString(n: nat): (s: string)
    ensures |s| >= 1 && AllDigits(s)
    ensures s[0] == '0' ==> n == 0
    ensures DigitsValue(s) == n
  {
    if n < 10 then [DigitChar(n)]
    else
      var s := NatToString(n / 10) + [DigitChar(n % 10)];
      assert s[..|s|-1] == NatToString(n / 10);
      s
  }

  /** `s.lstrip()` */
  function StripStart(s: string): (r: string)
    ensures |r| <= |s| && r == s[|s|-|r|..]
    ensures forall i :: 0 <= i < |s| - |r| ==> IsSpace(s[i])
    ensures r == [] || !IsSpace(r[0])
  {
    if |s| > 0 && IsSpace(s[0]) then StripStart(s[1..]) else s
  }

  /** `s.rstrip()` */
  function StripEnd(s: string): (r: string)
    ensures |r| <= |s| && r == s[..|r|]
    ensures forall i :: |r| <= i < |s| ==> IsSpace(s[i])
    ensures r == [] || !IsSpace(r[|r|-1])
  {
    if |s| > 0 && IsSpace(s[|s|-1]) then StripEnd(s[..|s|-1]) else s
  }

  /** `s.strip()`: the infix of `s` left after removing whitespace at both ends. */
  function Strip(s: string): (r: string)
    ensures |r| <= |s|
    ensures r == [] || (!IsSpace(r[0]) && !IsSpace(r[|r|-1]))
    ensures |r| <= |StripEnd(s)| && StrippedAt(s, r, |StripEnd(s)| - |r|)
  {
    var e := StripEnd(s);
    var r := StripStart(e);
    StripBoth(s, e, r);
    r
  }

  lemma {:induction false} StripBoth(s: string, e: string, r: string)
    requires e == StripEnd(s) && r == StripStart(e)
    ensures StrippedAt(s, r, |e| - |r|)
  {
    var i := |e| - |r|;
    assert r == s[i..i + |r|] by {
      assert e == s[..|e|];
      assert r == e[i..];
    }
    forall k | 0 <= k < i ensures IsSpace(s[k]) {
      assert s[k] == e[k];
    }
  }

  /** `r` is `s[i..i+|r|]` and everything of `s` around it is whitespace. */
  predicate StrippedAt(s: string, r: string, i: int) {
    && 0 <= i <= |s| - |r|
    && r == s[i..i + |r|]
    && (forall k :: 0 <= k < i ==> IsSpace(s[k]))
    && (forall k :: i + |r| <= k < |s| ==> IsSpace(s[k]))
  }

  /** `sep.join(parts)` */
  function Join(sep: string, parts: seq<string>): string
  {
    if |parts| == 0 then ""
    else if |parts| == 1 then parts[0]
    else parts[0] + sep + Join(sep, parts[1..])
  }

  lemma {:induction false} JoinSnoc(sep: string, parts: seq<string>, last: string)
    requires |parts| >= 1
    ensures Join(sep, parts + [last]) == Join(sep, parts) + sep + last
    decreases |parts|
  {
    var ps := parts + [last];
    if |parts| == 1 {
      assert ps[1..] == [last];
    } else {
      assert ps[1..] == parts[1..] + [last];
      JoinSnoc(sep, parts[1..], last);
    }
  }

  /**
   `s.split(sep)` for a one-character separator: the fields between
   occurrences of `sep`, which joined back with `sep` give `s`.
   */
  function Split(s: string, sep: char): (r: seq<string>)
    ensures |r| >= 1
    ensures forall i :: 0 <= i < |r| ==> sep !in r[i]
    ensures Join([sep], r) == s
    decreases |s|
  {
    if |s| == 0 then [""]
    else
      var init := Split(s[..|s|-1], sep);
      var ch := s[|s|-1];
      assert s == s[..|s|-1] + [ch];
      if ch == sep then
        JoinSnoc([sep], init, "");
        init + [""]
      else
        var k := |init| - 1;
        var r := init[..k] + [init[k] + [ch]];
        if k == 0 then r
        else
          assert init == init[..k] + [init[k]];
          JoinSnoc([sep], init[..k], init[k]);
          JoinSnoc([sep], init[..k], init[k] + [ch]);
          r
  }

  /** `s.split(sep)[-1]`: the text after the last `sep`. */
  function LastField(s: string, sep: char): (r: string)
    ensures sep !in r
    ensures |r| <= |s| && r == s[|s| - |r|..]
    ensures |r| == |s| || s[|s| - |r| - 1] == sep
  {
    var parts := Split(s, sep);
    var k := |parts| - 1;
    if k == 0 then parts[0]
    else
      assert parts == parts[..k] + [parts[k]];
      JoinSnoc([sep], parts[..k], parts[k]);
      parts[k]
  }

  /** `s.split(sep)[0]`: the text before the first `sep`. */
  function FirstField(s: string, sep: char): (r: string)
    ensures sep !in r
    ensures |r| <= |s| && r == s[..|r|]
    ensures |r| == |s| || s[|r|] == sep
  {
    Split(s, sep)[0]
  }

  lemma {:induction false} LastFieldSnocSep(s: string, sep: char)
    ensures LastField(s + [sep], sep) == ""
  {
    var t := s + [sep];
    assert t[..|t|-1] == s;
  }

  lemma {:induction false} LastFieldSnoc(s: string, sep: char, ch: char)
    requires ch != sep
    ensures LastField(s + [ch], sep) == LastField(s, sep) + [ch]
  {
    var t := s + [ch];
    assert t[..|t|-1] == s;
  }

  /** Splitting a join of separator-free fields gives the fields back. */
  lemma {:induction false} SplitJoin(parts: seq<string>, sep: char)
    requires |parts| >= 1
    requires forall i :: 0 <= i < |parts| ==> sep !in parts[i]
    ensures Split(Join([sep], parts), sep) == parts
    decreases |parts|
  {
    if |parts| == 1 {
      SplitNoSep(parts[0], sep);
    } else {
      var k := |parts| - 1;
      assert parts == parts[..k] + [parts[k]];
      JoinSnoc([sep], parts[..k], parts[k]);
      SplitJoin(parts[..k], sep);
      SplitAppendField(Join([sep], parts[..k]), sep, parts[k]);
    }
  }

  lemma {:induction false} SplitNoSep(s: string, sep: char)
    requires sep !in s
    ensures Split(s, sep) == [s]
    decreases |s|
  {
    if |s| > 0 {
      SplitNoSep(s[..|s|-1], sep);
    }
  }

  lemma {:induction false} SplitAppendField(a: string, sep: char, f: string)
    requires sep !in f
    ensures Split(a + [sep] + f, sep) == Split(a, sep) + [f]
    decreases |f|
  {
    var t := a + [sep] + f;
    if |f| == 0 {
      assert t[..|t|-1] == a;
    } else {
      var f' := f[..|f|-1];
      var ch := f[|f|-1];
      assert f == f' + [ch];
      assert ch != sep;
      assert t[..|t|-1] == a + [sep] + f';
      assert t[|t|-1] == ch;
      SplitAppendField(a, sep, f');
      var init := Split(a + [sep] + f', sep);
      assert init[..|init|-1] == Split(a, sep);
    }
  }

  /** The last field is whatever follows the last separator. */
  /** The first field of a text that continues with a separator after a separator-free prefix is that prefix. */
  lemma {:induction false} FirstFieldAppend(a: string, sep: char, rest: string)
    requires sep !in a && |rest| > 0 && rest[0] == sep
    ensures FirstField(a + rest, sep) == a
  {
    var s := a + rest;
    assert s[|a|] == sep;
    assert forall k :: 0 <= k < |a| ==> s[k] == a[k] && s[k] != sep;
    assert s[..|a|] == a;
  }

  lemma {:induction false} LastFieldAppend(a: string, sep: char, f: string)
    requires sep !in f
    ensures LastField(a + [sep] + f, sep) == f
  {
    SplitAppendField(a, sep, f);
  }

  /** ASCII `str.upper()` */
  function UpperChar(ch: char): char {
    if 'a' <= ch <= 'z' then (ch as int - 32) as char else ch
  }

  function Upper(s: string): (r: string)
    ensures |r| == |s|
    ensures forall i :: 0 <= i < |s| ==> r[i] == UpperChar(s[i])
  {
    seq(|s|, i requires 0 <= i < |s| => UpperChar(s[i]))
  }

  /** Python's `needle in haystack` for strings. */
  predicate Contains(haystack: string, needle: string) {
    exists i :: 0 <= i <= |haystack| - |needle| && OccursAt(haystack, needle, i)
  }

  predicate OccursAt(haystack: string, needle: string, i: int) {
    0 <= i <= |haystack| - |needle| && haystack[i..i + |needle|] == needle
  }

  /**
   `int(s)` for a decimal literal: surrounding whitespace, an optional sign,
   then at least one ASCII digit; anything else is a ValueError (`None`).
   */
  function ParseInt(s: string): (r: Option<int>)
    ensures r.Some? <==> IsIntLiteral(Strip(s))
  {
    ParseLiteral(Strip(s))
  }

  /** `int()` of text already stripped of whitespace. */
  function ParseLiteral(t: string): (r: Option<int>)
    ensures r.Some? <==> IsIntLiteral(t)
  {
    if |t| > 0 && (t[0] == '-' || t[0] == '+') then
      var ds := t[1..];
      if |ds| > 0 && AllDigits(ds) then
        var v: int := if t[0] == '-' then 0 - DigitsValue(ds) as int else DigitsValue(ds);
        Some(v)
      else None
    else if |t| > 0 && AllDigits(t) then Some(DigitsValue(t))
    else None
  }

  predicate IsIntLiteral(t: string) {
    if |t| > 0 && (t[0] == '-' || t[0] == '+') then |t| > 1 && AllDigits(t[1..])
    else |t| > 0 && AllDigits(t)
  }

  /** `int(str(n)) == n` */
  lemma {:induction false} ParseIntRoundTrip(n: nat)
    ensures ParseInt(NatToString(n)) == Some(n)
  {
    var s := NatToString(n);
    DigitsNoSpace(s);
    StripNoSpace(s);
    assert IsDigit(s[0]);
  }

  /** `int("-" + str(n)) == -n` */
  lemma {:induction false} ParseIntNegRoundTrip(n: nat)
    ensures ParseInt("-" + NatToString(n)) == Some(0 - n)
  {
    var s := NatToString(n);
    var t := "-" + s;
    assert t[1..] == s;
    DigitsNoSpace(s);
    assert forall i :: 0 <= i < |t| ==> !IsSpace(t[i]) by {
      forall i | 0 <= i < |t| ensures !IsSpace(t[i]) {
        if i > 0 { assert t[i] == s[i-1]; }
      }
    }
    StripNoSpace(t);
  }

  /** `int(d)` for a string of digits: its value, or ValueError when it is empty. */
  lemma {:induction false} ParseDigits(d: string)
    requires AllDigits(d)
    ensures ParseInt(d) == if |d| == 0 then None else Some(DigitsValue(d))
  {
    DigitsNoSpace(d);
    StripNoSpace(d);
    if |d| > 0 {
      assert IsDigit(d[0]);
    }
  }

  lemma {:induction false} DigitsNoSpace(s: string)
    requires AllDigits(s)
    ensures forall i :: 0 <= i < |s| ==> !IsSpace(s[i])
  {
    forall i | 0 <= i < |s| ensures !IsSpace(s[i]) { assert IsDigit(s[i]); }
  }

  lemma {:induction false} StripNoSpace(s: string)
    requires forall i :: 0 <= i < |s| ==> !IsSpace(s[i])
    ensures Strip(s) == s
  {
    if |s| > 0 {
      assert !IsSpace(s[|s|-1]);
      assert StripEnd(s) == s;
      assert !IsSpace(s[0]);
    }
  }

  /** Stripping only removes characters, so a character absent from `s` is absent from `s.strip()`. */
  lemma {:induction false} StripKeepsAbsent(s: string, c: char)
    requires forall k :: 0 <= k < |s| ==> s[k] != c
    ensures forall k :: 0 <= k < |Strip(s)| ==> Strip(s)[k] != c
  {
    var r := Strip(s);
    SliceKeepsAbsent(s, r, |StripEnd(s)| - |r|, c);
  }

  lemma {:induction false} SliceKeepsAbsent(s: string, r: string, i: int, c: char)
    requires 0 <= i <= |s| - |r| && r == s[i..i + |r|]
    requires forall k :: 0 <= k < |s| ==> s[k] != c
    ensures forall k :: 0 <= k < |r| ==> r[k] != c
  {
    forall k | 0 <= k < |r| ensures r[k] != c {
      assert r[k] == s[i + k];
    }
  }

  /** One leading blank before a word without whitespace is stripped away. */
  lemma {:induction false} StripLeadingBlank(w: string)
    requires |w| > 0
    requires forall k :: 0 <= k < |w| ==> !IsSpace(w[k])
    ensures Strip([' '] + w) == w
  {
    var f := [' '] + w;
    assert f[|f| - 1] == w[|w| - 1];
    assert StripEnd(f) == f;
    assert f[1..] == w;
    StripNoSpace(w);
    assert StripEnd(w) == w;
    assert StripStart(f) == StripStart(w);
  }
}

=== FILE: tfidf.dfy ===
/**
 Class-based TF-IDF (Reviewer/tfidf.py and Disney/tfidf.py): every title's
 reviews are joined into one document, terms are counted per title, each
 term is scored per title, and the best-scoring terms of each title are
 ranked. Tokenisation is an input: a vectorizer turns the documents into a
 vocabulary and a term-by-document count matrix, or fails as sklearn does
 on an empty vocabulary. The natural logarithm is an input too.
 */
module ClassTfidf {
  import opened Wrappers
  import opened Text
  import opened PyDict
  import opened Utils
  import opened ExtReal
  import opened Ranking
  import Corpus

  /** Both `generate` methods keep 2000 terms per title. */
  const TopTerms: nat := 2000

  // ---------------------------------------------------------------------
  // prepare_data
  // ---------------------------------------------------------------------

  /** `titles, documents, m` */
  datatype Prepared = Prepared(titles: seq<string>, documents: seq<string>, m: nat)

  /** Reviewer/tfidf.py: one document per title, its reviews joined by single spaces. */
  function PrepareData(reviews: Dict<string, seq<string>>): (r: Prepared)
    ensures r.titles == Keys(reviews)
    ensures |r.documents| == |reviews|
    ensures forall i :: 0 <= i < |reviews| ==> r.documents[i] == Join(" ", reviews[i].1)
    ensures r.m == Corpus.Sizes(reviews)
  {
    Prepared(Keys(reviews), Map((e: (string, seq<string>)) => Join(" ", e.1), reviews), Corpus.Sizes(reviews))
  }

  /** The text of every (reviewer, text) pair. */
  function Texts(pairs: seq<(string, string)>): (r: seq<string>)
    ensures |r| == |pairs|
    ensures forall i :: 0 <= i < |pairs| ==> r[i] == pairs[i].1
  {
    Map((p: (string, string)) => p.1, pairs)
  }

  /** Disney/tfidf.py: as `PrepareData`, on (reviewer, text) pairs whose texts alone are joined. */
  function PreparePairs(reviews: Dict<string, seq<(string, string)>>): (r: Prepared)
    ensures r.titles == Keys(reviews)
    ensures |r.documents| == |reviews|
    ensures r.m == Corpus.Sizes(reviews)
  {
    Prepared(Keys(reviews), Map((e: (string, seq<(string, string)>)) => Join(" ", Texts(e.1)), reviews), Corpus.Sizes(reviews))
  }

  /** Review texts with the reviewers' names dropped. */
  function TextsOnly(reviews: Dict<string, seq<(string, string)>>): (r: Dict<string, seq<string>>)
    ensures Keys(r) == Keys(reviews)
  {
    Map((e: (string, seq<(string, string)>)) => (e.0, Texts(e.1)), reviews)
  }

  lemma {:induction false} SizesTexts(reviews: Dict<string, seq<(string, string)>>)
    ensures Corpus.Sizes(TextsOnly(reviews)) == Corpus.Sizes(reviews)
    decreases |reviews|
  {
    if |reviews| > 0 {
      SizesTexts(reviews[1..]);
      assert TextsOnly(reviews)[1..] == TextsOnly(reviews[1..]);
    }
  }

  /** The pair-shaped preparation is the plain one applied to the texts alone: the names play no part. */
  lemma {:induction false} PairsIgnoreNames(reviews: Dict<string, seq<(string, string)>>)
    ensures PreparePairs(reviews) == PrepareData(TextsOnly(reviews))
  {
    SizesTexts(reviews);
    var a := PreparePairs(reviews);
    var b := PrepareData(TextsOnly(reviews));
    assert a.documents == b.documents;
  }

  /**
   After `parse_data`, each title's document is the join of its records'
   documents and `m` counts the records, not the titles.
   */
  lemma {:induction false} PreparedFromParsed(records: seq<Corpus.Record>, order: seq<string>, i: nat)
    requires Corpus.Enumerates(order, records)
    requires i < |order|
    ensures var p := PrepareData(Corpus.ParseData(records, order));
      p.titles == order && p.m == |records| &&
      p.documents[i] == Join(" ", Corpus.DocsOf(records, order[i]))
  {
    var d := Corpus.ParseData(records, order);
    Corpus.ParseDataTotal(records, order);
    assert Keys(d)[i] == order[i];
    LookupAt(d, i);
  }

  // ---------------------------------------------------------------------
  // c_tf_idf
  // ---------------------------------------------------------------------

  /** `t[w][c]`: how often term `w` occurs in document (title) `c`. */
  type Counts = seq<seq<nat>>

  predicate Shaped<T>(t: seq<seq<T>>, classes: nat) {
    forall w :: 0 <= w < |t| ==> |t[w]| == classes
  }

  function Sum(xs: seq<nat>): nat {
    if |xs| == 0 then 0 else xs[0] + Sum(xs[1..])
  }

  lemma {:induction false} ElementBelowSum(xs: seq<nat>, i: nat)
    requires i < |xs|
    ensures xs[i] <= Sum(xs)
    decreases |xs|
  {
    if i > 0 {
      ElementBelowSum(xs[1..], i - 1);
    }
  }

  function Column<T>(t: seq<seq<T>>, c: nat): (r: seq<T>)
    requires forall w :: 0 <= w < |t| ==> c < |t[w]|
    ensures |r| == |t|
  {
    seq(|t|, w requires 0 <= w < |t| => t[w][c])
  }

  /** `w = t.sum(axis=0)`: all term occurrences of title `c`. */
  function ClassTotal(t: Counts, classes: nat, c: nat): nat
    requires Shaped(t, classes) && c < classes
  {
    Sum(Column(t, c))
  }

  /**
   A vocabulary as CountVectorizer builds it: every row has one count per
   document, and every term occurs somewhere.
   */
  predicate Vocabulary(t: Counts, classes: nat) {
    Shaped(t, classes) && forall w :: 0 <= w < |t| ==> Sum(t[w]) > 0
  }

  /**
   A term's frequency in a title, smoothed by adding one to its count and
   to the title's total; it lies in (0, 1].
   */
  function Tf(t: Counts, classes: nat, w: nat, c: nat): (r: real)
    requires Shaped(t, classes) && w < |t| && c < classes
    ensures 0.0 < r <= 1.0
  {
    var col := Column(t, c);
    ElementBelowSum(col, w);
    assert col[w] == t[w][c];
    SmoothedRatio(t[w][c], ClassTotal(t, classes, c));
    (t[w][c] + 1) as real / (ClassTotal(t, classes, c) + 1) as real
  }

  /**
   The logarithm of the number of reviews `m` over the term's count in all
   titles. Given at least one review, under any increasing logarithm it
   exceeds ln(1) exactly when the term occurs fewer times than there are
   reviews, and is below it exactly when the term occurs more often.
   */
  function Idf(t: Counts, w: nat, m: nat, ln: real -> real): (r: real)
    requires w < |t| && Sum(t[w]) > 0
    ensures Increasing(ln) && m > 0 ==> (r > ln(1.0) <==> m > Sum(t[w]))
    ensures Increasing(ln) && m > 0 ==> (r < ln(1.0) <==> m < Sum(t[w]))
  {
    var q := m as real / Sum(t[w]) as real;
    RatioAgainstOne(m, Sum(t[w]));
    LnAgainstOne(ln, q);
    ln(q)
  }

  lemma {:induction false} LnAgainstOne(ln: real -> real, q: real)
    ensures Increasing(ln) && q > 1.0 ==> ln(q) > ln(1.0)
    ensures Increasing(ln) && 0.0 < q < 1.0 ==> ln(q) < ln(1.0)
  {
    if Increasing(ln) && q > 1.0 { assert 0.0 < 1.0 < q; }
    if Increasing(ln) && 0.0 < q < 1.0 { assert 0.0 < q < 1.0; }
  }

  /** A logarithm in the abstract: it preserves the order of positive reals. */
  ghost predicate Increasing(ln: real -> real) {
    forall x: real, y: real :: 0.0 < x < y ==> ln(x) < ln(y)
  }

  lemma {:induction false} RatioAgainstOne(m: nat, s: nat)
    requires s > 0
    ensures m > s <==> m as real / s as real > 1.0
    ensures m < s <==> m as real / s as real < 1.0
    ensures m == s <==> m as real / s as real == 1.0
  {
  }

  /** One entry of `tf_idf = tf * idf`. */
  function TfIdf(t: Counts, classes: nat, m: nat, ln: real -> real, w: nat, c: nat): real
    requires Vocabulary(t, classes) && w < |t| && c < classes
  {
    Weigh(Tf(t, classes, w, c), Idf(t, w, m, ln))
  }

  function Weigh(tf: real, idf: real): real {
    tf * idf
  }

  /** The term-by-title score matrix. */
  function CTfIdf(t: Counts, classes: nat, m: nat, ln: real -> real): (r: seq<seq<real>>)
    requires Vocabulary(t, classes)
    ensures |r| == |t| && Shaped(r, classes)
    ensures forall w, c :: 0 <= w < |t| && 0 <= c < classes ==> r[w][c] == TfIdf(t, classes, m, ln, w, c)
  {
    seq(|t|, w requires 0 <= w < |t| =>
      seq(classes, c requires 0 <= c < classes => TfIdf(t, classes, m, ln, w, c)))
  }

  lemma {:induction false} SmoothedRatio(a: nat, b: nat)
    requires a <= b
    ensures 0.0 < (a + 1) as real / (b + 1) as real <= 1.0
  {
  }

  /** A term's idf does not depend on the title: its scores in two titles are in the ratio of its term frequencies. */
  lemma {:induction false} SameIdf(t: Counts, classes: nat, m: nat, ln: real -> real, w: nat, c1: nat, c2: nat)
    requires Vocabulary(t, classes) && w < |t| && c1 < classes && c2 < classes
    ensures var r := CTfIdf(t, classes, m, ln);
      Proportional(r[w][c1], r[w][c2], Tf(t, classes, w, c1), Tf(t, classes, w, c2))
  {
    var r := CTfIdf(t, classes, m, ln);
    Swap(r[w][c1], r[w][c2], Tf(t, classes, w, c1), Tf(t, classes, w, c2), Idf(t, w, m, ln));
  }

  /** `x : y = a : b`, written without division. */
  predicate Proportional(x: real, y: real, a: real, b: real) {
    x * b == y * a
  }

  lemma {:induction false} Swap(x: real, y: real, a: real, b: real, i: real)
    requires x == Weigh(a, i) && y == Weigh(b, i)
    ensures Proportional(x, y, a, b)
  {
  }

  lemma {:induction false} ScaleStrict(x: real, y: real, i: real)
    requires x > y && i > 0.0
    ensures Weigh(x, i) > Weigh(y, i)
  {
  }

  /** In one title, a term that occurs more often has the higher term frequency. */
  lemma {:induction false} TfStrict(t: Counts, classes: nat, w1: nat, w2: nat, c: nat)
    requires Shaped(t, classes) && w1 < |t| && w2 < |t| && c < classes
    requires t[w1][c] > t[w2][c]
    ensures Tf(t, classes, w1, c) > Tf(t, classes, w2, c)
  {
    DivStrict((t[w1][c] + 1) as real, (t[w2][c] + 1) as real, (ClassTotal(t, classes, c) + 1) as real);
  }

  lemma {:induction false} DivStrict(a: real, b: real, d: real)
    requires a > b && d > 0.0
    ensures a / d > b / d
  {
    assert a / d - b / d == (a - b) / d;
  }

  /**
   Two terms with the same total count and a positive idf: the one that
   occurs more often in a title scores strictly higher there.
   */
  lemma {:induction false} MoreFrequentScoresHigher(t: Counts, classes: nat, m: nat, ln: real -> real, w1: nat, w2: nat, c: nat)
    requires Vocabulary(t, classes) && w1 < |t| && w2 < |t| && c < classes
    requires Sum(t[w1]) == Sum(t[w2]) && Idf(t, w1, m, ln) > 0.0
    requires t[w1][c] > t[w2][c]
    ensures var r := CTfIdf(t, classes, m, ln); r[w1][c] > r[w2][c]
  {
    var r := CTfIdf(t, classes, m, ln);
    TfIdfStrict(t, classes, m, ln, w1, w2, c);
    assert r[w1][c] == TfIdf(t, classes, m, ln, w1, c);
    assert r[w2][c] == TfIdf(t, classes, m, ln, w2, c);
  }

  lemma {:induction false} TfIdfStrict(t: Counts, classes: nat, m: nat, ln: real -> real, w1: nat, w2: nat, c: nat)
    requires Vocabulary(t, classes) && w1 < |t| && w2 < |t| && c < classes
    requires Sum(t[w1]) == Sum(t[w2]) && Idf(t, w1, m, ln) > 0.0
    requires t[w1][c] > t[w2][c]
    ensures TfIdf(t, classes, m, ln, w1, c) > TfIdf(t, classes, m, ln, w2, c)
  {
    TfStrict(t, classes, w1, w2, c);
    assert Idf(t, w2, m, ln) == Idf(t, w1, m, ln);
    ScaleStrict(Tf(t, classes, w1, c), Tf(t, classes, w2, c), Idf(t, w1, m, ln));
  }

  // ---------------------------------------------------------------------
  // extract_top_n_tfidf and extract_top_n_relative_importance
  // ---------------------------------------------------------------------

  /** `[(word, value), ...]`: a title's best terms with their scores. */
  type Ranked = seq<(string, Ext)>

  function Score(p: (string, Ext)): Ext {
    p.1
  }

  predicate Distinct(titles: seq<string>) {
    forall i, j :: 0 <= i < j < |titles| ==> titles[i] != titles[j]
  }

  /**
   `sort_values(ascending=False)` on one column, then `[:n]` of its index
   and values, zipped back together.
   */
  function RankColumn(words: seq<string>, column: seq<Ext>, n: nat): (r: Ranked)
    requires |words| == |column|
    ensures |r| == Min(n, |words|)
    ensures SortedBy(r, Score)
    ensures multiset(r) <= multiset(Zip(words, column))
  {
    var all := SortDesc(Zip(words, column), Score);
    var r := TopN(all, n);
    assert all == r + all[|r|..];
    r
  }

  /** No term left out of a ranking scores higher than a term in it. */
  lemma {:induction false} RankingDominates(words: seq<string>, column: seq<Ext>, n: nat)
    requires |words| == |column|
    ensures var all := SortDesc(Zip(words, column), Score);
      var r := RankColumn(words, column, n);
      r == all[..|r|] &&
      forall p, q :: p in r && q in all[|r|..] ==> Geq(p.1, q.1)
  {
    var all := SortDesc(Zip(words, column), Score);
    var r := RankColumn(words, column, n);
    assert r == all[..|r|];
    forall p, q | p in r && q in all[|r|..] ensures Geq(p.1, q.1) {
      SplitDominates(all, |r|, p, q);
    }
  }

  lemma {:induction false} SplitDominates(all: Ranked, k: nat, p: (string, Ext), q: (string, Ext))
    requires SortedBy(all, Score) && k <= |all|
    requires p in all[..k] && q in all[k..]
    ensures Geq(p.1, q.1)
  {
    var i :| 0 <= i < k && all[..k][i] == p;
    var j :| 0 <= j < |all| - k && all[k..][j] == q;
    assert all[i] == p && all[k + j] == q;
    assert Score(all[i]) == p.1 && Score(all[k + j]) == q.1;
  }

  /** A score column as floating-point values. */
  function Finite(xs: seq<real>): (r: seq<Ext>)
    ensures |r| == |xs|
    ensures forall i :: 0 <= i < |xs| ==> r[i] == Fin(xs[i])
  {
    Map((x: real) => Fin(x), xs)
  }

  /** The table `extract_top_n_tfidf` saves: every title with its `n` best-scoring terms. */
  function ExtractTopNTfidf(scores: seq<seq<real>>, words: seq<string>, titles: seq<string>, n: nat): (r: Dict<string, Ranked>)
    requires |words| == |scores| && Shaped(scores, |titles|)
    ensures Keys(r) == titles
    ensures forall c :: 0 <= c < |titles| ==>
      |r[c].1| == Min(n, |words|) && SortedBy(r[c].1, Score) &&
      multiset(r[c].1) <= multiset(Zip(words, Finite(Column(scores, c))))
    ensures forall c :: 0 <= c < |titles| ==> r[c].1 == RankColumn(words, Finite(Column(scores, c)), n)
  {
    seq(|titles|, c requires 0 <= c < |titles| => (titles[c], RankColumn(words, Finite(Column(scores, c)), n)))
  }

  // ---------------------------------------------------------------------
  // get_top_n_words
  // ---------------------------------------------------------------------

  /** What CountVectorizer yields: the vocabulary and, per term, its count in each document. */
  datatype Vectorized = Vectorized(words: seq<string>, counts: Counts)

  /** The vectorizer kept its promise for these documents. */
  predicate Fits(v: Vectorized, documents: nat) {
    |v.words| == |v.counts| && Vocabulary(v.counts, documents)
  }

  function CountKey(p: (string, nat)): Ext {
    Fin(p.1 as real)
  }

  /** `sum_words`: every term's count over all documents. */
  function Totals(t: Counts): (r: seq<nat>)
    ensures |r| == |t|
    ensures forall w :: 0 <= w < |t| ==> r[w] == Sum(t[w])
  {
    Map(Sum, t)
  }

  /** The `n` most frequent terms with their total counts, most frequent first. */
  function GetTopNWords(v: Vectorized, n: nat): (r: seq<(string, nat)>)
    requires |v.words| == |v.counts|
    ensures |r| == Min(n, |v.words|)
    ensures SortedBy(r, CountKey)
    ensures multiset(r) <= multiset(Zip(v.words, Totals(v.counts)))
  {
    var all := SortDesc(Zip(v.words, Totals(v.counts)), CountKey);
    var r := TopN(all, n);
    assert all == r + all[|r|..];
    r
  }

  /** Each listed term carries its own total, and the counts never increase down the list. */
  lemma {:induction false} TopWordsCounts(v: Vectorized, n: nat, i: nat)
    requires |v.words| == |v.counts|
    requires i < Min(n, |v.words|)
    ensures var r := GetTopNWords(v, n);
      (exists w :: 0 <= w < |v.words| && r[i] == (v.words[w], Sum(v.counts[w]))) &&
      forall j :: i < j < |r| ==> r[j].1 <= r[i].1
  {
    var r := GetTopNWords(v, n);
    assert r[i] in multiset(r);
    CountFromTotals(v, r[i]);
    CountsDescend(r, i);
  }

  /**
   The kept terms are the head of the full descending sort by total count,
   and no term cut off occurs more often than a term kept.
   */
  lemma {:induction false} TopWordsDominate(v: Vectorized, n: nat)
    requires |v.words| == |v.counts|
    ensures var all := SortDesc(Zip(v.words, Totals(v.counts)), CountKey);
      var r := GetTopNWords(v, n);
      r == all[..|r|] &&
      forall i, j :: 0 <= i < |r| <= j < |all| ==> all[j].1 <= r[i].1
  {
    var all := SortDesc(Zip(v.words, Totals(v.counts)), CountKey);
    assert GetTopNWords(v, n) == TopN(all, n);
    CountPrefixDominates(all, n);
  }

  lemma {:induction false} CountPrefixDominates(all: seq<(string, nat)>, n: nat)
    requires SortedBy(all, CountKey)
    ensures var r := TopN(all, n);
      r == all[..|r|] && forall i, j :: 0 <= i < |r| <= j < |all| ==> all[j].1 <= r[i].1
  {
    var r := TopN(all, n);
    TopNDominates(all, CountKey, n);
    forall i, j | 0 <= i < |r| <= j < |all| ensures all[j].1 <= r[i].1 {
      assert r[i] == all[i];
      assert Geq(CountKey(all[i]), CountKey(all[j]));
    }
  }

  lemma {:induction false} CountFromTotals(v: Vectorized, x: (string, nat))
    requires |v.words| == |v.counts|
    requires x in multiset(Zip(v.words, Totals(v.counts)))
    ensures exists w :: 0 <= w < |v.words| && x == (v.words[w], Sum(v.counts[w]))
  {
    var z := Zip(v.words, Totals(v.counts));
    var w :| 0 <= w < |z| && z[w] == x;
    assert x == (v.words[w], Sum(v.counts[w]));
  }

  lemma {:induction false} CountsDescend(r: seq<(string, nat)>, i: nat)
    requires SortedBy(r, CountKey) && i < |r|
    ensures forall j :: i < j < |r| ==> r[j].1 <= r[i].1
  {
    forall j | i < j < |r| ensures r[j].1 <= r[i].1 {
      assert Geq(CountKey(r[i]), CountKey(r[j]));
    }
  }

  // ---------------------------------------------------------------------
  // generate
  // ---------------------------------------------------------------------
}

=== FILE: utils.dfy ===
/**
 The exceptions the program raises, and `MovieNotFoundError` with the
 message its `__str__` builds (src/utils.py).
 */
module Utils {
  import opened Wrappers
  import opened Text

  /**
   The requested title (`None` when the caller passed no title) and the
   titles that can be asked for, in the order the tables list them.
   */
  datatype MovieNotFoundError = MovieNotFoundError(inputMovie: Option<string>, movies: seq<string>)

  /** Python exceptions that escape an operation; each carries what its message names. */
  datatype Failure =
    | ValueError(message: string)
    | KeyError(key: string)
    | IndexError
    | ZeroDivisionError
    | AttributeError
    | NotImplementedError(message: string)
    | MovieNotFound(err: MovieNotFoundError)

  /** `f"{x}"` of a title that may be `None`. */
  function Display(movie: Option<string>): string {
    match movie
    case None => "None"
    case Some(m) => m
  }

  /** " is not a saved movie. Please select one of the following:", written in pieces so that facts about its characters stay cheap to check. */
  const NotSavedSuffix := " is not a saved" + " movie. Please" + " select one of" + " the following:"

  function Header(e: MovieNotFoundError): string {
    Display(e.inputMovie) + NotSavedSuffix
  }

  /** One `"\n * <name>"` line per title, in order. */
  function Bullets(movies: seq<string>): (r: string)
    ensures |movies| == 0 ==> r == ""
  {
    if |movies| == 0 then ""
    else Bullets(movies[..|movies| - 1]) + "\n * " + movies[|movies| - 1]
  }

  /** `str(MovieNotFoundError(input_movie, movies))` */
  function Message(e: MovieNotFoundError): (r: string)
    ensures |r| >= |Header(e)| && r[..|Header(e)|] == Header(e)
    ensures |e.movies| == 0 ==> r == Header(e)
  {
    Header(e) + Bullets(e.movies)
  }

  /**
   Read back line by line, the message is the header followed by one
   `" * <name>"` line per title, when no name and no requested title holds
   a line break.
   */
  lemma {:induction false} MessageLines(e: MovieNotFoundError)
    requires '\n' !in Display(e.inputMovie)
    requires forall i :: 0 <= i < |e.movies| ==> '\n' !in e.movies[i]
    ensures Split(Message(e), '\n') == [Header(e)] + BulletLines(e.movies)
  {
    var h := Header(e);
    assert '\n' !in h by {
      var d := Display(e.inputMovie);
      assert h == d + NotSavedSuffix;
      SuffixHasNoNewline();
      forall i | 0 <= i < |h| ensures h[i] != '\n' {
        if i < |d| { assert h[i] == d[i]; } else { assert h[i] in NotSavedSuffix; }
      }
    }
    BulletsSplit(h, e.movies);
  }

  function BulletLines(movies: seq<string>): seq<string> {
    seq(|movies|, i requires 0 <= i < |movies| => " * " + movies[i])
  }

  lemma {:induction false} BulletsSplit(head: string, movies: seq<string>)
    requires '\n' !in head
    requires forall i :: 0 <= i < |movies| ==> '\n' !in movies[i]
    ensures Split(head + Bullets(movies), '\n') == [head] + BulletLines(movies)
    decreases |movies|
  {
    if |movies| == 0 {
      assert head + Bullets(movies) == head;
      SplitNoSep(head, '\n');
    } else {
      var init := movies[..|movies| - 1];
      var last := movies[|movies| - 1];
      assert forall i :: 0 <= i < |init| ==> init[i] == movies[i];
      BulletsSplit(head, init);
      NoNewlineBullet(last);
      BulletsSnoc(head, movies);
      SplitAppendField(head + Bullets(init), '\n', " * " + last);
      BulletLinesSnoc(movies);
    }
  }

  lemma {:induction false} BulletsSnoc(head: string, movies: seq<string>)
    requires |movies| > 0
    ensures head + Bullets(movies)
      == head + Bullets(movies[..|movies| - 1]) + ['\n'] + (" * " + movies[|movies| - 1])
  {
    var b, last := Bullets(movies[..|movies| - 1]), movies[|movies| - 1];
    assert Bullets(movies) == b + "\n * " + last;
    assert "\n * " + last == ['\n'] + (" * " + last);
  }

  lemma {:induction false} BulletLinesSnoc(movies: seq<string>)
    requires |movies| > 0
    ensures BulletLines(movies) == BulletLines(movies[..|movies| - 1]) + [" * " + movies[|movies| - 1]]
  {
  }

  lemma {:induction false} SuffixHasNoNewline()
    ensures '\n' !in NotSavedSuffix
  {
    assert '\n' !in " is not a saved";
    assert '\n' !in " movie. Please";
    assert '\n' !in " select one of";
    assert '\n' !in " the following:";
  }

  lemma {:induction false} NoNewlineBullet(name: string)
    requires '\n' !in name
    ensures '\n' !in " * " + name
  {
    var line := " * " + name;
    forall i | 0 <= i < |line| ensures line[i] != '\n' {
      if i >= 3 { assert line[i] == name[i - 3]; }
    }
  }

  /** The message names every title in the list. */
  lemma {:induction false} MessageNamesAll(e: MovieNotFoundError, i: nat)
    requires i < |e.movies|
    ensures Contains(Message(e), "\n * " + e.movies[i])
  {
    BulletsContain(e.movies, i);
    var b := Bullets(e.movies);
    var needle := "\n * " + e.movies[i];
    var j :| OccursAt(b, needle, j);
    assert Message(e)[|Header(e)| + j..|Header(e)| + j + |needle|] == b[j..j + |needle|];
    assert OccursAt(Message(e), needle, |Header(e)| + j);
  }

  lemma {:induction false} BulletsContain(movies: seq<string>, i: nat)
    requires i < |movies|
    ensures exists j :: OccursAt(Bullets(movies), "\n * " + movies[i], j)
    decreases |movies|
  {
    var init := movies[..|movies| - 1];
    var needle := "\n * " + movies[i];
    var b := Bullets(movies);
    if i == |movies| - 1 {
      assert OccursAt(b, needle, |Bullets(init)|);
    } else {
      BulletsContain(init, i);
      assert init[i] == movies[i];
      var j :| OccursAt(Bullets(init), needle, j);
      assert b[j..j + |needle|] == Bullets(init)[j..j + |needle|];
      assert OccursAt(b, needle, j);
    }
  }
}

=== FILE: wrappers.dfy ===
/** Option and Result, the failure-carrying datatypes the rest of the model returns. */
module Wrappers {

  datatype Option<+T> = None | Some(value: T)

  /** `Ok` carries a value; `Err` carries the exception the Python code would raise. */
  datatype Result<+T, +E> = Ok(value: T) | Err(error: E)

}

=== FILE: years.dfy ===
/**
 `match_years`: the year a search result shows, compared with the year at
 the end of the search term, within a tolerance of two years
 (Reviewer/scraper.py, Disney/scraper.py and src/scraper.py carry the same
 function).
 */
module Years {
  import opened Wrappers
  import opened Text
  import opened Utils

  const Tolerance := 2

  /** `re.sub('[^0-9]', ' ', s)`: every non-digit becomes a space. */
  function Blank(s: string): (r: string)
    ensures |r| == |s|
    ensures forall i :: 0 <= i < |s| ==> r[i] == (if IsDigit(s[i]) then s[i] else ' ')
    decreases |s|
  {
    if |s| == 0 then []
    else
      var ch := s[|s| - 1];
      Blank(s[..|s| - 1]) + [if IsDigit(ch) then ch else ' ']
  }

  /** `re.sub(' +', ' ', s)`: each run of spaces becomes one space. */
  function Collapse(s: string): (r: string)
    ensures |r| <= |s|
    ensures |s| > 0 ==> |r| > 0 && r[|r| - 1] == s[|s| - 1]
    decreases |s|
  {
    if |s| == 0 then []
    else
      var ch := s[|s| - 1];
      var init := Collapse(s[..|s| - 1]);
      if ch == ' ' && |s| >= 2 && s[|s| - 2] == ' ' then init
      else init + [ch]
  }

  /**
   The digits the code reads as the year of a result:
   `re.sub(' +', ' ', re.sub('[^0-9]', ' ', s)).strip().split(" ")[-1]`.
   */
  function YearText(s: string): string {
    LastField(Strip(Collapse(Blank(s))), ' ')
  }

  /** The digits at the very end of `s`. */
  function TrailingDigits(s: string): (r: string)
    ensures AllDigits(r) && |r| <= |s| && r == s[|s| - |r|..]
    ensures |r| == |s| || !IsDigit(s[|s| - |r| - 1])
    decreases |s|
  {
    if |s| > 0 && IsDigit(s[|s| - 1]) then
      var r := TrailingDigits(s[..|s| - 1]) + [s[|s| - 1]];
      assert r == s[|s| - |r|..];
      r
    else ""
  }

  /**
   The last maximal run of digits in `s`, or "" when `s` has no digit.
   The run ends at `s`'s last digit and cannot be extended to the left.
   */
  function LastDigitRun(s: string): (r: string)
    ensures AllDigits(r)
    ensures r == [] <==> forall i :: 0 <= i < |s| ==> !IsDigit(s[i])
    ensures r != [] ==> exists j :: DigitRunEndsAt(s, r, j)
    decreases |s|
  {
    if |s| == 0 then ""
    else if !IsDigit(s[|s| - 1]) then
      var r := LastDigitRun(s[..|s| - 1]);
      assert r != [] ==> exists j :: DigitRunEndsAt(s, r, j) by {
        if r != [] {
          var j :| DigitRunEndsAt(s[..|s| - 1], r, j);
          assert DigitRunEndsAt(s, r, j);
        }
      }
      r
    else
      var r := TrailingDigits(s);
      assert DigitRunEndsAt(s, r, |s|);
      r
  }

  /**
   `r` is `s[j - |r|..j]`, not preceded by a digit, and no digit of `s`
   comes after position `j`.
   */
  predicate DigitRunEndsAt(s: string, r: string, j: int) {
    && |r| <= j <= |s|
    && s[j - |r|..j] == r
    && (j == |r| || !IsDigit(s[j - |r| - 1]))
    && (forall k :: j <= k < |s| ==> !IsDigit(s[k]))
  }

  /** The pipeline of regular expressions, strip and split finds the last digit run. */
  lemma {:induction false} YearTextIsLastDigitRun(s: string)
    ensures YearText(s) == LastDigitRun(s)
    decreases |s|
  {
    if |s| == 0 {
      YearTextEmpty(s);
    } else if !IsDigit(s[|s| - 1]) {
      YearTextIsLastDigitRun(s[..|s| - 1]);
      YearTextNonDigitStep(s);
    } else {
      YearTextDigitStep(s);
    }
  }

  lemma {:induction false} YearTextEmpty(s: string)
    requires |s| == 0
    ensures YearText(s) == LastDigitRun(s)
  {
    assert Strip(Collapse(Blank(s))) == [];
  }

  lemma {:induction false} YearTextNonDigitStep(s: string)
    requires |s| > 0 && !IsDigit(s[|s| - 1])
    requires YearText(s[..|s| - 1]) == LastDigitRun(s[..|s| - 1])
    ensures YearText(s) == LastDigitRun(s)
  {
    YearTextSkipsNonDigit(s);
  }

  lemma {:induction false} YearTextDigitStep(s: string)
    requires |s| > 0 && IsDigit(s[|s| - 1])
    ensures YearText(s) == LastDigitRun(s)
  {
    YearTextEndsInDigit(s);
  }

  lemma {:induction false} YearTextSkipsNonDigit(s: string)
    requires |s| > 0 && !IsDigit(s[|s| - 1])
    ensures YearText(s) == YearText(s[..|s| - 1])
  {
    var b' := Blank(s[..|s| - 1]);
    var bs := Blank(s);
    assert bs == b' + [' '];
    assert bs[..|bs| - 1] == b';
    var c' := Collapse(b');
    assert Collapse(bs) == c' || Collapse(bs) == c' + [' '];
    StripTrailingBlank(c');
  }

  lemma {:induction false} YearTextEndsInDigit(s: string)
    requires |s| > 0 && IsDigit(s[|s| - 1])
    ensures YearText(s) == TrailingDigits(s)
  {
    var s' := s[..|s| - 1];
    var ch := s[|s| - 1];
    var c' := Collapse(Blank(s'));
    CollapseBlankDigit(s);
    DigitsAndBlanksCollapse(s);
    StripEndsInDigit(c', ch);
    LastFieldStripStart(c' + [ch]);
    LastFieldSnoc(c', ' ', ch);
    CollapsedTrailing(s');
    TrailingDigitsSnoc(s);
  }

  lemma {:induction false} CollapseBlankDigit(s: string)
    requires |s| > 0 && IsDigit(s[|s| - 1])
    ensures Collapse(Blank(s)) == Collapse(Blank(s[..|s| - 1])) + [s[|s| - 1]]
  {
    var b' := Blank(s[..|s| - 1]);
    var bs := Blank(s);
    assert bs == b' + [s[|s| - 1]];
    assert bs[..|bs| - 1] == b';
  }

  lemma {:induction false} StripEndsInDigit(c: string, ch: char)
    requires IsDigit(ch)
    ensures Strip(c + [ch]) == StripStart(c + [ch])
  {
    assert !IsSpace(ch);
    assert StripEnd(c + [ch]) == c + [ch];
  }

  lemma {:induction false} TrailingDigitsSnoc(s: string)
    requires |s| > 0 && IsDigit(s[|s| - 1])
    ensures TrailingDigits(s) == TrailingDigits(s[..|s| - 1]) + [s[|s| - 1]]
  {
  }

  predicate DigitsAndBlanks(s: string) {
    forall i :: 0 <= i < |s| ==> s[i] == ' ' || IsDigit(s[i])
  }

  lemma {:induction false} StripTrailingBlank(c: string)
    ensures Strip(c + [' ']) == Strip(c)
  {
    var t := c + [' '];
    assert t[..|t| - 1] == c;
  }

  lemma {:induction false} DigitsAndBlanksCollapse(s: string)
    ensures DigitsAndBlanks(Collapse(Blank(s)))
    decreases |s|
  {
    if |s| > 0 {
      var s' := s[..|s| - 1];
      DigitsAndBlanksCollapse(s');
      var b := Blank(s);
      assert b[..|b| - 1] == Blank(s');
    }
  }

  /** On digits and spaces, dropping leading spaces does not change the last field. */
  lemma {:induction false} LastFieldStripStart(u: string)
    requires DigitsAndBlanks(u)
    ensures LastField(StripStart(u), ' ') == LastField(u, ' ')
    decreases |u|
  {
    if |u| > 0 && IsSpace(u[0]) {
      assert u[0] == ' ';
      assert u == [' '] + u[1..];
      LastFieldStripStart(u[1..]);
      LastFieldLeadingBlank(u[1..]);
    }
  }

  lemma {:induction false} LastFieldLeadingBlank(v: string)
    ensures LastField([' '] + v, ' ') == LastField(v, ' ')
    decreases |v|
  {
    if |v| == 0 {
      LastFieldSnocSep([], ' ');
      assert [' '] + v == [] + [' '];
    } else {
      var v' := v[..|v| - 1];
      var ch := v[|v| - 1];
      assert v == v' + [ch];
      assert [' '] + v == ([' '] + v') + [ch];
      if ch == ' ' {
        LastFieldSnocSep([' '] + v', ' ');
        LastFieldSnocSep(v', ' ');
      } else {
        LastFieldLeadingBlank(v');
        LastFieldSnoc([' '] + v', ' ', ch);
        LastFieldSnoc(v', ' ', ch);
      }
    }
  }

  /** The last space-separated field of the collapsed text is its trailing digits. */
  lemma {:induction false} CollapsedTrailing(s: string)
    ensures LastField(Collapse(Blank(s)), ' ') == TrailingDigits(s)
    decreases |s|
  {
    if |s| == 0 {
      assert Collapse(Blank(s)) == [];
    } else {
      var s' := s[..|s| - 1];
      var ch := s[|s| - 1];
      var b' := Blank(s');
      var bs := Blank(s);
      assert bs == b' + [if IsDigit(ch) then ch else ' '];
      assert bs[..|bs| - 1] == b';
      var c := Collapse(bs);
      if IsDigit(ch) {
        CollapsedTrailing(s');
        assert c == Collapse(b') + [ch];
        LastFieldSnoc(Collapse(b'), ' ', ch);
      } else {
        assert c[|c| - 1] == ' ';
        assert c == c[..|c| - 1] + [' '];
        LastFieldSnocSep(c[..|c| - 1], ' ');
      }
    }
  }

  /**
   The year at the end of a search term such as "Up%202009": the value of
   its last four characters, or of the whole term when it is shorter.
   */
  function TargetYear(term: string): (r: Option<int>)
    ensures |term| >= 4 && AllDigits(term[|term| - 4..]) ==> r == Some(DigitsValue(term[|term| - 4..]))
    ensures |term| < 4 ==> r == ParseInt(term)
  {
    var tail := term[if |term| >= 4 then |term| - 4 else 0..];
    assert |term| < 4 ==> tail == term;
    if |term| >= 4 && AllDigits(tail) then ParseDigits(tail); ParseInt(tail) else ParseInt(tail)
  }

  /**
   The year shown in a result's text, or `None` where the code's
   `int("")` fails because the text holds no digit.
   */
  function CandidateYear(text: string): (r: Option<int>)
    ensures r.None? <==> forall i :: 0 <= i < |text| ==> !IsDigit(text[i])
    ensures r.Some? ==> r.value == DigitsValue(LastDigitRun(text))
  {
    YearTextIsLastDigitRun(text);
    ParseDigits(YearText(text));
    ParseInt(YearText(text))
  }

  /**
   `match_years(result, term)`: `Ok(true)` exactly when the last digit run
   of the result text is within two of the term's year. A term whose last
   four characters are not a number, or a text without digits, raises
   ValueError.
   */
  function MatchYears(text: string, term: string): (r: Result<bool, Failure>)
    ensures r.Err? <==> TargetYear(term).None? || LastDigitRun(text) == []
    ensures r.Ok? ==> (r.value <==> -Tolerance <= DigitsValue(LastDigitRun(text)) - TargetYear(term).value <= Tolerance)
  {
    match TargetYear(term)
    case None => Err(ValueError("invalid literal for int()"))
    case Some(year) =>
      match CandidateYear(text)
      case None => Err(ValueError("invalid literal for int()"))
      case Some(found) => Ok(Abs(found - year) <= Tolerance)
  }

  function Abs(x: int): int {
    if x < 0 then -x else x
  }

  /**
   A result text made of a title, a year and a closing character, against a
   search term ending in a four-digit year: it matches exactly when the two
   years are at most two apart.
   */
  lemma {:induction false} MatchNear(title: string, found: nat, close: char, prefix: string, year: nat)
    requires |title| > 0 && !IsDigit(title[|title| - 1]) && !IsDigit(close)
    requires |NatToString(year)| == 4
    ensures MatchYears(title + NatToString(found) + [close], prefix + NatToString(year)) ==
      Ok(-Tolerance <= found - year <= Tolerance)
  {
    var text := title + NatToString(found) + [close];
    var term := prefix + NatToString(year);
    RunAfterBreak(title, NatToString(found), close);
    assert term[|term| - 4..] == NatToString(year);
    TermYear(term, year);
    MatchFromParts(text, term, found, year);
  }

  /** Two years apart still matches: "Up (2009)" is accepted for the term "Up%202011". */
  lemma {:induction false} MatchTwoApart()
    ensures MatchYears("Up (" + NatToString(2009) + ")", "Up%20" + NatToString(2011)) == Ok(true)
  {
    MatchNear("Up (", 2009, ')', "Up%20", 2011);
  }

  /** Three years apart does not match. */
  lemma {:induction false} MatchThreeApart()
    ensures MatchYears("Up (" + NatToString(2009) + ")", "Up%20" + NatToString(2012)) == Ok(false)
  {
    MatchNear("Up (", 2009, ')', "Up%20", 2012);
  }

  lemma {:induction false} MatchFromParts(text: string, term: string, found: int, year: int)
    requires LastDigitRun(text) != [] && DigitsValue(LastDigitRun(text)) == found
    requires TargetYear(term) == Some(year)
    ensures MatchYears(text, term) == Ok(-Tolerance <= found - year <= Tolerance)
  {
  }

  /** A result text without any digit makes the comparison fail. */
  lemma {:induction false} MatchWithoutDigits()
    ensures MatchYears("Up", "Up%202009").Err?
  {
    NoDigitRun("Up");
  }

  lemma {:induction false} NoDigitRun(b: string)
    requires |b| == 2 && !IsDigit(b[0]) && !IsDigit(b[1])
    ensures LastDigitRun(b) == []
  {
  }

  /** The digits between a non-digit and a closing non-digit are the last digit run. */
  lemma {:induction false} RunAfterBreak(p: string, d: string, close: char)
    requires |p| > 0 && !IsDigit(p[|p| - 1]) && AllDigits(d) && |d| > 0 && !IsDigit(close)
    ensures LastDigitRun(p + d + [close]) == d
  {
    var s := p + d + [close];
    assert s[..|s| - 1] == p + d;
    assert (p + d)[|p + d| - 1] == d[|d| - 1];
    LastRunSkips(s);
    LastRunTrailing(p + d);
    TrailingAfterBreak(p, d);
  }

  lemma {:induction false} LastRunSkips(s: string)
    requires |s| > 0 && !IsDigit(s[|s| - 1])
    ensures LastDigitRun(s) == LastDigitRun(s[..|s| - 1])
  {
  }

  lemma {:induction false} LastRunTrailing(s: string)
    requires |s| > 0 && IsDigit(s[|s| - 1])
    ensures LastDigitRun(s) == TrailingDigits(s)
  {
  }

  /** Digits after a non-digit are exactly the trailing digits. */
  lemma {:induction false} TrailingAfterBreak(p: string, d: string)
    requires |p| > 0 && !IsDigit(p[|p| - 1]) && AllDigits(d)
    ensures TrailingDigits(p + d) == d
  {
    var s := p + d;
    var r := TrailingDigits(s);
    assert r == s[|p|..];
  }

  lemma {:induction false} TermYear(term: string, year: nat)
    requires |term| >= 4 && term[|term| - 4..] == NatToString(year)
    ensures TargetYear(term) == Some(year)
  {
    ParseIntRoundTrip(year);
  }
}
